=== FILE: README.md ===
# Video platform back end: decision logic

This project models the request-handling core of a video-sharing back end written as a NestJS
application over a relational store (Prisma) and a key-value cache (Redis). The store is an
immutable value. Each table is a sequence of rows in table order, and a `findUnique`/`findFirst`
lookup returns the first match. Subscriptions are a set of (subscriber, channel) pairs. The
cache holds expiring strings and string-to-string hashes, read against a clock. Every service
method becomes a pure function from a store and a request to a `Result` and a new store. Its
errors are the HTTP exceptions the service throws: NotFound, Forbidden, BadRequest, Conflict,
Unauthorized and Internal.

The modules follow the program:

- `Schema`: rows and their first-match lookups.
- `Outcomes`: Result, Option and the error kinds.
- `Seqs`, `Text`, `Sorting`: sequence, string and stable-sort helpers.
- `Paging`: skip, `totalPages` and `hasMore`.
- `Videos`: upload, processing, status, update and delete.
- `ByteRanges`: the two Range-header parsers and the headers they produce.
- `Playback`: stream and watch, with rendition selection.
- `VideoRoutes`: the upload, stream and watch controller gates.
- `Comments`: create, reactions and pins.
- `Channels`: channel page, subscriptions, channel videos and the display name.
- `Playlists`: add and remove a video, find, list, update and delete.
- `Redis`: the key scheme and commands.
- `Otp`: issue and verify one-time codes.
- `AuthDto`: the request validators.
- `Auth`: register, login, verification and the user cache.
- `Guards`: the bearer-token and role guards.
- `Admin`: dashboard, moderation, user management and reports.
- `Analytics`: view recording, timeframes, device buckets, percentages and average.
- `Users`: listing, profile update, role change and watch history.

Parameters stand in for things outside the program's own logic:

- the clock (`now`);
- generated ids;
- `Math.random` draws;
- the password hash and compare functions;
- JWT signing and verification;
- the e-mail and phone validators;
- ffmpeg outcomes;
- directory listings;
- file sizes.

## Model

| member | source | states |
|---|---|---|
| Paging.TotalPages | src/modules/channels/channels.service.ts:131 | `ceil(total/limit)`: the fewest pages of `limit` rows that hold every row |
| Paging.Window | src/modules/users/users.service.ts:24-47 | a `skip`/`take` query returns the rows from position `skip` on, no more than `take` of them |
| Paging.HasMoreIffRowsRemain | src/modules/users/users.service.ts:60 | `hasMore` holds exactly when rows remain after the window |
| Paging.PageNonEmptyIff | src/modules/channels/channels.service.ts:98-131 | a page has items exactly when its number is at most `totalPages` |
| Paging.PageItems | src/modules/users/users.service.ts:24 | a page below 1 with a positive limit gives a negative skip, which the store refuses; any other page is a contiguous run of at most `limit` rows, and a short page is the last one |
| Paging.PageCount | src/modules/admin/admin.service.ts:149 | `totalPages` is undefined for a zero limit; otherwise it is the ceiling of total over limit |
| Paging.PageOfSorted | src/modules/users/users.service.ts:50 | a page of an ordered listing keeps the order and holds only listed rows |
| Paging.RowOnItsPage | src/modules/users/users.service.ts:24-41 | every row of a listing appears on page `i / limit + 1`, at offset `i % limit` |
| Videos.UploadVideo | src/modules/videos/videos.service.ts:73-113 | a failed store write gives Internal "Failed to upload video"; otherwise exactly one row is appended, PROCESSING, with duration 0, empty URL and thumbnail, zero counters and the caller as author |
| Videos.JsRound | src/modules/videos/videos.service.ts:350 | `Math.round` picks the integer nearest the value, ties going up |
| Videos.UpdateRow | src/modules/videos/videos.service.ts:345-359 | an update by id changes the first row with that id and nothing else, and does nothing for an unknown id |
| Videos.ProcessVideo | src/modules/videos/videos.service.ts:316-361 | processing makes exactly one write, to that row: when every step succeeds it is PUBLISHED with the 1080p URL, the thumbnail path and the rounded duration, and its other fields are kept; otherwise only its status changes, to DELETED; other rows are untouched |
| Videos.ProcessVideoAsWritten | src/modules/videos/videos.service.ts:43-71 | when the output directory, probe and thumbnail succeed but no encode reports `end`, the run never settles and the store is left as it was; in every other case it agrees with the corrected run |
| Videos.ProcessVideoAsWrittenHangs | src/modules/videos/videos.service.ts:341 | an uploaded video whose encodes all fail stays PROCESSING as written, but becomes DELETED when corrected |
| Videos.UploadThenProcess | src/modules/videos/videos.service.ts:79-96 | upload then processing leaves the new row in a terminal status, PUBLISHED exactly when the job succeeded, and earlier rows unchanged |
| Videos.GetVideoStatus | src/modules/videos/videos.service.ts:115-141 | an unknown id gives NotFound; progress is 100 exactly when the video is published and 50 otherwise |
| Videos.StatusAcrossLifecycle | src/modules/videos/videos.service.ts:124-138 | a new upload reports 50; after processing it reports 100 exactly when the job succeeded |
| Videos.UpdateVideo | src/modules/videos/videos.service.ts:238-270 | an unknown id gives NotFound and a non-author gets BadRequest; the author always succeeds: a non-empty title or description replaces the stored one, a given visibility replaces it, an absent or empty value keeps the old one, no other field of the row changes, and only that row is written |
| Videos.UpdateVideoIdempotent | src/modules/videos/videos.service.ts:247-264 | applying the same update twice gives the same row as applying it once |
| Videos.DeleteVideo | src/modules/videos/videos.service.ts:272-306 | NotFound, BadRequest for a non-author, and Internal when storage removal fails; the author with storage removed always succeeds, and exactly that row is removed |
| Videos.DeleteVideoRemovesOnlyIt | src/modules/videos/videos.service.ts:277-285 | after a delete the video is gone and every other video is still found |
| ByteRanges.HeaderValue | src/modules/videos/videos.service.ts:222-227 | a header is present exactly when some entry carries that name |
| ByteRanges.RangeDigits | src/modules/videos/videos.service.ts:310 | the digits kept from the header are decimal digits only |
| ByteRanges.ParseRange | src/modules/videos/videos.service.ts:308-314 | the start is the number spelled by the header's digits; the end is the start plus 10^6 or the last byte of the file, whichever comes first; the chunk size is end − start + 1; a start beyond the file is not refused and gives a chunk of non-positive size |
| ByteRanges.ParseRangeJoinsDigits | src/modules/videos/videos.service.ts:310-312 | `bytes=a-b` starts at the number spelled by a's digits followed by b's |
| ByteRanges.ParseRangeOpenEnded | src/modules/videos/videos.service.ts:310-312 | `bytes=a-` starts at a |
| ByteRanges.OpenEndedDigits | src/modules/videos/videos.service.ts:310-312 | the header `bytes=n-` reads as start n, which makes it the follow-up request of `Playback.NextChunkFollows` |
| ByteRanges.ParseRangeExample | src/modules/videos/videos.service.ts:308-314 | `bytes=0-99` over 1000 bytes gives bytes 99 to 999 |
| ByteRanges.StreamHeaders | src/modules/videos/videos.service.ts:222-227 | Content-Range is `bytes start-end/size`, Content-Length is the chunk size and ranges are accepted in bytes |
| ByteRanges.WatchRange | src/modules/videos/videos.service.ts:430-434 | a parsed start is never negative; the length is known exactly when both ends are, and then it is end − start + 1 |
| ByteRanges.WatchRangeOfDigits | src/modules/videos/videos.service.ts:431-433 | `bytes=a-b` splits on `-` into start a and end b, and an empty end means the last byte |
| ByteRanges.WatchRangeClosed | src/modules/videos/videos.service.ts:431-434 | a closed range `bytes=a-b` covers b − a + 1 bytes |
| ByteRanges.WatchRangeOpen | src/modules/videos/videos.service.ts:433-434 | an open range `bytes=a-` runs to the last byte of the file |
| ByteRanges.WatchRangeHeaders | src/modules/videos/videos.service.ts:447-452 | the partial reply names the range and its length in its headers |
| ByteRanges.WholeFileHeaders | src/modules/videos/videos.service.ts:454-463 | without a range the reply carries the whole size and no Content-Range |
| Playback.StreamVideo | src/modules/videos/videos.service.ts:202-236 | an unknown video or an unreadable file gives NotFound; a reversed chunk gives Internal; otherwise the reply streams the parsed chunk, which ends at the start plus 10^6 or the file's last byte, whichever is first, under the range headers |
| Playback.NextChunkFollows | src/modules/videos/videos.service.ts:202-236 | asking next for `bytes=<end + 1>-` streams the chunk that starts right after this one, and after the last byte the next request is refused, so sequential requests read the file without gap or overlap |
| Playback.FirstEndingWith | src/modules/videos/videos.service.ts:410-416 | the first listed file with the suffix is found, or none when no file has it |
| Playback.SelectFrom | src/modules/videos/videos.service.ts:407-425 | a selected file is a listed `.mp4`, and nothing is selected exactly when no `.mp4` is listed |
| Playback.SelectRendition | src/modules/videos/videos.service.ts:407-425 | a listing without `.mp4` gives NotFound "No playable video found" |
| Playback.SelectFromPrefers | src/modules/videos/videos.service.ts:407-416 | the first ladder quality that some file offers wins, and within it the first such file |
| Playback.SelectFromFallsBack | src/modules/videos/videos.service.ts:418-425 | when no quality is offered, the first `.mp4` is played |
| Playback.SelectRenditionPrefers | src/modules/videos/videos.service.ts:407-416 | the 1080, 720, 480, 360, 240 ladder is walked in that order |
| Playback.SelectRenditionFallsBack | src/modules/videos/videos.service.ts:418-425 | on the fixed ladder, with no quality offered, the first `.mp4` is played |
| Playback.WatchVideo | src/modules/videos/videos.service.ts:388-466 | a missing directory or no playable file gives NotFound; a range reply is partial with the split-on-dash window, and is refused when the window's size is unknown, negative or beyond the largest buffer; otherwise the whole file is sent |
| VideoRoutes.BaseName | src/modules/videos/videos.controller.ts:53 | the last path component has no slash |
| VideoRoutes.ExtName | src/modules/videos/videos.controller.ts:53 | the extension is empty, or a dot with no further dot or slash, and is a proper suffix of the base name |
| VideoRoutes.FileFilter | src/modules/videos/videos.controller.ts:58-76 | an upload is admitted exactly when its lowercased extension is on the allow-list; otherwise BadRequest |
| VideoRoutes.ExtNameOfPlain | src/modules/videos/videos.controller.ts:53 | the extension of a plain name is its text from the last dot |
| VideoRoutes.ExtNameOfDotless | src/modules/videos/videos.controller.ts:53 | a name with no dot has no extension |
| VideoRoutes.StoredFilenameKeepsExtension | src/modules/videos/videos.controller.ts:52-55 | the stored name keeps the original extension with its case, so the filter judges it as it judged the original |
| VideoRoutes.UploadRoute | src/modules/videos/videos.controller.ts:58-97 | the filter runs first, then the 500 MiB cap, then the missing-file check and "User not authenticated"; once all pass, the route succeeds exactly when the service does, with its receipt, store and error |
| VideoRoutes.StreamRoute | src/modules/videos/videos.controller.ts:119-140 | a request without Range is refused; the route succeeds exactly when the service does, always with 206; a NotFound from the service passes through and any other failure becomes "Error streaming video" |
| VideoRoutes.WatchRoute | src/modules/videos/videos.controller.ts:179-196 | the status is 206 exactly when a Range header was sent and 200 otherwise; a NotFound from the service passes through and any other failure becomes "Error streaming video" |
| VideoRoutes.StreamRouteFromStart | src/modules/videos/videos.controller.ts:119-140 | for a video whose file is on disk, a 206 is served from the header's start exactly when it lies inside the file; a start past the end reaches the client as "Error streaming video", and a missing video as NotFound |
| VideoRoutes.WatchRouteStatusMatchesReply | src/modules/videos/videos.controller.ts:179-196 | the status is 206 exactly when the reply carries a byte window and a Content-Range header, and 200 exactly for the whole file |
| VideoRoutes.FileFilterIgnoresCase | src/modules/videos/videos.controller.ts:67-68 | `.MP4` is admitted |
| VideoRoutes.LowerExeRefused | src/modules/videos/videos.controller.ts:59-66 | `.exe`, lower-cased, is not on the allow-list |
| VideoRoutes.FileFilterLastExtension | src/modules/videos/videos.controller.ts:67-68 | only the last extension counts, so `x.mp4.exe` is refused |
| VideoRoutes.FileFilterDotfile | src/modules/videos/videos.controller.ts:67-68 | a bare `.mp4` file name has no extension and is refused |
| Comments.Create | src/modules/comments/comments.service.ts:37-90 | a missing video or missing parent gives NotFound and changes nothing; a caller with no user row is refused by the store as Internal; otherwise exactly one comment is added, by the caller, with zero likes and no replies |
| Comments.CreateAcceptsForeignParent | src/modules/comments/comments.service.ts:48-56 | a parent on another video is accepted from an existing user |
| Comments.React | src/modules/comments/comments.service.ts:159-295 | like and dislike on an unknown comment give NotFound; on a known one they succeed unless a new reaction would have to be recorded for a caller with no user row, which the store refuses as Internal; a reaction of the same kind is withdrawn (that row deleted, its counter down one); one of the opposite kind is converted in place (one counter up, the other down); otherwise a new row is appended and its counter goes up one |
| Comments.ReactToggles | src/modules/comments/comments.service.ts:176-225 | after a reaction the caller holds that kind on the comment exactly when they did not before |
| Comments.ReactKeepsCountersExact | src/modules/comments/comments.service.ts:159-295 | with one reaction per user and comment, the counters stay equal to the number of reactions of each kind |
| Comments.ReactTwiceRestores | src/modules/comments/comments.service.ts:176-186 | an existing user reacting twice with the same kind restores the reactions and counters |
| Comments.RemoveReaction | src/modules/comments/comments.service.ts:297-329 | an unknown comment gives NotFound and a known one always succeeds; all of the caller's reactions on it go, and both counters are recounted |
| Comments.RemoveReactionKeepsCountersExact | src/modules/comments/comments.service.ts:306-328 | after a removal the counters equal the remaining reactions and the one-per-user rule holds |
| Comments.UnpinAll | src/modules/comments/comments.service.ts:358-366 | every comment of the video is unpinned, no other field of any comment changes, and comments of other videos are untouched |
| Comments.TogglePin | src/modules/comments/comments.service.ts:331-373 | NotFound, or Forbidden for anyone but the video's author, who always succeeds; the comment's pin flips; pinning also unpins every other comment of that video, unpinning changes only that comment, and comments of other videos never change |
| Comments.TogglePinKeepsOnePin | src/modules/comments/comments.service.ts:347-371 | at most one pinned comment per video before means at most one after |
| Channels.GetChannelByUsername | src/modules/channels/channels.service.ts:19-82 | an unknown username gives NotFound; the card names the channel "first last", shows the avatar only when one is set, dates it from the user's creation, sums the views of that author's published public videos, counts every video of the author and the subscribers, and says subscribed only for a caller holding the subscription |
| Channels.ChannelViewsAppend | src/modules/channels/channels.service.ts:35-54 | adding a video adds its views to the total exactly when it is listed and by that author |
| Channels.UploadKeepsChannelViews | src/modules/channels/channels.service.ts:35-54 | a fresh upload, still PROCESSING, does not change any channel's total views |
| Channels.ToggleSubscribe | src/modules/channels/channels.service.ts:178-214 | self-subscription gives BadRequest; otherwise the pair's membership flips and the new state is returned |
| Channels.ToggleSubscribeKeepsReferences | src/modules/channels/channels.service.ts:195-213 | subscriptions keep referring to existing users |
| Channels.ToggleSubscribeTwice | src/modules/channels/channels.service.ts:195-213 | toggling twice restores the store |
| Channels.ToggleShowsOnChannel | src/modules/channels/channels.service.ts:35-67 | after a toggle, the channel page shows the caller as subscribed exactly when the toggle returned true |
| Channels.NameParts | src/modules/channels/channels.service.ts:162-164 | no name gives two empty parts; the first part has no space; a name with a space is the first part, a space and the rest |
| Channels.UpdateChannel | src/modules/channels/channels.service.ts:158-176 | an unknown user is an error; otherwise the name is split into first and last, and the avatar changes only when given |
| Channels.UpdateChannelShowsName | src/modules/channels/channels.service.ts:158-176 | a name containing a space reads back whole as the channel name |
| Channels.DisplayName | src/modules/channels/channels.service.ts:141-144 | a blank full name falls back to the username; otherwise the name is "first last" trimmed, which is the run of it from the first to the last non-blank character, with only blanks before and after that run |
| Text.TrimSlice | src/modules/channels/channels.service.ts:142 | the trimmed string is the part of the input after its leading blanks, with only blanks after it, and it starts and ends on a non-blank character when not empty |
| Channels.FullNameEdges | src/modules/channels/channels.service.ts:141-144 | an all-space first name with an empty last name is blank; two non-blank names join with one space |
| Channels.ChannelRows | src/modules/channels/channels.service.ts:98-130 | the listing holds exactly the author's published public videos, ordered by the chosen sort |
| Channels.GetChannelVideos | src/modules/channels/channels.service.ts:84-156 | an unknown channel gives NotFound; the page is the run of the channel's sorted listing starting at `(page − 1) * limit`, at most `limit` long; `totalPages` is the ceiling; each item names the channel's display name |
| Channels.ChannelListsEveryVideo | src/modules/channels/channels.service.ts:98-131 | the i-th video of the channel's listing is item `i % limit` of page `i / limit + 1`, so no row is skipped by paging |
| Channels.ChannelVideosPageNonEmptyIff | src/modules/channels/channels.service.ts:98-131 | a page has videos exactly when its number is within `totalPages` |
| Playlists.Owned | src/modules/playlist/playlist.service.ts:67-71 | a missing playlist gives NotFound and a non-owner gets Forbidden |
| Playlists.AddVideo | src/modules/playlist/playlist.service.ts:56-133 | owner and video checks come first; a video already present returns its entry and adds no row; a new entry's position defaults to the entry count, and a given position is kept |
| Playlists.AddVideoIdempotent | src/modules/playlist/playlist.service.ts:77-103 | adding the same video again returns the same entry and leaves the store as it was |
| Playlists.AddVideoKeepsOneEntry | src/modules/playlist/playlist.service.ts:77-109 | each video appears at most once per playlist |
| Playlists.FindOne | src/modules/playlist/playlist.service.ts:135-185 | an unknown playlist gives NotFound; a private one viewed by anyone but its owner gives Forbidden, and any other view succeeds; the entries are the playlist's own, in ascending position |
| Playlists.FindOneOwnerAllowed | src/modules/playlist/playlist.service.ts:151-153 | the owner may always view the playlist |
| Playlists.FindOneListsEveryEntry | src/modules/playlist/playlist.service.ts:155-175 | the view holds exactly the playlist's entries |
| Playlists.HeadThumbnail | src/modules/playlist/playlist.service.ts:228-255 | the thumbnail is that of the video of the last entry at position 0, shown as none when that video is missing or its thumbnail empty |
| Playlists.LaterHeadEntryWins | src/modules/playlist/playlist.service.ts:228-255 | appending an entry at position 0 whose video has a thumbnail makes that the playlist's thumbnail |
| Playlists.FindByUser | src/modules/playlist/playlist.service.ts:187-264 | non-owners see only public playlists, newest first; the page is the run of that listing starting at `(page − 1) * limit`; each summary carries the playlist's video count and its head thumbnail |
| Playlists.FindByUserPageVisible | src/modules/playlist/playlist.service.ts:195-216 | each listed playlist belongs to the user and is visible to the viewer, newest first |
| Playlists.FindByUserListsEveryVisible | src/modules/playlist/playlist.service.ts:193-216 | the i-th playlist the viewer may see is item `i % limit` of page `i / limit + 1`, so no row is skipped by paging |
| Playlists.FindByUserOwnerSeesMore | src/modules/playlist/playlist.service.ts:195-201 | the owner's total is never below a visitor's |
| Playlists.Update | src/modules/playlist/playlist.service.ts:266-318 | only the owner may update; absent fields, visibility included, keep their values |
| Playlists.UpdateIdempotent | src/modules/playlist/playlist.service.ts:276-287 | the same update applied twice equals applying it once |
| Playlists.RemoveVideo | src/modules/playlist/playlist.service.ts:320-346 | only the owner may remove; a video not in the playlist gives NotFound; the owner removing a listed video always succeeds, and exactly that entry is deleted |
| Playlists.AddThenRemoveVideo | src/modules/playlist/playlist.service.ts:326-343 | removing a video just added restores the store |
| Playlists.Remove | src/modules/playlist/playlist.service.ts:348-365 | only the owner may delete; its entries and then the playlist are removed |
| Playlists.RemoveThenNotFound | src/modules/playlist/playlist.service.ts:354-362 | a deleted playlist is not found afterwards |
| Redis.OtpKey | src/core/database/redis.service.ts:25-27 | the key always starts with `users:`, and the prefix is added only when missing |
| Redis.OtpKeyIdempotent | src/core/database/redis.service.ts:33-35 | normalising a key twice is the same as once |
| Redis.Get | src/core/database/redis.service.ts:32-37 | a key reads back its value while it has not expired |
| Redis.SetEx | src/core/database/redis.service.ts:28 | SETEX answers OK and replaces only that key with a value that expires after the given seconds |
| Redis.Ttl | src/core/database/redis.service.ts:39-41 | TTL is −2 for a missing or expired key, −1 for a live key without expiry, and the seconds left before expiry for a live key with one |
| Redis.SetExThenTtl | src/core/database/redis.service.ts:28-41 | after SETEX for n seconds, TTL counts down from n and then reports the key gone |
| Redis.Del | src/core/database/redis.service.ts:43-45 | DEL removes that key and keeps every other key |
| Redis.SetOtp | src/core/database/redis.service.ts:24-30 | a stored code reads back under the normalised key |
| Redis.GetOtp | src/core/database/redis.service.ts:32-37 | the code stored under the phone's normalised key reads back while it lives, and nothing otherwise |
| Redis.SetThenGetOtp | src/core/database/redis.service.ts:7 | a code reads back for 180 seconds and is gone after |
| Redis.HSet | src/core/database/redis.service.ts:47-52 | HSET merges the fields into the hash and leaves other hashes and strings alone |
| Redis.HGet | src/core/database/redis.service.ts:66-68 | a field reads back exactly when the hash holds it, and then with the stored value |
| Redis.UserAndIndexKeysDiffer | src/core/database/redis.service.ts:51-63 | a user hash key never collides with an index key |
| Redis.GetUserByField | src/core/database/redis.service.ts:70-82 | no index entry means no user; otherwise the result is the hash of the indexed id |
| Redis.GetUserByEmail | src/core/database/redis.service.ts:70-75 | a user is found exactly when the e-mail index has a non-empty id for the address, and the answer is that user's whole hash |
| Redis.GetUserByPhone | src/core/database/redis.service.ts:76-82 | a user is found exactly when the phone index has a non-empty id for the number, and the answer is that user's whole hash |
| Redis.CreateUserThenLookup | src/core/database/redis.service.ts:84-102 | a created user is unverified and is found by both e-mail and phone |
| Redis.CreateUser | src/core/database/redis.service.ts:84-102 | the user's hash gains the given fields, the unverified flag and both stamps over what it held; both indexes map the new address and phone to the id; no string and no other hash changes |
| Redis.VerifyUser | src/core/database/redis.service.ts:104-106 | isVerified becomes `true`, every other field of the user's hash is kept and none is added, and all other hashes and every string, including pending codes, stay as they were |
| Redis.VerifyUserIdempotent | src/core/database/redis.service.ts:104-106 | verifying twice is the same as once |
| Otp.GenerateOtp | src/modules/auth/otp.service.ts:9-17 | the code is six digits, each the last decimal digit of its draw |
| Otp.SendOtp | src/modules/auth/otp.service.ts:19-40 | while a code is stored for the phone, the send is refused with "Try again" and the seconds left; otherwise the new code is stored and readable |
| Otp.VerifyOtp | src/modules/auth/otp.service.ts:42-50 | verification succeeds exactly when the stored code equals the given one; success deletes the code, and failure leaves it |
| Otp.PlainPhoneKey | src/modules/auth/otp.service.ts:19-44 | for a phone without the prefix, the send and verify keys agree |
| Otp.SendIsRateLimited | src/modules/auth/otp.service.ts:34-40 | a second send within the TTL is refused |
| Otp.SendAllowedAfterExpiry | src/modules/auth/otp.service.ts:34-40 | a second send after the TTL is allowed |
| Otp.SendThenVerifyOnce | src/modules/auth/otp.service.ts:42-50 | the sent code verifies once within the TTL and fails on a second try |
| Otp.WrongCodeRefused | src/modules/auth/otp.service.ts:44-47 | any other code is refused |
| Otp.PrefixedPhoneNeverVerifies | src/modules/auth/otp.service.ts:19-50 | a phone that already carries the prefix has its code stored under the phone itself but read back under a doubly-prefixed key, so it never verifies |
| AuthDto.ParsePurpose | src/modules/auth/dto/create-auth.dto.ts:12-17 | a recognised purpose prints back as the text it came from |
| AuthDto.PurposeRoundTrip | src/modules/auth/dto/create-auth.dto.ts:12-17 | each of the four purposes parses back from its value |
| AuthDto.ValidatorLength | src/modules/auth/dto/create-auth.dto.ts:63 | the validator's length never exceeds the string's, and equals it when there are no variation selectors |
| AuthDto.PasswordPatternIffOneLine | src/modules/auth/dto/create-auth.dto.ts:64-67 | the three lookaheads pass exactly when a lowercase letter, an uppercase letter and a digit occur on one line |
| AuthDto.SingleLinePassword | src/modules/auth/dto/create-auth.dto.ts:63-69 | for one-line input the pattern means "has a lowercase letter, an uppercase letter and a digit" |
| AuthDto.SendOtpMessages | src/modules/auth/dto/create-auth.dto.ts:19-27 | no messages exactly when the phone is valid and the purpose is known |
| AuthDto.VerifyOtpMessages | src/modules/auth/dto/create-auth.dto.ts:29-42 | no messages exactly when the phone is valid, the code is six ASCII digits and the purpose is known |
| AuthDto.RegisterMessages | src/modules/auth/dto/create-auth.dto.ts:44-70 | no messages exactly when both names are letters, spaces, `-` and `'`, the e-mail and phone are valid, and the password passes |
| AuthDto.LoginMessages | src/modules/auth/dto/create-auth.dto.ts:72-80 | no messages exactly when the phone is valid and the password is non-empty |
| AuthDto.Validated | src/modules/auth/dto/create-auth.dto.ts:19-82 | a request passes unchanged when there are no messages, and is a BadRequest otherwise |
| AuthDto.RegisterPasswordRule | src/modules/auth/dto/create-auth.dto.ts:63-69 | an alphanumeric password of six or more characters passes exactly when it mixes cases and a digit |
| Auth.Flag | src/modules/auth/auth.service.ts:101-102 | a flag is written as `true` exactly when it is set |
| Auth.OrEmpty | src/modules/auth/auth.service.ts:95-105 | a missing or empty value is cached as the empty string |
| Auth.RoleName | src/modules/auth/auth.service.ts:103 | a role is cached as a non-empty name |
| Auth.CacheUser | src/modules/auth/auth.service.ts:92-113 | the cached hash's password is empty for a store user |
| Auth.Deserialize | src/modules/auth/auth.service.ts:75-90 | a flag reads as set exactly when its field is `true` |
| Auth.CacheRoundTrip | src/modules/auth/auth.service.ts:84-102 | reading a cached user back gives the same id, contact details, names and verification flags |
| Auth.LocalPart | src/modules/auth/auth.service.ts:131-132 | the part before the first `@` has no `@` and begins the address |
| Auth.BaseUsername | src/modules/auth/auth.service.ts:131-134 | the base is the lowercased local part's `[a-z0-9_]` characters, all of them and in their order |
| Auth.BaseUsernameDetermined | src/modules/auth/auth.service.ts:131-134 | any in-order selection of the local part's username characters that misses none of them is the base |
| Auth.Suffix | src/modules/auth/auth.service.ts:135 | the random suffix lies in [1000, 9999] |
| Auth.Username | src/modules/auth/auth.service.ts:136 | the username is the base followed by the suffix's digits |
| Auth.TakenColumn | src/modules/auth/auth.service.ts:166-170 | a create fails on `username` exactly when another row holds that username |
| Auth.CreateFrom | src/modules/auth/auth.service.ts:147-181 | a username collision is retried up to three attempts, then gives Conflict; other failures propagate as Internal; reaching a candidate that clashes on nothing always inserts it |
| Auth.Registered | src/modules/auth/auth.service.ts:183-207 | the user is cached; the reply succeeds exactly when no code was pending for the phone, and then the new code is stored |
| Auth.Register | src/modules/auth/auth.service.ts:115-208 | an e-mail conflict wins over a phone conflict; with neither, it is the creation, caching and sending of the rest of the registration; a new row has the request's contact details and names, is unverified, and its username is the address's stem followed by one of the drawn suffixes |
| Auth.RegisterNew | src/modules/auth/auth.service.ts:140-208 | a refused insertion is returned with nothing changed; an insertion is followed by caching the row and sending the code, whose outcome is the reply; the users either stay as they were or gain exactly one such row after the existing ones |
| Auth.RegisterTakesEmailAndPhone | src/modules/auth/auth.service.ts:123-129 | after a registration that adds a row, its e-mail and phone are found |
| Auth.RegisterKeepsUserWhenCodeRefused | src/modules/auth/auth.service.ts:183-202 | a rate-limited send fails the request but keeps the created user |
| Auth.RegisterSucceedsWhenFree | src/modules/auth/auth.service.ts:115-208 | with the address, phone, id and first drawn username free and no live code, registration succeeds and appends the request's row under that username |
| Auth.VerifyRegistration | src/modules/auth/auth.service.ts:210-260 | an invalid code gives BadRequest with no change; a valid code for a phone with no user gives BadRequest "User not found" with the code used up; otherwise the phone is marked verified and cached; only the users table can change |
| Auth.RegisterThenVerify | src/modules/auth/auth.service.ts:115-260 | registering and then giving the sent code within the TTL verifies the phone |
| Auth.RegisteredCodeLive | src/modules/auth/auth.service.ts:183-207 | after a successful registration the phone finds the new user and the sent code is still live, within its TTL, under the key verification reads |
| Auth.Login | src/modules/auth/auth.service.ts:262-296 | unknown user, no password or a wrong password give "Invalid credentials"; an accepted password on an unverified phone sends a code and then gives Unauthorized, and on a verified phone caches the user and succeeds exactly when the code is sent; a refused send returns its own error |
| Auth.LoginNeedsVerifiedPhone | src/modules/auth/auth.service.ts:284-291 | login never succeeds for an unverified phone |
| Auth.VerifyLogin | src/modules/auth/auth.service.ts:298-358 | an invalid code gives BadRequest; a valid code for a phone with no user gives Unauthorized "User not found" with the code used up; otherwise the session carries the tokens and the user's id, e-mail, phone and names, and only the user's refresh token changes |
| Auth.LoginThenVerify | src/modules/auth/auth.service.ts:262-358 | a verified user with the right password and no pending code is sent one at login, and entering it in time opens a session for that user with the signed tokens |
| Auth.SendOtp | src/modules/auth/auth.service.ts:359-388 | SIGNUP on a known phone gives Conflict; LOGIN or PASSWORD_RESET on an unknown phone gives BadRequest; VERIFY_ACCOUNT does no lookup; a sent code answers "OTP sent successfully" with the code stored, and a refused send answers "Failed to send OTP" with nothing stored |
| Auth.SendLoginCodeThenVerify | src/modules/auth/auth.service.ts:298-388 | a login code sent through the service opens a session for the phone's user when entered in time |
| Guards.IsPublic | src/common/guard/auth.guard.ts:25-32 | the handler's marker overrides the class's |
| Guards.BearerToken | src/common/guard/auth.guard.ts:41 | the token is the second space-separated field |
| Guards.BearerTokenOf | src/common/guard/auth.guard.ts:37-41 | `Bearer t` yields t |
| Guards.Authenticate | src/common/guard/auth.guard.ts:25-56 | public routes pass without a user; a missing or non-`Bearer ` header gives "No token provided"; otherwise the request passes exactly when the token verifies, and fails with "Invalid or expired token" when it does not; the user takes `sub`, `email` and the roles, which default to none |
| Guards.HandlerOverridesClass | src/common/guard/auth.guard.ts:25-32 | a handler marked not public is checked even on a public class |
| Guards.LowercaseSchemeRefused | src/common/guard/auth.guard.ts:37-39 | the scheme is case-sensitive |
| Guards.Authorize | src/common/guard/role.guard.ts:21-41 | no required roles passes; a missing user gives Unauthorized; otherwise access is granted exactly when a required role is held, else Forbidden naming the roles |
| Guards.AuthorizeMonotone | src/common/guard/role.guard.ts:35 | holding more roles never loses access |
| Guards.TokenWithRolePassesBoth | src/common/guard/role.guard.ts:34-35 | a token carrying a required role passes both guards |
| Guards.NoRolesNoAccess | src/common/guard/auth.guard.ts:46-50 | a token with no roles is Forbidden on every role-restricted route |
| Admin.Half | src/modules/admin/admin.service.ts:73 | the watch time is the floor of half the summed duration |
| Admin.GetDashboardStats | src/modules/admin/admin.service.ts:19-114 | the totals count users and published videos and sum published views and halved durations; today's figures count new users and published videos since the start of the day and sum the views of those videos |
| Admin.TodayWithinTotals | src/modules/admin/admin.service.ts:19-114 | today's new users, new videos and views never exceed the totals |
| Admin.GetPendingVideos | src/modules/admin/admin.service.ts:116-152 | the page is the run of the uploading videos, newest first, starting at `(page − 1) * limit`; page and limit default to 1 and 10 |
| Admin.PendingListsEveryUpload | src/modules/admin/admin.service.ts:118-138 | the i-th uploading video is item `i % limit` of page `i / limit + 1`, so no row is skipped by paging |
| Admin.ModerateVideo | src/modules/admin/admin.service.ts:154-177 | an unknown video gives NotFound; approve publishes and reject deletes |
| Admin.LastModerationWins | src/modules/admin/admin.service.ts:162-169 | of two moderations the second decides the status |
| Admin.MatchingUsers | src/modules/admin/admin.service.ts:185-204 | the listing holds exactly the users matching the search and status, newest first |
| Admin.GetUsers | src/modules/admin/admin.service.ts:179-235 | the total counts users matching the search and status; the page is the run of them, newest first, starting at `(page − 1) * limit`, each shown as its summary |
| Admin.GetUsersListsEveryMatch | src/modules/admin/admin.service.ts:181-221 | the i-th matching user is item `i % limit` of page `i / limit + 1`, so no row is skipped by paging |
| Admin.UnfilteredListsEveryone | src/modules/admin/admin.service.ts:185-204 | with no filters, the total is every user |
| Admin.StatusesDisjoint | src/modules/admin/admin.service.ts:192-204 | no user matches ACTIVE together with PENDING or BLOCKED |
| Admin.ToggleUserBlock | src/modules/admin/admin.service.ts:237-269 | ADMIN becomes USER and anything else becomes ADMIN; the message says blocked exactly when the new role is ADMIN; no other table changes |
| Admin.ToggleTwice | src/modules/admin/admin.service.ts:248-267 | toggling twice restores a USER or ADMIN role |
| Admin.VerifyUser | src/modules/admin/admin.service.ts:271-289 | an unknown user gives NotFound; otherwise the e-mail is marked verified and no other table changes |
| Admin.VerifyUserIdempotent | src/modules/admin/admin.service.ts:276-282 | verifying twice is the same as once |
| Admin.GetReports | src/modules/admin/admin.service.ts:291-302 | always an empty list with total and pages 0; a given non-zero page and limit are echoed, and a missing or zero one shows as 1 and 10 |
| Admin.ReportsShowTheirQuery | src/modules/admin/admin.service.ts:291-302 | the page and limit a reply shows, asked for again, give the same reply |
| Analytics.UpsertWatch | src/modules/analytics/analytics.service.ts:35-46 | a (user, video) history row is created or overwritten with the new watch time, other pairs stay, and the pair stays unique |
| Analytics.RecordView | src/modules/analytics/analytics.service.ts:19-60 | an unknown video gives NotFound with no change; otherwise the view count rises by one; then, for a known viewer, the history is upserted and one analytics row appended; for a viewer with no user row the store refuses the first row it would create, and the writes before it stay |
| Analytics.RepeatViewOverwrites | src/modules/analytics/analytics.service.ts:35-46 | a second view by the same user keeps one history row, which holds the later watch time |
| Analytics.RecordViewCountsOnce | src/modules/analytics/analytics.service.ts:28-33 | a recorded view adds one to that video's count and none to another's |
| Analytics.ParseTimeframe | src/modules/analytics/analytics.service.ts:64-101 | no timeframe means 7d, and an unknown one means all time |
| Analytics.TimeframeRoundTrip | src/modules/analytics/analytics.service.ts:85-101 | each timeframe parses back from its value |
| Analytics.StartDate | src/modules/analytics/analytics.service.ts:82-101 | the window reaches back one day for `24h`, 7 for `7d`, 30 for `30d` and 90 for `90d`, always starting before now, and starts at the epoch for all time |
| Analytics.WiderTimeframeStartsEarlier | src/modules/analytics/analytics.service.ts:82-101 | a timeframe reaching back more days starts no later, and all time starts no later than any window after the epoch |
| Analytics.BucketOf | src/modules/analytics/analytics.service.ts:177-184 | mobile when the lowercased name contains "mobile", else tablet when it contains "tablet", else desktop |
| Analytics.TallyIsLastCount | src/modules/analytics/analytics.service.ts:171-186 | each bucket ends up holding the count of the last group that fell into it |
| Analytics.LaterGroupOverwrites | src/modules/analytics/analytics.service.ts:177-186 | two groups in one bucket do not add: the later count wins |
| Analytics.BucketsCountRows | src/modules/analytics/analytics.service.ts:153-186 | when at most one device falls into each bucket, a bucket counts the rows of its devices |
| Analytics.RoundDiv | src/modules/analytics/analytics.service.ts:190-197 | rounding a quotient lands within half of it, ties going up |
| Analytics.PercentBounds | src/modules/analytics/analytics.service.ts:188-193 | a share of a larger total rounds into [0, 100], and 0 for no part |
| Analytics.DevicePercentages | src/modules/analytics/analytics.service.ts:188-193 | each bucket's percentage is the rounded share of its count in the sum of the counts plus one, which lies in [0, 100] and is 0 without data |
| Analytics.AverageViewDuration | src/modules/analytics/analytics.service.ts:195-198 | 0 without views; otherwise the rounded mean watch time |
| Analytics.Authorized | src/modules/analytics/analytics.service.ts:67-80 | an unknown video gives NotFound and a non-author gets BadRequest |
| Analytics.GetVideoAnalytics | src/modules/analytics/analytics.service.ts:62-225 | errors are exactly those of the authorization; the totals count and sum the rows in the window; the average is the rounded mean of those; the device breakdown is the percentages of the tallied groups; retention is the fixed curve |
| Analytics.BreakdownOfWindow | src/modules/analytics/analytics.service.ts:153-193 | with one group per device bucket, the breakdown is the percentages of the rows in the window counted per bucket |
| Analytics.TallyIsBucketCounts | src/modules/analytics/analytics.service.ts:171-186 | with one group per bucket, the tally holds each bucket's row count |
| Analytics.RecordedViewIsCounted | src/modules/analytics/analytics.service.ts:19-126 | a recorded view is counted in the video's analytics, with its watch time |
| Analytics.EarlierStartCountsMore | src/modules/analytics/analytics.service.ts:111-116 | an earlier window start never counts fewer views |
| Analytics.WiderTimeframeCountsMore | src/modules/analytics/analytics.service.ts:85-116 | a longer timeframe never counts fewer views |
| Users.ToResponse | src/modules/users/users.service.ts:187-193 | the response copies the user's id, names, e-mail, username, role, avatar, both verification flags and creation time, and absent counts default to 0 |
| Users.CountsDefaultToZero | src/modules/users/users.service.ts:190-191 | a user without counts shows zero subscribers and subscriptions |
| Users.FindAll | src/modules/users/users.service.ts:13-62 | the total counts users matching the search ignoring case; the page is the run of them, newest first, starting at `(page − 1) * limit`, each with its counts; `hasMore` exactly when rows remain |
| Users.FindAllListsEveryMatch | src/modules/users/users.service.ts:24-56 | the i-th matching user is item `i % limit` of page `i / limit + 1`, so no row is skipped by paging |
| Users.NoSearchCountsEveryone | src/modules/users/users.service.ts:28-35 | with no search, the total is every user |
| Users.FindById | src/modules/users/users.service.ts:64-89 | an unknown user gives NotFound |
| Users.Patched | src/modules/users/users.service.ts:102-120 | given e-mail, username and avatar are written, and every other field is kept |
| Users.UpdateUser | src/modules/users/users.service.ts:91-143 | NotFound; Conflict exactly when a new, different e-mail is taken; without that, the store refuses the update exactly when the new username belongs to another user; otherwise only that row is patched |
| Users.OwnEmailNeverConflicts | src/modules/users/users.service.ts:102-112 | resubmitting one's own e-mail never conflicts |
| Users.BioIsNotWritten | src/modules/users/users.service.ts:99-120 | the bio is never written |
| Users.UpdateTwice | src/modules/users/users.service.ts:91-143 | the same update applied twice leaves the user as after once |
| Users.UpdateUserRole | src/modules/users/users.service.ts:156-185 | a caller who is not ADMIN gets BadRequest with no change; otherwise the role is set |
| Users.RoleChangeIsSeen | src/modules/users/users.service.ts:156-185 | after a role change, the user is found with the new role |
| Users.GetWatchHistory | src/modules/users/users.service.ts:195-229 | the page is the run of the user's own history, most recent first, starting at `(page − 1) * limit`, each row with its video; `hasMore` exactly when rows remain |
| Users.HistoryListsEveryEntry | src/modules/users/users.service.ts:200-227 | the user's i-th history row is item `i % limit` of page `i / limit + 1`, so no row is skipped by paging |
| Users.ClearWatchHistory | src/modules/users/users.service.ts:231-235 | exactly the other users' history rows are kept, in their order |
| Users.ClearedHistoryIsEmpty | src/modules/users/users.service.ts:195-235 | after clearing, the user's history is empty |

## Left out

- Ordering ties: listings are stable sorts of the table order by the query's key; how the database breaks ties is not modelled.
- `getUserSubscriptions` (src/modules/channels/channels.service.ts:216-280): a join listing with no decision logic beyond pagination, which `Paging` covers.
- Playlist `create` (src/modules/playlist/playlist.service.ts:16-54): a plain insert.
- Comment `findByVideoId` and the video details query: read-only joins.
- `deleteUser` (src/modules/users/users.service.ts:145-154): its effect is the database's cascade rules, which are not modelled.
- Admin `resolveReport` and the dashboard's top categories: reports are not stored, and the categories query has no logic of its own.
- Raw SQL aggregations for views by day and by country (src/modules/analytics/analytics.service.ts:128-151): the SQL runs in the database. The device groups come in as a parameter, in the order the database returns them.
- Retention: the fixed sample curve is a constant.
- ffmpeg, ffprobe and the filesystem: their outcomes are inputs (`Job`, the directory listing, file sizes).
- The background start of processing and any interleaving with requests: concurrency.
- Processing writes its files under `uploads/videos/<id>` but stores `videos/<id>/...` as the URL; the filesystem side of that mismatch is not modelled.
- Cryptography and randomness: bcrypt, JWT signing and verification, uuids and `Math.random` are parameters.
- The e-mail and phone validators: library code, passed as predicates.
- Timestamps are rendered as decimal numbers, not ISO dates.
- Redis failures, TTL timing races and connection lifecycle: the cache is an in-memory map read at a given time.
- HSET's count of added fields is not returned.
- Case mapping is ASCII only.
- A negative page size is not modelled: limits are natural numbers.
- DTO default limits (50 and 20) versus the services' own defaults: the services' defaults are modelled.
- Validation messages are a set: their order and wording are not modelled, only whether any arise.
- Response serialization of the user DTO (src/modules/users/dto/user-response.dto.ts:44-51, applied by src/modules/users/users.controller.ts:24): `UserResponse` carries the exposed profile fields and the two counts only. The source's responses carry more. They keep `refreshToken` and `phoneNumber`, because the `@Exclude` marks are on `refresh_token` and `phone_number`, while the rows spread in by src/modules/users/users.service.ts:187-193 use camelCase names. Only `password` is dropped. Those leaked fields are not modelled.
- Analytics.StartDate: days are a fixed 86,400,000 ms; calendar and daylight-saving arithmetic is not modelled.
- Analytics.RoundDiv: `Math.round` is taken on the exact quotient, not on a double.
- Videos.JsRound: the probed duration is a real number, not a double.
- Analytics.RecordView: the relational schema is not part of this model. The viewer is taken to be a required relation of both the history row and the analytics row.
- Database error texts: a write the store refuses for a missing related row is `Internal` with one fixed message, not the driver's own text.
- Playback.WatchVideo: `MaxBuffer` is 2^53 - 1, the limit of Node.js 22 and later on 64-bit platforms. Earlier releases stop near 2^32, and the source does not fix the runtime version.
- Subscriber and subscription counts: the relations are not in the source shown, so subscribers are taken as the rows whose channel is the user and subscriptions as those whose subscriber is the user.

## Findings

| source | as written | input that shows it | evidently intended | confidence | as-written member | corrected member |
|---|---|---|---|---|---|---|
| src/modules/videos/videos.service.ts:43-71, 341 | the encode step resolves on the first `end` event and never rejects, so when every encode errors, `processVideo` waits for ever and the row stays PROCESSING | an upload whose four encodes all fail (`Job(true, Probed(Some(12.0)), true, false, true)`) | the failure reaches the catch block and the row is marked DELETED | high; not executed | Videos.ProcessVideoAsWritten, Videos.ProcessVideoAsWrittenHangs | Videos.ProcessVideo |

=== FILE: admin.dfy ===
/** The administration service: dashboard totals, the moderation queue,
    the user list with its search and status filters, and the role and
    verification switches. Blocking is represented by the `ADMIN` role, and
    the start of the current day is a parameter. */
module Admin {
  import opened Outcomes
  import opened Text
  import opened Schema
  import Seqs
  import Paging
  import Sorting
  import Channels

  predicate Published(v: Video) { v.status == PUBLISHED }

  function ViewsOf(v: Video): int { v.viewsCount }

  function DurationOf(v: Video): int { v.duration }

  /** `Math.floor(x * 0.5)`. */
  function Half(x: int): (h: int)
    ensures 2 * h <= x < 2 * h + 2
  {
    x / 2
  }

  datatype DashboardStats = DashboardStats(
    totalUsers: nat, totalVideos: nat, totalViews: int, totalWatchTime: int,
    newUsersToday: nat, newVideosToday: nat, viewsToday: int,
    storageUsed: string, bandwidthUsed: string)

  /** `getDashboardStats`, less the category ranking. Watch time is half
      the running time of everything published; the storage figures are
      fixed strings. */
  function GetDashboardStats(db: Db, startOfDay: int): (r: DashboardStats)
    ensures r.totalUsers == |db.users|
    ensures r.totalVideos == Seqs.Count(db.videos, Published)
    ensures r.totalViews == Seqs.Sum(Seqs.Filter(db.videos, Published), ViewsOf)
    ensures var d := Seqs.Sum(Seqs.Filter(db.videos, Published), DurationOf);
      2 * r.totalWatchTime <= d < 2 * r.totalWatchTime + 2
    ensures r.newUsersToday == Seqs.Count(db.users, (u: User) => u.createdAt >= startOfDay)
    ensures r.newVideosToday == Seqs.Count(db.videos, (v: Video) => Published(v) && v.createdAt >= startOfDay)
    ensures var published := Seqs.Filter(db.videos, Published);
      r.viewsToday == Seqs.Sum(Seqs.Filter(published, (v: Video) => v.createdAt >= startOfDay), ViewsOf)
  {
    var publishedToday := (v: Video) => Published(v) && v.createdAt >= startOfDay;
    Seqs.FilterOfFilter(db.videos, Published, (v: Video) => v.createdAt >= startOfDay, publishedToday);
    DashboardStats(
      |db.users|,
      Seqs.Count(db.videos, Published),
      Seqs.Sum(Seqs.Filter(db.videos, Published), ViewsOf),
      Half(Seqs.Sum(Seqs.Filter(db.videos, Published), DurationOf)),
      Seqs.Count(db.users, (u: User) => u.createdAt >= startOfDay),
      Seqs.Count(db.videos, publishedToday),
      Seqs.Sum(Seqs.Filter(db.videos, publishedToday), ViewsOf),
      "500TB", "50TB")
  }

  /** Today's figures never exceed the totals, view counts being
      non-negative. */
  lemma TodayWithinTotals(db: Db, startOfDay: int)
    requires forall i :: 0 <= i < |db.videos| ==> db.videos[i].viewsCount >= 0
    ensures var r := GetDashboardStats(db, startOfDay);
      r.newUsersToday <= r.totalUsers && r.newVideosToday <= r.totalVideos && r.viewsToday <= r.totalViews
  {
    var publishedToday := (v: Video) => Published(v) && v.createdAt >= startOfDay;
    Seqs.CountMonotone(db.users, (u: User) => u.createdAt >= startOfDay, (u: User) => true);
    Seqs.CountMonotone(db.videos, publishedToday, Published);
    Seqs.SumFilterMonotone(db.videos, publishedToday, Published, ViewsOf);
    Seqs.CountAll(db.users);
  }

  function PageNumber(page: Option<int>): int { if page.Some? then page.value else 1 }

  function PageSize(limit: Option<nat>): nat { if limit.Some? then limit.value else 10 }

  predicate Uploading(v: Video) { v.status == UPLOADING }

  datatype VideoPage = VideoPage(items: seq<Video>, total: nat, page: int, totalPages: Option<nat>)

  /** The videos still uploading, newest first. */
  function PendingRows(db: Db): (rows: seq<Video>)
    ensures |rows| == Seqs.Count(db.videos, Uploading)
    ensures Sorting.SortedBy(rows, Channels.Newest)
    ensures forall v :: v in rows <==> v in db.videos && Uploading(v)
  {
    Seqs.FilterCount(db.videos, Uploading);
    Sorting.SortByMembers(Seqs.Filter(db.videos, Uploading), Channels.Newest);
    Sorting.SortBy(Seqs.Filter(db.videos, Uploading), Channels.Newest)
  }

  /** `getPendingVideos`: videos still uploading, newest first, a page at a
      time; absent paging values are page 1 of 10. */
  function GetPendingVideos(db: Db, page: Option<int>, limit: Option<nat>): (r: Result<VideoPage>)
    ensures r.Err? <==> PageNumber(page) < 1 && PageSize(limit) > 0
    ensures r.Ok? ==> r.value.total == Seqs.Count(db.videos, Uploading)
    ensures r.Ok? ==> r.value.totalPages == Paging.PageCount(r.value.total, PageSize(limit))
    ensures r.Ok? ==>
      var rows := PendingRows(db);
      var skip := Paging.Skip(PageNumber(page), PageSize(limit));
      && skip >= 0 && |r.value.items| == Paging.PageLength(|rows|, skip, PageSize(limit))
      && forall k :: 0 <= k < |r.value.items| ==> r.value.items[k] == rows[skip + k]
    ensures r.Ok? ==> forall k :: 0 <= k < |r.value.items| ==> r.value.items[k] in db.videos && Uploading(r.value.items[k])
    ensures r.Ok? ==> Sorting.SortedBy(r.value.items, Channels.Newest)
  {
    var p := PageNumber(page);
    var n := PageSize(limit);
    var rows := PendingRows(db);
    match Paging.PageItems(rows, p, n)
    case Err(e) => Err(e)
    case Ok(items) =>
      Paging.PageOfSorted(rows, p, n, Channels.Newest);
      Ok(VideoPage(items, |rows|, p, Paging.PageCount(|rows|, n)))
  }

  /** Every uploading video is on some page: the `i`-th newest on page
      `i / limit + 1`. */
  lemma PendingListsEveryUpload(db: Db, limit: nat, i: nat)
    requires limit > 0 && i < |PendingRows(db)|
    ensures var page := i / limit + 1;
      var out := GetPendingVideos(db, Some(page), Some(limit));
      out.Ok? && i % limit < |out.value.items| && out.value.items[i % limit] == PendingRows(db)[i]
  {
    Paging.RowOnItsPage(PendingRows(db), limit, i);
  }

  datatype Action = Approve | Reject

  function ModeratedStatus(a: Action): VideoStatus
  {
    match a
    case Approve => PUBLISHED
    case Reject => DELETED
  }

  /** `moderateVideo`: approval publishes, rejection deletes. */
  function ModerateVideo(db: Db, videoId: Id, a: Action): (r: Result<(string, Db)>)
    ensures r.Err? <==> FindVideo(db, videoId).None?
    ensures r.Err? ==> r.error == NotFound("Video not found")
    ensures r.Ok? ==> var i := FindVideo(db, videoId).value;
      && r.value.1 == db.(videos := db.videos[i := db.videos[i].(status := ModeratedStatus(a))])
      && r.value.1.videos[i].status == (if a == Approve then PUBLISHED else DELETED)
      && r.value.0 == (if a == Approve then "Video approved successfully" else "Video rejected successfully")
  {
    match FindVideo(db, videoId)
    case None => Err(NotFound("Video not found"))
    case Some(i) =>
      var db' := db.(videos := db.videos[i := db.videos[i].(status := ModeratedStatus(a))]);
      Ok((match a case Approve => "Video approved successfully" case Reject => "Video rejected successfully", db'))
  }

  /** The last moderation decides: a video moderated twice has the status
      of the second action, as if moderated only then. */
  lemma LastModerationWins(db: Db, videoId: Id, first: Action, second: Action)
    requires FindVideo(db, videoId).Some?
    ensures var db1 := ModerateVideo(db, videoId, first).value.1;
      ModerateVideo(db1, videoId, second) == ModerateVideo(db, videoId, second)
  {
    var i := FindVideo(db, videoId).value;
    var db1 := ModerateVideo(db, videoId, first).value.1;
    Seqs.FindIndexIs(db1.videos, (v: Video) => v.id == videoId, i);
    assert db1.videos[i := db1.videos[i].(status := ModeratedStatus(second))]
        == db.videos[i := db.videos[i].(status := ModeratedStatus(second))];
  }

  datatype UserStatus = Active | Blocked | Pending

  /** The `where` clause `getUsers` builds from its search text and status. */
  predicate MatchesQuery(u: User, search: Option<string>, status: Option<UserStatus>)
  {
    && (Truthy(search) ==> ContainsIgnoringCase(u.username, search.value) || ContainsIgnoringCase(u.email, search.value))
    && match status
       case None => true
       case Some(Active) => u.isEmailVerified && u.role == USER
       case Some(Pending) => !u.isEmailVerified
       case Some(Blocked) => u.role == ADMIN
  }

  /** The columns `getUsers` selects: no password, token or names. */
  datatype UserSummary = UserSummary(
    id: Id, username: string, email: string, avatarUrl: Option<string>, role: Role,
    isEmailVerified: bool, isPhoneVerified: bool, createdAt: int)

  function Summary(u: User): UserSummary
  {
    UserSummary(u.id, u.username, u.email, u.avatarUrl, u.role, u.isEmailVerified, u.isPhoneVerified, u.createdAt)
  }

  datatype UserPage = UserPage(items: seq<UserSummary>, total: nat, page: int, totalPages: Option<nat>)

  /** The users a query matches, newest first. */
  function MatchingUsers(db: Db, search: Option<string>, status: Option<UserStatus>): (rows: seq<User>)
    ensures |rows| == Seqs.Count(db.users, (u: User) => MatchesQuery(u, search, status))
    ensures Sorting.SortedBy(rows, JoinedNewest)
    ensures forall u :: u in rows <==> u in db.users && MatchesQuery(u, search, status)
  {
    var matching := (u: User) => MatchesQuery(u, search, status);
    Seqs.FilterCount(db.users, matching);
    Sorting.SortByMembers(Seqs.Filter(db.users, matching), JoinedNewest);
    Sorting.SortBy(Seqs.Filter(db.users, matching), JoinedNewest)
  }

  /** `getUsers`. */
  function GetUsers(db: Db, page: Option<int>, limit: Option<nat>, search: Option<string>, status: Option<UserStatus>): (r: Result<UserPage>)
    ensures r.Err? <==> PageNumber(page) < 1 && PageSize(limit) > 0
    ensures r.Ok? ==> r.value.total == Seqs.Count(db.users, (u: User) => MatchesQuery(u, search, status))
    ensures r.Ok? ==> r.value.totalPages == Paging.PageCount(r.value.total, PageSize(limit))
    ensures r.Ok? ==>
      var rows := MatchingUsers(db, search, status);
      var skip := Paging.Skip(PageNumber(page), PageSize(limit));
      && skip >= 0 && |r.value.items| == Paging.PageLength(|rows|, skip, PageSize(limit))
      && forall k :: 0 <= k < |r.value.items| ==> r.value.items[k] == Summary(rows[skip + k])
    ensures r.Ok? ==> forall k :: 0 <= k < |r.value.items| ==> Listed(db, search, status, r.value.items[k])
    ensures r.Ok? ==> forall a, b :: 0 <= a < b < |r.value.items| ==> r.value.items[a].createdAt >= r.value.items[b].createdAt
  {
    var rows := MatchingUsers(db, search, status);
    var p := PageNumber(page);
    var n := PageSize(limit);
    match Paging.PageItems(rows, p, n)
    case Err(e) => Err(e)
    case Ok(items) =>
      var summaries := Summaries(items);
      SummariesListed(db, search, status, rows, items);
      Paging.PageOfSorted(rows, p, n, JoinedNewest);
      SummariesNewestFirst(items);
      Ok(UserPage(summaries, |rows|, p, Paging.PageCount(|rows|, n)))
  }

  /** A summary of a user the query matches. */
  predicate Listed(db: Db, search: Option<string>, status: Option<UserStatus>, x: UserSummary)
  {
    exists u :: u in db.users && MatchesQuery(u, search, status) && x == Summary(u)
  }

  function Summaries(users: seq<User>): (r: seq<UserSummary>)
    ensures |r| == |users| && forall k :: 0 <= k < |users| ==> r[k] == Summary(users[k])
  {
    seq(|users|, k requires 0 <= k < |users| => Summary(users[k]))
  }

  lemma SummariesNewestFirst(items: seq<User>)
    requires Sorting.SortedBy(items, JoinedNewest)
    ensures forall a, b :: 0 <= a < b < |items| ==> Summaries(items)[a].createdAt >= Summaries(items)[b].createdAt
  {
    forall a, b | 0 <= a < b < |items| ensures Summaries(items)[a].createdAt >= Summaries(items)[b].createdAt {
      assert JoinedNewest(items[a]) <= JoinedNewest(items[b]);
    }
  }

  lemma SummariesListed(db: Db, search: Option<string>, status: Option<UserStatus>, rows: seq<User>, items: seq<User>)
    requires forall u :: u in rows <==> u in db.users && MatchesQuery(u, search, status)
    requires forall k :: 0 <= k < |items| ==> items[k] in rows
    ensures forall k :: 0 <= k < |items| ==> Listed(db, search, status, Summaries(items)[k])
  {
    forall k | 0 <= k < |items| ensures Listed(db, search, status, Summaries(items)[k]) {
      assert items[k] in db.users && MatchesQuery(items[k], search, status);
    }
  }

  /** Every user the query matches is on some page: the `i`-th newest on
      page `i / limit + 1`. */
  lemma GetUsersListsEveryMatch(db: Db, search: Option<string>, status: Option<UserStatus>, limit: nat, i: nat)
    requires limit > 0 && i < |MatchingUsers(db, search, status)|
    ensures var page := i / limit + 1;
      var out := GetUsers(db, Some(page), Some(limit), search, status);
      out.Ok? && i % limit < |out.value.items| && out.value.items[i % limit] == Summary(MatchingUsers(db, search, status)[i])
  {
    Paging.RowOnItsPage(MatchingUsers(db, search, status), limit, i);
  }

  /** With neither search text nor status every user is counted. */
  lemma UnfilteredListsEveryone(db: Db, page: Option<int>, limit: Option<nat>)
    requires GetUsers(db, page, limit, None, None).Ok?
    ensures GetUsers(db, page, limit, None, None).value.total == |db.users|
  {
    Seqs.CountAll(db.users);
    Seqs.CountCongruent(db.users, (u: User) => MatchesQuery(u, None, None), (u: User) => true);
  }

  /** An active user is neither pending nor blocked, so the three status
      filters never list one user twice, though some users match none. */
  lemma StatusesDisjoint(u: User, search: Option<string>)
    ensures !(MatchesQuery(u, search, Some(Active)) && MatchesQuery(u, search, Some(Pending)))
    ensures !(MatchesQuery(u, search, Some(Active)) && MatchesQuery(u, search, Some(Blocked)))
  {
  }

  /** `toggleUserBlock`: `ADMIN` becomes `USER`, every other role `ADMIN`. */
  function ToggleUserBlock(db: Db, userId: Id): (r: Result<(string, Db)>)
    ensures r.Err? <==> FindUser(db, userId).None?
    ensures r.Err? ==> r.error == NotFound("User not found")
    ensures r.Ok? ==> |r.value.1.users| == |db.users|
    ensures r.Ok? ==> var i := FindUser(db, userId).value;
      var role := r.value.1.users[i].role;
      && (role == ADMIN <==> db.users[i].role != ADMIN)
      && (role == USER <==> db.users[i].role == ADMIN)
      && r.value.1.users == db.users[i := db.users[i].(role := role)]
      && (r.value.0 == "User blocked successfully" <==> role == ADMIN)
      && (r.value.0 == "User unblocked successfully" <==> role != ADMIN)
    ensures r.Ok? ==> r.value.1 == db.(users := r.value.1.users)
  {
    match FindUser(db, userId)
    case None => Err(NotFound("User not found"))
    case Some(i) =>
      var role := if db.users[i].role == ADMIN then USER else ADMIN;
      var message := if role == ADMIN then "User blocked successfully" else "User unblocked successfully";
      assert "User blocked successfully" != "User unblocked successfully" by {
        assert "User blocked successfully"[5] != "User unblocked successfully"[5];
      }
      Ok((message, db.(users := db.users[i := db.users[i].(role := role)])))
  }

  /** Toggling twice restores a `USER` or `ADMIN`; any other role comes
      back as `USER`. */
  lemma ToggleTwice(db: Db, userId: Id)
    requires FindUser(db, userId).Some?
    ensures var i := FindUser(db, userId).value;
      var db2 := ToggleUserBlock(ToggleUserBlock(db, userId).value.1, userId).value.1;
      && (db.users[i].role == USER || db.users[i].role == ADMIN ==> db2 == db)
      && (db.users[i].role.OtherRole? ==> db2.users[i].role == USER)
  {
    var i := FindUser(db, userId).value;
    var db1 := ToggleUserBlock(db, userId).value.1;
    Seqs.FindIndexIs(db1.users, (u: User) => u.id == userId, i);
    if db.users[i].role == USER || db.users[i].role == ADMIN {
      assert db1.users[i := db1.users[i].(role := db.users[i].role)] == db.users;
    }
  }

  /** `verifyUser`: marks the user's email as verified. */
  function VerifyUser(db: Db, userId: Id): (r: Result<(string, Db)>)
    ensures r.Err? <==> FindUser(db, userId).None?
    ensures r.Err? ==> r.error == NotFound("User not found")
    ensures r.Ok? ==> var i := FindUser(db, userId).value;
      && r.value.1.users == db.users[i := db.users[i].(isEmailVerified := true)]
      && r.value.0 == "User verified successfully"
    ensures r.Ok? ==> r.value.1 == db.(users := r.value.1.users)
  {
    match FindUser(db, userId)
    case None => Err(NotFound("User not found"))
    case Some(i) => Ok(("User verified successfully", db.(users := db.users[i := db.users[i].(isEmailVerified := true)])))
  }

  /** Verifying twice is verifying once. */
  lemma VerifyUserIdempotent(db: Db, userId: Id)
    requires FindUser(db, userId).Some?
    ensures VerifyUser(VerifyUser(db, userId).value.1, userId) == VerifyUser(db, userId)
  {
    var i := FindUser(db, userId).value;
    var db1 := VerifyUser(db, userId).value.1;
    Seqs.FindIndexIs(db1.users, (u: User) => u.id == userId, i);
    assert db1.users[i := db1.users[i].(isEmailVerified := true)] == db1.users;
  }

  datatype ReportPage = ReportPage(data: seq<Id>, total: nat, page: int, limit: int, totalPages: nat)

  /** `getReports`: there is no report table, so every query answers an
      empty page; a missing or zero page or limit is shown as 1 or 10. */
  function GetReports(page: Option<int>, limit: Option<int>): (r: ReportPage)
    ensures |r.data| == 0 && r.total == 0 && r.totalPages == 0
    ensures r.page != 0 && r.limit != 0
    ensures page.Some? && page.value != 0 ==> r.page == page.value
    ensures limit.Some? && limit.value != 0 ==> r.limit == limit.value
    ensures page.None? || page.value == 0 ==> r.page == 1
    ensures limit.None? || limit.value == 0 ==> r.limit == 10
  {
    ReportPage([], 0,
      if page.Some? && page.value != 0 then page.value else 1,
      if limit.Some? && limit.value != 0 then limit.value else 10, 0)
  }

  /** The page and limit a reply shows are a query of their own that gets
      the same reply back: the defaults are filled in once and for all. */
  lemma ReportsShowTheirQuery(page: Option<int>, limit: Option<int>)
    ensures var r := GetReports(page, limit);
      GetReports(Some(r.page), Some(r.limit)) == r
  {
  }
}

=== FILE: analytics.dfy ===
/** Per-video analytics: recording a view (view counter, watch history,
    analytics row) and the author's summary over a timeframe.

    The clock is a parameter (`now`, milliseconds since the epoch), and so
    is the database's grouping of the analytics rows by device, whose
    order SQL leaves unspecified. The per-day and per-country breakdowns
    are raw SQL and are not modelled. */
module Analytics {
  import opened Outcomes
  import opened Text
  import opened Schema
  import Seqs

  datatype RecordViewRequest = RecordViewRequest(watchTime: int, quality: string, device: string, location: Option<string>)

  predicate SamePair(e: WatchEntry, userId: Id, videoId: Id)
  {
    e.userId == userId && e.videoId == videoId
  }

  /** The watch-history row of a (user, video) pair, by its composite key. */
  function FindWatch(history: seq<WatchEntry>, userId: Id, videoId: Id): Option<nat>
  {
    Seqs.FindIndex(history, (e: WatchEntry) => SamePair(e, userId, videoId))
  }

  lemma FindWatchAt(history: seq<WatchEntry>, userId: Id, videoId: Id, j: nat)
    requires j < |history| && SamePair(history[j], userId, videoId)
    requires forall k :: 0 <= k < j ==> !SamePair(history[k], userId, videoId)
    ensures FindWatch(history, userId, videoId) == Some(j)
  {
    Seqs.FindIndexIs(history, (e: WatchEntry) => SamePair(e, userId, videoId), j);
  }

  /** The composite key (user, video) of the watch history is unique. */
  predicate UniqueWatches(history: seq<WatchEntry>)
  {
    forall i, j :: 0 <= i < j < |history| ==>
      !(history[i].userId == history[j].userId && history[i].videoId == history[j].videoId)
  }

  /** `after` is `before` upserted at the pair: the pair's row now holds
      watch time `t` seen at `at`, a new row exists only when the pair had
      none, and the rows of every other pair stay where they were. */
  predicate Upserted(before: seq<WatchEntry>, after: seq<WatchEntry>, userId: Id, videoId: Id, t: int, at: int)
  {
    && |after| == |before| + (if FindWatch(before, userId, videoId).Some? then 0 else 1)
    && (forall k :: 0 <= k < |before| && !SamePair(before[k], userId, videoId) ==> after[k] == before[k])
    && FindWatch(after, userId, videoId).Some?
    && after[FindWatch(after, userId, videoId).value] == WatchEntry(userId, videoId, t, at)
  }

  /** `watchHistory.upsert` on the key (user, video): the update sets the
      watch time and the time it was watched; the create takes the same
      time as its default `watchedAt`. */
  function UpsertWatch(history: seq<WatchEntry>, userId: Id, videoId: Id, t: int, at: int): (h: seq<WatchEntry>)
    ensures Upserted(history, h, userId, videoId, t, at)
    ensures UniqueWatches(history) ==> UniqueWatches(h)
  {
    match FindWatch(history, userId, videoId)
    case Some(j) =>
      var h := history[j := history[j].(watchTime := t, watchedAt := at)];
      FindWatchAt(h, userId, videoId, j);
      h
    case None =>
      var h := history + [WatchEntry(userId, videoId, t, at)];
      FindWatchAt(h, userId, videoId, |history|);
      h
  }

  function Viewed(videoId: Id, userId: Id, d: RecordViewRequest, now: int): ViewRecord
  {
    ViewRecord(videoId, userId, d.watchTime, d.quality, d.device, d.location, now)
  }

  /** What `recordView` answers, with the store as it leaves it: the
      writes are separate statements, so a failing one keeps the earlier
      ones. */
  datatype Recorded = Recorded(outcome: Result<string>, db: Db)

  const ViewRecorded: string := "View recorded successfully"

  /** `recordView`: the view count moves first; then the history row of the
      pair is upserted and an analytics row created. Both rows name the
      viewer, so for a viewer with no user row the first write that creates
      a row is refused: the history create when the pair has no row yet,
      otherwise the analytics create after the history update. */
  function RecordView(db: Db, videoId: Id, userId: Id, d: RecordViewRequest, now: int): (r: Recorded)
    ensures FindVideo(db, videoId).None? ==> r == Recorded(Err(NotFound("Video not found")), db)
    ensures r.outcome.Ok? <==> FindVideo(db, videoId).Some? && FindUser(db, userId).Some?
    ensures FindVideo(db, videoId).Some? && FindUser(db, userId).None? ==> r.outcome == Err(Internal(MissingRelation))
    ensures r.outcome.Ok? ==> r.outcome.value == ViewRecorded
    ensures FindVideo(db, videoId).Some? ==>
      var i := FindVideo(db, videoId).value;
      && |r.db.videos| == |db.videos|
      && r.db.videos[i] == db.videos[i].(viewsCount := db.videos[i].viewsCount + 1)
      && forall k :: 0 <= k < |db.videos| && k != i ==> r.db.videos[k] == db.videos[k]
    ensures r.db.(videos := db.videos, history := db.history, views := db.views) == db
    ensures FindVideo(db, videoId).Some? && FindUser(db, userId).None? ==>
      && r.db.views == db.views
      && (FindWatch(db.history, userId, videoId).None? ==> r.db.history == db.history)
      && (FindWatch(db.history, userId, videoId).Some? ==> Upserted(db.history, r.db.history, userId, videoId, d.watchTime, now))
    ensures r.outcome.Ok? ==> Upserted(db.history, r.db.history, userId, videoId, d.watchTime, now)
    ensures UniqueWatches(db.history) ==> UniqueWatches(r.db.history)
    ensures r.outcome.Ok? ==> r.db.views == db.views + [Viewed(videoId, userId, d, now)]
  {
    match FindVideo(db, videoId)
    case None => Recorded(Err(NotFound("Video not found")), db)
    case Some(i) =>
      var v := db.videos[i];
      var counted := db.(videos := db.videos[i := v.(viewsCount := v.viewsCount + 1)]);
      if FindUser(db, userId).None? && FindWatch(db.history, userId, videoId).None? then
        Recorded(Err(Internal(MissingRelation)), counted)
      else
        var watched := counted.(history := UpsertWatch(db.history, userId, videoId, d.watchTime, now));
        if FindUser(db, userId).None? then Recorded(Err(Internal(MissingRelation)), watched)
        else Recorded(Ok(ViewRecorded), watched.(views := db.views + [Viewed(videoId, userId, d, now)]))
  }

  /** Recording the same viewer on the same video twice leaves one history
      row for the pair, holding the later watch time: the second view
      overwrites the first rather than adding a row. */
  lemma RepeatViewOverwrites(db: Db, videoId: Id, userId: Id, d1: RecordViewRequest, d2: RecordViewRequest, t1: int, t2: int)
    requires UniqueWatches(db.history)
    requires RecordView(db, videoId, userId, d1, t1).outcome.Ok?
    ensures var db1 := RecordView(db, videoId, userId, d1, t1).db;
      var db2 := RecordView(db1, videoId, userId, d2, t2).db;
      && RecordView(db1, videoId, userId, d2, t2).outcome.Ok?
      && |db2.history| == |db1.history|
      && UniqueWatches(db2.history)
      && (forall k :: 0 <= k < |db2.history| && SamePair(db2.history[k], userId, videoId) ==>
            db2.history[k] == WatchEntry(userId, videoId, d2.watchTime, t2))
  {
    var db1 := RecordView(db, videoId, userId, d1, t1).db;
    assert FindVideo(db1, videoId).Some? by {
      var i := FindVideo(db, videoId).value;
      Seqs.FindIndexIs(db1.videos, (v: Video) => v.id == videoId, i);
    }
    var db2 := RecordView(db1, videoId, userId, d2, t2).db;
    var j := FindWatch(db2.history, userId, videoId).value;
    forall k | 0 <= k < |db2.history| && SamePair(db2.history[k], userId, videoId)
      ensures db2.history[k] == WatchEntry(userId, videoId, d2.watchTime, t2)
    {
      assert k == j;
    }
  }

  /** Every recorded view adds exactly one analytics row for its video and
      leaves the other videos' rows alone. */
  lemma RecordViewCountsOnce(db: Db, videoId: Id, userId: Id, d: RecordViewRequest, now: int, other: Id)
    requires RecordView(db, videoId, userId, d, now).outcome.Ok?
    ensures var db' := RecordView(db, videoId, userId, d, now).db;
      && Seqs.Count(db'.views, (v: ViewRecord) => v.videoId == videoId) == Seqs.Count(db.views, (v: ViewRecord) => v.videoId == videoId) + 1
      && (other != videoId ==>
            Seqs.Count(db'.views, (v: ViewRecord) => v.videoId == other) == Seqs.Count(db.views, (v: ViewRecord) => v.videoId == other))
  {
    var x := Viewed(videoId, userId, d, now);
    Seqs.CountAppend(db.views, x, (v: ViewRecord) => v.videoId == videoId);
    Seqs.CountAppend(db.views, x, (v: ViewRecord) => v.videoId == other);
  }

  datatype Timeframe = Day | Week | Month | Quarter | All

  /** The query value of each timeframe. */
  function TimeframeValue(t: Timeframe): string
  {
    match t
    case Day => "24h"
    case Week => "7d"
    case Month => "30d"
    case Quarter => "90d"
    case All => "all"
  }

  /** The `timeframe` query parameter: `7d` when it is absent, and every
      value the switch does not name falls to the `all` branch. */
  function ParseTimeframe(query: Option<string>): (t: Timeframe)
    ensures query.None? ==> t == Week
    ensures query.Some? && t != All ==> TimeframeValue(t) == query.value
  {
    if query.None? then Week
    else if query.value == "24h" then Day
    else if query.value == "7d" then Week
    else if query.value == "30d" then Month
    else if query.value == "90d" then Quarter
    else All
  }

  /** Each named timeframe is read back from its query value; the default
      is the week. */
  lemma TimeframeRoundTrip(t: Timeframe)
    ensures ParseTimeframe(Some(TimeframeValue(t))) == t
    ensures ParseTimeframe(None) == Week
  {
  }

  /** Days the window reaches back, or none for the whole history. */
  function DaysBack(t: Timeframe): Option<nat>
  {
    match t
    case Day => Some(1)
    case Week => Some(7)
    case Month => Some(30)
    case Quarter => Some(90)
    case All => None
  }

  const DayMillis: nat := 86_400_000

  /** The first instant the window counts: so many days before `now`, or
      the epoch. */
  function StartDate(now: int, t: Timeframe): (start: int)
    ensures t == Day ==> now - start == DayMillis
    ensures t == Week ==> now - start == 7 * DayMillis
    ensures t == Month ==> now - start == 30 * DayMillis
    ensures t == Quarter ==> now - start == 90 * DayMillis
    ensures t == All ==> start == 0
    ensures t != All ==> start < now
  {
    match DaysBack(t)
    case Some(days) => now - days * DayMillis
    case None => 0
  }

  /** An analytics row of the video inside the window. */
  predicate InWindow(v: ViewRecord, videoId: Id, start: int)
  {
    v.videoId == videoId && v.createdAt >= start
  }

  function WindowRows(db: Db, videoId: Id, start: int): (rows: seq<ViewRecord>)
    ensures forall x :: x in rows <==> x in db.views && InWindow(x, videoId, start)
  {
    Seqs.Filter(db.views, (v: ViewRecord) => InWindow(v, videoId, start))
  }

  function WatchTimeOf(v: ViewRecord): int { v.watchTime }

  datatype DeviceBucket = Mobile | Tablet | Desktop

  /** The bucket of a device name, matched on its lower-cased form:
      `mobile` first, then `tablet`, everything else desktop. */
  function BucketOf(device: string): (b: DeviceBucket)
    ensures b == Mobile <==> Contains(ToLower(device), "mobile")
    ensures b == Tablet <==> !Contains(ToLower(device), "mobile") && Contains(ToLower(device), "tablet")
  {
    var name := ToLower(device);
    if Contains(name, "mobile") then Mobile
    else if Contains(name, "tablet") then Tablet
    else Desktop
  }

  /** One row of `groupBy(['device'])` with its `_count`. */
  datatype DeviceGroup = DeviceGroup(device: string, count: nat)

  /** `groups` is a grouping of `rows` by device, in some order: one group
      per distinct device, holding the number of rows on it. */
  predicate IsGrouping(groups: seq<DeviceGroup>, rows: seq<ViewRecord>)
  {
    && (forall i, j :: 0 <= i < j < |groups| ==> groups[i].device != groups[j].device)
    && (forall i :: 0 <= i < |groups| ==> groups[i].count == Seqs.Count(rows, (v: ViewRecord) => v.device == groups[i].device))
    && (forall k :: 0 <= k < |rows| ==> HasGroup(groups, rows[k].device))
  }

  /** Some group is for this device. */
  predicate HasGroup(groups: seq<DeviceGroup>, device: string)
  {
    exists i :: 0 <= i < |groups| && groups[i].device == device
  }

  datatype DeviceCounts = DeviceCounts(mobile: nat, desktop: nat, tablet: nat)
  {
    function Get(b: DeviceBucket): nat
    {
      match b
      case Mobile => mobile
      case Desktop => desktop
      case Tablet => tablet
    }

    function With(b: DeviceBucket, n: nat): DeviceCounts
    {
      match b
      case Mobile => this.(mobile := n)
      case Desktop => this.(desktop := n)
      case Tablet => this.(tablet := n)
    }
  }

  /** The `forEach` over the groups: each group assigns its count to its
      bucket, so the group seen last decides the bucket. */
  function Tally(groups: seq<DeviceGroup>): DeviceCounts
  {
    if |groups| == 0 then DeviceCounts(0, 0, 0)
    else
      var g := groups[|groups| - 1];
      Tally(groups[..|groups| - 1]).With(BucketOf(g.device), g.count)
  }

  /** The count of the last group that falls in the bucket, or 0. */
  function LastCount(groups: seq<DeviceGroup>, b: DeviceBucket): nat
  {
    match Seqs.FindLast(groups, (g: DeviceGroup) => BucketOf(g.device) == b)
    case None => 0
    case Some(k) => groups[k].count
  }

  /** A bucket holds the count of the last group in it, not the sum of its
      groups. */
  lemma {:induction false} TallyIsLastCount(groups: seq<DeviceGroup>, b: DeviceBucket)
    ensures Tally(groups).Get(b) == LastCount(groups, b)
    decreases |groups|
  {
    if |groups| > 0 {
      TallyIsLastCount(groups[..|groups| - 1], b);
    }
  }

  /** Two groups that fall in the same bucket: the bucket shows only the
      later one, so the order of the groups decides the result. */
  lemma LaterGroupOverwrites(g1: DeviceGroup, g2: DeviceGroup)
    requires BucketOf(g1.device) == BucketOf(g2.device)
    ensures Tally([g1, g2]).Get(BucketOf(g1.device)) == g2.count
    ensures g1.count != g2.count ==> Tally([g1, g2]) != Tally([g2, g1])
  {
    var b := BucketOf(g1.device);
    assert [g1, g2][..1] == [g1];
    assert [g2, g1][..1] == [g2];
    assert Tally([g2, g1]).Get(b) == g1.count;
  }

  /** When no two groups share a bucket, each bucket counts exactly the
      window's rows whose device falls in it. */
  lemma BucketsCountRows(groups: seq<DeviceGroup>, rows: seq<ViewRecord>, b: DeviceBucket)
    requires IsGrouping(groups, rows)
    requires forall i, j :: 0 <= i < j < |groups| ==> BucketOf(groups[i].device) != BucketOf(groups[j].device)
    ensures Tally(groups).Get(b) == Seqs.Count(rows, (v: ViewRecord) => BucketOf(v.device) == b)
  {
    TallyIsLastCount(groups, b);
    var inBucket := (v: ViewRecord) => BucketOf(v.device) == b;
    match Seqs.FindLast(groups, (g: DeviceGroup) => BucketOf(g.device) == b)
    case None =>
      forall k | 0 <= k < |rows| ensures !inBucket(rows[k]) {
        assert HasGroup(groups, rows[k].device);
        var i :| 0 <= i < |groups| && groups[i].device == rows[k].device;
      }
      Seqs.CountNone(rows, inBucket);
    case Some(m) =>
      var name := groups[m].device;
      forall k | 0 <= k < |rows| ensures inBucket(rows[k]) <==> rows[k].device == name {
        assert HasGroup(groups, rows[k].device);
        var i :| 0 <= i < |groups| && groups[i].device == rows[k].device;
        assert inBucket(rows[k]) ==> i == m;
      }
      Seqs.CountCongruent(rows, inBucket, (v: ViewRecord) => v.device == name);
  }

  /** `Math.round(a / b)` on exact rationals: the nearest integer, halves
      rounded up. */
  function RoundDiv(a: int, b: nat): (q: int)
    requires b > 0
    ensures 2 * b * q - b <= 2 * a < 2 * b * q + b
  {
    var q := (2 * a + b) / (2 * b);
    assert 2 * b * q <= 2 * a + b < 2 * b * q + 2 * b;
    q
  }

  /** The share of a bucket in percent, rounded. */
  function Percent(part: nat, total: nat): (p: int)
    requires total > 0
  {
    RoundDiv(100 * part, total)
  }

  /** The sign of a product with a positive factor is the other factor's. */
  lemma MulSign(a: int, b: int)
    requires a > 0
    ensures b > 0 ==> a * b > 0
    ensures b <= 0 ==> a * b <= 0
  {
  }

  /** A part smaller than its total is between 0 and 100 percent, and an
      empty part is 0. */
  lemma PercentBounds(part: nat, total: nat)
    requires part < total
    ensures 0 <= Percent(part, total) <= 100
    ensures part == 0 ==> Percent(part, total) == 0
  {
    var p := Percent(part, total);
    assert total * (2 * p + 1) == 2 * total * p + total;
    assert total * (2 * p - 201) == 2 * total * p - total - 200 * total;
    assert total * (2 * p - 1) == 2 * total * p - total;
    MulSign(total, 2 * p + 1);
    MulSign(total, 2 * p - 201);
    MulSign(total, 2 * p - 1);
  }

  datatype Breakdown = Breakdown(mobile: int, desktop: int, tablet: int)

  /** The three percentages over the bucket sum plus one. */
  function DevicePercentages(c: DeviceCounts): (r: Breakdown)
    ensures 0 <= r.mobile <= 100 && 0 <= r.desktop <= 100 && 0 <= r.tablet <= 100
    ensures c == DeviceCounts(0, 0, 0) ==> r == Breakdown(0, 0, 0)
    ensures var total := c.mobile + c.desktop + c.tablet + 1;
      && r.mobile == RoundDiv(100 * c.mobile, total)
      && r.desktop == RoundDiv(100 * c.desktop, total)
      && r.tablet == RoundDiv(100 * c.tablet, total)
  {
    var total := c.mobile + c.desktop + c.tablet + 1;
    PercentBounds(c.mobile, total);
    PercentBounds(c.desktop, total);
    PercentBounds(c.tablet, total);
    Breakdown(Percent(c.mobile, total), Percent(c.desktop, total), Percent(c.tablet, total))
  }

  /** `averageViewDuration`: the rounded mean watch time, 0 without views. */
  function AverageViewDuration(totalWatchTime: int, views: nat): (avg: int)
    ensures views == 0 ==> avg == 0
    ensures views > 0 ==> 2 * views * avg - views <= 2 * totalWatchTime < 2 * views * avg + views
  {
    if views > 0 then RoundDiv(totalWatchTime, views) else 0
  }

  datatype RetentionPoint = RetentionPoint(time: nat, percentage: nat)

  /** The retention curve the service answers for every video. */
  const Retention: seq<RetentionPoint> := [
    RetentionPoint(0, 100), RetentionPoint(30, 85), RetentionPoint(60, 70),
    RetentionPoint(120, 50), RetentionPoint(180, 30)]

  datatype VideoAnalytics = VideoAnalytics(
    totalViews: nat,
    totalWatchTime: int,
    averageViewDuration: int,
    deviceBreakdown: Breakdown,
    retention: seq<RetentionPoint>)

  /** The video exists and the caller is its author. */
  function Authorized(db: Db, videoId: Id, userId: Id): (r: Result<Video>)
    ensures r.Ok? <==> FindVideo(db, videoId).Some? && db.videos[FindVideo(db, videoId).value].authorId == userId
    ensures FindVideo(db, videoId).None? ==> r == Err(NotFound("Video not found"))
    ensures FindVideo(db, videoId).Some? && r.Err? ==> r == Err(BadRequest("You are not authorized to view these analytics"))
  {
    match FindVideo(db, videoId)
    case None => Err(NotFound("Video not found"))
    case Some(i) =>
      if db.videos[i].authorId != userId then Err(BadRequest("You are not authorized to view these analytics"))
      else Ok(db.videos[i])
  }

  /** `getVideoAnalytics`. `groups` is the database's device grouping of
      the window's rows, in the order it returns them. */
  function GetVideoAnalytics(db: Db, videoId: Id, timeframe: Option<string>, userId: Id, now: int,
                             groups: seq<DeviceGroup>): (r: Result<VideoAnalytics>)
    ensures r.Err? <==> Authorized(db, videoId, userId).Err?
    ensures r.Err? ==> r.error == Authorized(db, videoId, userId).error
    ensures r.Ok? ==>
      var start := StartDate(now, ParseTimeframe(timeframe));
      && r.value.totalViews == Seqs.Count(db.views, (v: ViewRecord) => InWindow(v, videoId, start))
      && r.value.totalWatchTime == Seqs.Sum(WindowRows(db, videoId, start), WatchTimeOf)
    ensures r.Ok? && r.value.totalViews == 0 ==> r.value.averageViewDuration == 0 && r.value.totalWatchTime == 0
    ensures r.Ok? ==> r.value.averageViewDuration == AverageViewDuration(r.value.totalWatchTime, r.value.totalViews)
    ensures r.Ok? ==> r.value.deviceBreakdown == DevicePercentages(Tally(groups))
    ensures r.Ok? ==> r.value.retention == Retention
    ensures r.Ok? ==> var b := r.value.deviceBreakdown;
      0 <= b.mobile <= 100 && 0 <= b.desktop <= 100 && 0 <= b.tablet <= 100
    ensures r.Ok? && |groups| == 0 ==> r.value.deviceBreakdown == Breakdown(0, 0, 0)
  {
    match Authorized(db, videoId, userId)
    case Err(e) => Err(e)
    case Ok(_) =>
      var start := StartDate(now, ParseTimeframe(timeframe));
      var rows := WindowRows(db, videoId, start);
      Seqs.FilterCount(db.views, (v: ViewRecord) => InWindow(v, videoId, start));
      var watched := Seqs.Sum(rows, WatchTimeOf);
      Ok(VideoAnalytics(|rows|, watched, AverageViewDuration(watched, |rows|),
                        DevicePercentages(Tally(groups)), Retention))
  }

  /** The rows of each bucket. */
  function BucketCounts(rows: seq<ViewRecord>): DeviceCounts
  {
    DeviceCounts(Seqs.Count(rows, (v: ViewRecord) => BucketOf(v.device) == Mobile),
                 Seqs.Count(rows, (v: ViewRecord) => BucketOf(v.device) == Desktop),
                 Seqs.Count(rows, (v: ViewRecord) => BucketOf(v.device) == Tablet))
  }

  /** When the groups are the window's rows grouped by device and no two
      groups share a bucket, the breakdown is the share of the window's
      views in each bucket. */
  lemma BreakdownOfWindow(db: Db, videoId: Id, timeframe: Option<string>, userId: Id, now: int,
                          groups: seq<DeviceGroup>)
    requires GetVideoAnalytics(db, videoId, timeframe, userId, now, groups).Ok?
    requires IsGrouping(groups, WindowRows(db, videoId, StartDate(now, ParseTimeframe(timeframe))))
    requires forall i, j :: 0 <= i < j < |groups| ==> BucketOf(groups[i].device) != BucketOf(groups[j].device)
    ensures GetVideoAnalytics(db, videoId, timeframe, userId, now, groups).value.deviceBreakdown
            == DevicePercentages(BucketCounts(WindowRows(db, videoId, StartDate(now, ParseTimeframe(timeframe)))))
  {
    TallyIsBucketCounts(groups, WindowRows(db, videoId, StartDate(now, ParseTimeframe(timeframe))));
  }

  /** With one group per device and at most one per bucket, the tally is
      the number of rows in each bucket. */
  lemma TallyIsBucketCounts(groups: seq<DeviceGroup>, rows: seq<ViewRecord>)
    requires IsGrouping(groups, rows)
    requires forall i, j :: 0 <= i < j < |groups| ==> BucketOf(groups[i].device) != BucketOf(groups[j].device)
    ensures Tally(groups) == BucketCounts(rows)
  {
    BucketsCountRows(groups, rows, Mobile);
    BucketsCountRows(groups, rows, Desktop);
    BucketsCountRows(groups, rows, Tablet);
    var t := Tally(groups);
    assert t == DeviceCounts(t.Get(Mobile), t.Get(Desktop), t.Get(Tablet));
  }

  /** A view recorded now is counted by the author's analytics over every
      window that has begun, and adds its watch time to the total. */
  lemma RecordedViewIsCounted(db: Db, videoId: Id, d: RecordViewRequest, now: int, viewer: Id,
                              timeframe: Option<string>, author: Id, groups: seq<DeviceGroup>)
    requires RecordView(db, videoId, viewer, d, now).outcome.Ok?
    requires GetVideoAnalytics(db, videoId, timeframe, author, now, groups).Ok?
    requires StartDate(now, ParseTimeframe(timeframe)) <= now
    ensures var db' := RecordView(db, videoId, viewer, d, now).db;
      var before := GetVideoAnalytics(db, videoId, timeframe, author, now, groups).value;
      && GetVideoAnalytics(db', videoId, timeframe, author, now, groups).Ok?
      && GetVideoAnalytics(db', videoId, timeframe, author, now, groups).value.totalViews == before.totalViews + 1
      && GetVideoAnalytics(db', videoId, timeframe, author, now, groups).value.totalWatchTime == before.totalWatchTime + d.watchTime
  {
    var db' := RecordView(db, videoId, viewer, d, now).db;
    var start := StartDate(now, ParseTimeframe(timeframe));
    var x := Viewed(videoId, viewer, d, now);
    var inWindow := (v: ViewRecord) => InWindow(v, videoId, start);
    var i := FindVideo(db, videoId).value;
    Seqs.FindIndexIs(db'.videos, (v: Video) => v.id == videoId, i);
    Seqs.CountAppend(db.views, x, inWindow);
    Seqs.FilterConcat(db.views, [x], inWindow);
    assert Seqs.Filter([x], inWindow) == [x] by {
      assert [x][1..] == [];
    }
    Seqs.SumAppend(WindowRows(db, videoId, start), x, WatchTimeOf);
  }

  /** A window that starts earlier counts at least as many views. */
  lemma EarlierStartCountsMore(db: Db, videoId: Id, early: int, late: int)
    requires early <= late
    ensures Seqs.Count(db.views, (v: ViewRecord) => InWindow(v, videoId, late))
         <= Seqs.Count(db.views, (v: ViewRecord) => InWindow(v, videoId, early))
  {
    Seqs.CountMonotone(db.views, (v: ViewRecord) => InWindow(v, videoId, late), (v: ViewRecord) => InWindow(v, videoId, early));
  }

  /** The wider named timeframes count at least the views of the narrower
      ones, and the whole history at least those of any window that starts
      after the epoch. */
  lemma WiderTimeframeCountsMore(db: Db, videoId: Id, now: int, narrow: Timeframe, wide: Timeframe)
    requires DaysBack(narrow).Some?
    requires DaysBack(wide).Some? ==> DaysBack(narrow).value <= DaysBack(wide).value
    requires DaysBack(wide).None? ==> StartDate(now, narrow) >= 0
    ensures Seqs.Count(db.views, (v: ViewRecord) => InWindow(v, videoId, StartDate(now, narrow)))
         <= Seqs.Count(db.views, (v: ViewRecord) => InWindow(v, videoId, StartDate(now, wide)))
  {
    WiderTimeframeStartsEarlier(now, narrow, wide);
    EarlierStartCountsMore(db, videoId, StartDate(now, wide), StartDate(now, narrow));
  }

  /** A timeframe that reaches back more days starts no later, and the
      whole history starts no later than a window that begins after the
      epoch. */
  lemma WiderTimeframeStartsEarlier(now: int, narrow: Timeframe, wide: Timeframe)
    requires DaysBack(narrow).Some?
    requires DaysBack(wide).Some? ==> DaysBack(narrow).value <= DaysBack(wide).value
    requires DaysBack(wide).None? ==> StartDate(now, narrow) >= 0
    ensures StartDate(now, wide) <= StartDate(now, narrow) < now
  {
    if DaysBack(wide).Some? {
      assert DaysBack(narrow).value * DayMillis <= DaysBack(wide).value * DayMillis;
    }
  }
}

=== FILE: auth.dfy ===
/** Registration, login and their one-time-code steps.

    An operation works on the database and the cache together and answers
    a `Reply`: its outcome and both stores as they are afterwards. A write
    made before a later step fails is kept, as it is in the service.
    Password hashing and comparison, identifier generation, token signing,
    `Math.random` and the clock are parameters. */
module Auth {
  import opened Outcomes
  import opened Text
  import opened Schema
  import Seqs
  import opened Redis
  import Otp
  import opened AuthDto

  datatype Reply<+T> = Reply(outcome: Result<T>, db: Db, cache: Store)

  /** Time stamps as the cache stores them. */
  function Stamp(t: int): string
  {
    IntToString(t)
  }

  function Flag(b: bool): (s: string)
    ensures (s == "true") == b
  {
    if b then "true" else "false"
  }

  /** `x || ''` on an optional column. */
  function OrEmpty(s: Option<string>): (r: string)
    ensures Truthy(s) ==> r == s.value
    ensures !Truthy(s) ==> r == ""
  {
    if s.Some? then s.value else ""
  }

  /** `user.role || 'USER'`. */
  function RoleName(role: Role): (r: string)
    ensures r != ""
  {
    match role
    case USER => "USER"
    case ADMIN => "ADMIN"
    case OtherRole(name) => if name == "" then "USER" else name
  }

  /** The cached copy of a user. Which password and refresh token are
      stored depends on the caller. */
  function UserHash(u: User, password: string, refreshToken: string, now: int): Hash
  {
    map[
      "id" := u.id, "email" := u.email, "phoneNumber" := u.phoneNumber, "username" := u.username,
      "firstName" := u.firstName, "lastName" := u.lastName, "password" := password,
      "is_phone_verified" := Flag(u.isPhoneVerified), "is_email_verified" := Flag(u.isEmailVerified),
      "role" := RoleName(u.role), "avatarUrl" := OrEmpty(u.avatarUrl), "refreshToken" := refreshToken,
      "createdAt" := Stamp(u.createdAt), "updatedAt" := Stamp(now)]
  }

  /** `cacheUser`: the password is read from a relation the user row does
      not load, so the cache always holds an empty one. */
  function CacheUser(cache: Store, u: User, now: int): (r: Store)
    ensures "password" in GetUser(r, u.id) && GetUser(r, u.id)["password"] == ""
  {
    SetUser(cache, u.id, UserHash(u, "", OrEmpty(u.refreshToken), now))
  }

  /** A user read back from the cache; a field the hash lacks is absent. */
  datatype CachedUser = CachedUser(
    id: Option<string>, email: Option<string>, phoneNumber: Option<string>, username: Option<string>,
    firstName: Option<string>, lastName: Option<string>, password: Option<string>,
    isPhoneVerified: bool, isEmailVerified: bool, refreshToken: Option<string>,
    createdAt: Option<string>, updatedAt: Option<string>)

  function Field(h: Hash, k: string): Option<string>
  {
    if k in h then Some(h[k]) else None
  }

  /** `deserializeUser`: a flag is set only when it reads exactly `true`. */
  function Deserialize(h: Hash): (c: CachedUser)
    ensures c.isPhoneVerified <==> Field(h, "is_phone_verified") == Some("true")
    ensures c.isEmailVerified <==> Field(h, "is_email_verified") == Some("true")
  {
    CachedUser(
      Field(h, "id"), Field(h, "email"), Field(h, "phoneNumber"), Field(h, "username"),
      Field(h, "firstName"), Field(h, "lastName"), Field(h, "password"),
      Field(h, "is_phone_verified") == Some("true"), Field(h, "is_email_verified") == Some("true"),
      Field(h, "refreshToken"), Field(h, "createdAt"), Field(h, "updatedAt"))
  }

  /** Reading back a cached user gives its identity, names and both flags
      unchanged, with the password and token the writer chose. */
  lemma CacheRoundTrip(u: User, password: string, refreshToken: string, now: int)
    ensures Deserialize(UserHash(u, password, refreshToken, now)) == CachedUser(
      Some(u.id), Some(u.email), Some(u.phoneNumber), Some(u.username), Some(u.firstName), Some(u.lastName),
      Some(password), u.isPhoneVerified, u.isEmailVerified, Some(refreshToken),
      Some(Stamp(u.createdAt)), Some(Stamp(now)))
  {
    UserHashIdentity(u, password, refreshToken, now);
    UserHashNames(u, password, refreshToken, now);
    UserHashSecrets(u, password, refreshToken, now);
    UserHashFlags(u, password, refreshToken, now);
  }

  lemma UserHashIdentity(u: User, password: string, refreshToken: string, now: int)
    ensures var h := UserHash(u, password, refreshToken, now);
      Field(h, "id") == Some(u.id) && Field(h, "email") == Some(u.email) && Field(h, "phoneNumber") == Some(u.phoneNumber)
  {
  }

  lemma UserHashNames(u: User, password: string, refreshToken: string, now: int)
    ensures var h := UserHash(u, password, refreshToken, now);
      Field(h, "username") == Some(u.username) && Field(h, "firstName") == Some(u.firstName) && Field(h, "lastName") == Some(u.lastName)
  {
  }

  lemma UserHashSecrets(u: User, password: string, refreshToken: string, now: int)
    ensures var h := UserHash(u, password, refreshToken, now);
      && Field(h, "password") == Some(password) && Field(h, "refreshToken") == Some(refreshToken)
      && Field(h, "createdAt") == Some(Stamp(u.createdAt)) && Field(h, "updatedAt") == Some(Stamp(now))
  {
  }

  lemma UserHashFlags(u: User, password: string, refreshToken: string, now: int)
    ensures var h := UserHash(u, password, refreshToken, now);
      Field(h, "is_phone_verified") == Some(Flag(u.isPhoneVerified)) && Field(h, "is_email_verified") == Some(Flag(u.isEmailVerified))
  {
  }

  predicate IsUsernameChar(c: char)
  {
    IsLower(c) || IsDigit(c) || c == '_'
  }

  /** The part of an address before its first `@`, the whole address when
      there is none. */
  function LocalPart(email: string): (r: string)
    ensures '@' !in r
    ensures StartsWith(email, r)
    ensures '@' !in email ==> r == email
  {
    JoinSplitHead(email);
    Split(email, '@')[0]
  }

  lemma JoinSplitHead(s: string)
    ensures StartsWith(s, Split(s, '@')[0])
    ensures '@' !in s ==> Split(s, '@')[0] == s
  {
    match IndexOfChar(s, '@')
    case None =>
    case Some(i) =>
  }

  /** The username stem of an address: its local part lowercased, with
      every character but `a-z`, `0-9` and `_` removed. */
  function BaseUsername(email: string): (r: string)
    ensures forall i :: 0 <= i < |r| ==> IsUsernameChar(r[i])
    ensures forall c :: c in r <==> c in ToLower(LocalPart(email)) && IsUsernameChar(c)
    ensures (forall i :: 0 <= i < |LocalPart(email)| ==> IsUsernameChar(LocalPart(email)[i])) ==> r == LocalPart(email)
    ensures Seqs.Subsequence(r, ToLower(LocalPart(email)))
    ensures |r| == Seqs.Count(ToLower(LocalPart(email)), IsUsernameChar)
  {
    var lower := ToLower(LocalPart(email));
    Seqs.FilterInOrder(lower, IsUsernameChar);
    if forall i :: 0 <= i < |LocalPart(email)| ==> IsUsernameChar(LocalPart(email)[i]) then
      assert lower == LocalPart(email);
      Seqs.FilterAll(lower, IsUsernameChar);
      Seqs.Filter(lower, IsUsernameChar)
    else
      Seqs.Filter(lower, IsUsernameChar)
  }

  /** The stem is determined by its contract: any in-order selection of
      username characters from the lowercased local part that misses none
      of them is the stem. */
  lemma BaseUsernameDetermined(email: string, r: string)
    requires Seqs.Subsequence(r, ToLower(LocalPart(email)))
    requires forall i :: 0 <= i < |r| ==> IsUsernameChar(r[i])
    requires |r| == Seqs.Count(ToLower(LocalPart(email)), IsUsernameChar)
    ensures r == BaseUsername(email)
  {
    Seqs.FilterUnique(r, ToLower(LocalPart(email)), IsUsernameChar);
  }

  /** `Math.floor(1000 + Math.random() * 9000)` for a draw in [0, 1). */
  function Suffix(x: real): (n: nat)
    requires 0.0 <= x < 1.0
    ensures 1000 <= n <= 9999
  {
    (1000.0 + x * 9000.0).Floor
  }

  /** The stem followed by the decimal suffix. */
  function Username(base: string, x: real): (name: string)
    requires 0.0 <= x < 1.0
    ensures StartsWith(name, base)
    ensures AllDigits(name[|base|..]) && DecimalValue(name[|base|..]) == Suffix(x)
  {
    DecimalOfNatToString(Suffix(x));
    assert (base + NatToString(Suffix(x)))[|base|..] == NatToString(Suffix(x));
    base + NatToString(Suffix(x))
  }

  predicate Draws(randoms: seq<real>)
  {
    |randoms| == 3 && forall k :: 0 <= k < 3 ==> 0.0 <= randoms[k] < 1.0
  }

  /** The first unique column of `user` that `u` repeats: the primary key,
      then email, phone number and username. */
  function TakenColumn(db: Db, u: User): (r: Option<string>)
    ensures r == Some("username") <==>
      FindUser(db, u.id).None? && FindUserByEmail(db, u.email).None? && FindUserByPhone(db, u.phoneNumber).None?
      && FindUserByUsername(db, u.username).Some?
  {
    if FindUser(db, u.id).Some? then Some("id")
    else if FindUserByEmail(db, u.email).Some? then Some("email")
    else if FindUserByPhone(db, u.phoneNumber).Some? then Some("phoneNumber")
    else if FindUserByUsername(db, u.username).Some? then Some("username")
    else None
  }

  /** The three usernames `register` may try, one per drawn suffix. */
  function Choices(base: string, randoms: seq<real>): (names: seq<string>)
    requires Draws(randoms)
    ensures |names| == 3 && forall j :: 0 <= j < 3 ==> names[j] == Username(base, randoms[j])
  {
    [Username(base, randoms[0]), Username(base, randoms[1]), Username(base, randoms[2])]
  }

  /** The row with the username of attempt `k`. */
  function Candidate(u: User, names: seq<string>, k: nat): User
    requires |names| == 3 && k < 3
  {
    u.(username := names[k])
  }

  /** The insertion loop of `register` from attempt `k` on: a username
      clash draws a new suffix, up to three attempts in all; any other
      unique clash is passed on. */
  function CreateFrom(db: Db, u: User, names: seq<string>, k: nat): (r: Result<(User, Db)>)
    requires |names| == 3 && k < 3
    ensures r.Ok? ==> exists j :: k <= j < 3 && r.value.0 == Candidate(u, names, j)
    ensures r.Ok? ==> r.value.0 == u.(username := r.value.0.username)
    ensures r.Ok? ==> TakenColumn(db, r.value.0).None? && r.value.1 == db.(users := db.users + [r.value.0])
    ensures (r.Err? && r.error.Conflict?) <==>
      forall j :: k <= j < 3 ==> TakenColumn(db, Candidate(u, names, j)) == Some("username")
    ensures r.Err? && !r.error.Conflict? ==> r.error.Internal?
    ensures (exists j :: k <= j < 3 && TakenColumn(db, Candidate(u, names, j)).None?
               && forall i :: k <= i < j ==> TakenColumn(db, Candidate(u, names, i)) == Some("username"))
            ==> r.Ok?
    decreases 3 - k
  {
    var candidate := Candidate(u, names, k);
    match TakenColumn(db, candidate)
    case None => Ok((candidate, db.(users := db.users + [candidate])))
    case Some(column) =>
      if column == "username" then
        if k + 1 >= 3 then Err(Conflict(UsernamesExhausted))
        else CreateFrom(db, u, names, k + 1)
      else Err(Internal("Unique constraint failed on the fields: (`" + column + "`)"))
  }

  /** The row `register` inserts, before its username is chosen. */
  function NewUserRow(d: RegisterRequest, id: Id, hashed: string, now: int): User
  {
    User(id, d.email, d.phoneNumber, "", d.firstName, d.lastName, Some(hashed), USER,
      None, None, false, false, None, now)
  }

  /** What `register` knows of the row it appends: the request's contact
      details and names, an unverified `USER` with the hashed password, and
      a username made of the address's stem and one of the drawn suffixes. */
  predicate Newcomer(u: User, d: RegisterRequest, id: Id, hashed: string, randoms: seq<real>)
  {
    && u.id == id && u.email == d.email && u.phoneNumber == d.phoneNumber
    && u.firstName == d.firstName && u.lastName == d.lastName
    && !u.isPhoneVerified && !u.isEmailVerified && u.password == Some(hashed) && u.role == USER
    && Draws(randoms) && exists j :: 0 <= j < 3 && u.username == Username(BaseUsername(d.email), randoms[j])
  }

  /** The services' other messages. */
  const UsernamesExhausted: string := "Unable to generate a unique username. Please try again."
  const VerifiedMessage: string := "Registration verified successfully"
  const InvalidCredentials: string := "Invalid credentials"
  const LoginOtpSent: string := "OTP sent for login verification"
  const VerifyPhoneFirst: string := "Please verify your phone number first. A new OTP has been sent."
  const InvalidOtp: string := "Invalid or expired OTP"
  const PhoneRegistered: string := "Phone number already registered"
  const UserNotFound: string := "User not found"
  const OtpSentMessage: string := "OTP sent successfully"
  const OtpSendFailed: string := "Failed to send OTP"

  /** The reply to a registration whose code was sent. */
  const RegisteredMessage: string := "Registration successful. Please verify your phone number with the OTP sent."

  /** The steps of `register` after the row is in: cache the user, then
      send the code. */
  function Registered(db: Db, cache: Store, u: User, hashed: string, otpDraws: seq<nat>, now: int): (r: Reply<string>)
    requires |otpDraws| == 6
    ensures r.db == db && UserKey(u.id) in r.cache.hashes
    ensures r.outcome.Ok? <==> !Truthy(GetOtp(SetUser(cache, u.id, UserHash(u, hashed, "", now)), Otp.PhoneKey(u.phoneNumber), now))
    ensures r.outcome.Err? ==> r.outcome.error.BadRequest?
    ensures r.outcome.Ok? ==> GetOtp(r.cache, u.phoneNumber, now) == Some(Otp.GenerateOtp(otpDraws))
    ensures r.outcome.Ok? ==> r.outcome.value == RegisteredMessage
  {
    var cache' := SetUser(cache, u.id, UserHash(u, hashed, "", now));
    match Otp.SendOtp(cache', u.phoneNumber, otpDraws, now)
    case Err(e) => Reply(Err(e), db, cache')
    case Ok((_, cache'')) =>
      Reply(Ok(RegisteredMessage), db, cache'')
  }

  /** What a registration may do to the table: nothing, or append one
      unverified row for the request. */
  predicate AppendsNewcomer(db: Db, db': Db, d: RegisterRequest, id: Id, hashed: string, randoms: seq<real>)
  {
    db' == db || (|db'.users| == |db.users| + 1 && db'.users[..|db.users|] == db.users && Newcomer(db'.users[|db.users|], d, id, hashed, randoms))
  }

  /** `register`. */
  function Register(db: Db, cache: Store, d: RegisterRequest, hashed: string, id: Id,
                    randoms: seq<real>, otpDraws: seq<nat>, now: int): (r: Reply<string>)
    requires Draws(randoms) && |otpDraws| == 6
    ensures FindUserByEmail(db, d.email).Some? ==> r == Reply(Err(Conflict("Email already in use")), db, cache)
    ensures FindUserByEmail(db, d.email).None? && FindUserByPhone(db, d.phoneNumber).Some? ==>
      r == Reply(Err(Conflict("Phone number already in use")), db, cache)
    ensures AppendsNewcomer(db, r.db, d, id, hashed, randoms)
    ensures r.outcome.Ok? ==> r.outcome.value == RegisteredMessage
    ensures r.outcome.Ok? ==> |r.db.users| == |db.users| + 1 && GetOtp(r.cache, d.phoneNumber, now) == Some(Otp.GenerateOtp(otpDraws))
    ensures FindUserByEmail(db, d.email).None? && FindUserByPhone(db, d.phoneNumber).None? ==>
      r == RegisterNew(db, cache, d, hashed, id, randoms, otpDraws, now)
  {
    if FindUserByEmail(db, d.email).Some? then Reply(Err(Conflict("Email already in use")), db, cache)
    else if FindUserByPhone(db, d.phoneNumber).Some? then Reply(Err(Conflict("Phone number already in use")), db, cache)
    else RegisterNew(db, cache, d, hashed, id, randoms, otpDraws, now)
  }

  /** The part of `register` after both conflict checks: create the row,
      cache it, send the code. */
  function RegisterNew(db: Db, cache: Store, d: RegisterRequest, hashed: string, id: Id,
                       randoms: seq<real>, otpDraws: seq<nat>, now: int): (r: Reply<string>)
    requires Draws(randoms) && |otpDraws| == 6
    ensures AppendsNewcomer(db, r.db, d, id, hashed, randoms)
    ensures r.outcome.Ok? ==> r.outcome.value == RegisteredMessage
    ensures r.outcome.Ok? ==> |r.db.users| == |db.users| + 1 && GetOtp(r.cache, d.phoneNumber, now) == Some(Otp.GenerateOtp(otpDraws))
    ensures CreateFrom(db, NewUserRow(d, id, hashed, now), Choices(BaseUsername(d.email), randoms), 0).Err? ==>
      r == Reply(Err(CreateFrom(db, NewUserRow(d, id, hashed, now), Choices(BaseUsername(d.email), randoms), 0).error), db, cache)
    ensures CreateFrom(db, NewUserRow(d, id, hashed, now), Choices(BaseUsername(d.email), randoms), 0).Ok? ==>
      r == Registered(CreateFrom(db, NewUserRow(d, id, hashed, now), Choices(BaseUsername(d.email), randoms), 0).value.1, cache,
                      CreateFrom(db, NewUserRow(d, id, hashed, now), Choices(BaseUsername(d.email), randoms), 0).value.0,
                      hashed, otpDraws, now)
  {
    match CreateFrom(db, NewUserRow(d, id, hashed, now), Choices(BaseUsername(d.email), randoms), 0)
    case Err(e) => Reply(Err(e), db, cache)
    case Ok((u, db')) =>
      CreatedRow(db, d, hashed, id, randoms, now);
      Registered(db', cache, u, hashed, otpDraws, now)
  }

  /** The row `register` creates is appended after the existing ones. */
  lemma CreatedRow(db: Db, d: RegisterRequest, hashed: string, id: Id, randoms: seq<real>, now: int)
    requires Draws(randoms)
    requires CreateFrom(db, NewUserRow(d, id, hashed, now), Choices(BaseUsername(d.email), randoms), 0).Ok?
    ensures var (u, db') := CreateFrom(db, NewUserRow(d, id, hashed, now), Choices(BaseUsername(d.email), randoms), 0).value;
      && |db'.users| == |db.users| + 1 && db'.users[..|db.users|] == db.users
      && db'.users[|db.users|] == u && Newcomer(u, d, id, hashed, randoms)
  {
    var (u, db') := CreateFrom(db, NewUserRow(d, id, hashed, now), Choices(BaseUsername(d.email), randoms), 0).value;
    var j :| 0 <= j < 3 && u == Candidate(NewUserRow(d, id, hashed, now), Choices(BaseUsername(d.email), randoms), j);
    assert u.username == Username(BaseUsername(d.email), randoms[j]);
    assert db'.users == db.users + [u];
    assert db'.users[..|db.users|] == db.users;
  }

  /** A successful registration makes the address and the phone number
      taken, so the same request a second time is refused. */
  lemma RegisterTakesEmailAndPhone(db: Db, cache: Store, d: RegisterRequest, hashed: string, id: Id,
                                   randoms: seq<real>, otpDraws: seq<nat>, now: int)
    requires Draws(randoms) && |otpDraws| == 6
    requires Register(db, cache, d, hashed, id, randoms, otpDraws, now).db != db
    ensures var r := Register(db, cache, d, hashed, id, randoms, otpDraws, now);
      && FindUserByEmail(r.db, d.email).Some? && FindUserByPhone(r.db, d.phoneNumber).Some?
      && Register(r.db, r.cache, d, hashed, id, randoms, otpDraws, now).outcome == Err(Conflict("Email already in use"))
  {
    var db' := Register(db, cache, d, hashed, id, randoms, otpDraws, now).db;
    assert db'.users[|db.users|].email == d.email && db'.users[|db.users|].phoneNumber == d.phoneNumber;
  }

  /** A registration whose address, phone, id and first drawn username are
      all free, for a phone with no live code, succeeds: it appends the
      request's row under that username and sends the code. */
  lemma RegisterSucceedsWhenFree(db: Db, cache: Store, d: RegisterRequest, hashed: string, id: Id,
                                 randoms: seq<real>, otpDraws: seq<nat>, now: int)
    requires Draws(randoms) && |otpDraws| == 6
    requires FindUserByEmail(db, d.email).None? && FindUserByPhone(db, d.phoneNumber).None? && FindUser(db, id).None?
    requires FindUserByUsername(db, Username(BaseUsername(d.email), randoms[0])).None?
    requires !Truthy(GetOtp(cache, Otp.PhoneKey(d.phoneNumber), now))
    ensures var r := Register(db, cache, d, hashed, id, randoms, otpDraws, now);
      && r.outcome == Ok(RegisteredMessage)
      && r.db.users == db.users + [NewUserRow(d, id, hashed, now).(username := Username(BaseUsername(d.email), randoms[0]))]
  {
    var names := Choices(BaseUsername(d.email), randoms);
    var u := NewUserRow(d, id, hashed, now);
    assert TakenColumn(db, Candidate(u, names, 0)).None?;
  }

  /** When a live code already blocks the phone, registration answers the
      rate-limit error but the new user row and its cached copy stay. */
  lemma RegisterKeepsUserWhenCodeRefused(db: Db, cache: Store, d: RegisterRequest, hashed: string, id: Id,
                                         randoms: seq<real>, otpDraws: seq<nat>, now: int)
    requires Draws(randoms) && |otpDraws| == 6
    requires FindUserByEmail(db, d.email).None? && FindUserByPhone(db, d.phoneNumber).None?
    requires CreateFrom(db, NewUserRow(d, id, hashed, now), Choices(BaseUsername(d.email), randoms), 0).Ok?
    requires Truthy(GetOtp(cache, Otp.PhoneKey(d.phoneNumber), now))
    ensures var r := Register(db, cache, d, hashed, id, randoms, otpDraws, now);
      && r.outcome.Err? && r.outcome.error.BadRequest?
      && |r.db.users| == |db.users| + 1
      && UserKey(id) in r.cache.hashes
  {
    var u := CreateFrom(db, NewUserRow(d, id, hashed, now), Choices(BaseUsername(d.email), randoms), 0).value.0;
    var j :| 0 <= j < 3 && u == Candidate(NewUserRow(d, id, hashed, now), Choices(BaseUsername(d.email), randoms), j);
    assert u.id == id;
  }

  /** `verifyRegistration`. The code is spent before the user is looked up,
      so a missing user still consumes it. */
  function VerifyRegistration(db: Db, cache: Store, d: VerifyOtpRequest, now: int): (r: Reply<string>)
    ensures Otp.VerifyOtp(cache, d.phoneNumber, d.otp, now).Err? ==> r == Reply(Err(BadRequest("Invalid otp")), db, cache)
    ensures r.outcome.Ok? <==> Otp.VerifyOtp(cache, d.phoneNumber, d.otp, now).Ok? && FindUserByPhone(db, d.phoneNumber).Some?
    ensures r.outcome.Ok? ==> var i := FindUserByPhone(db, d.phoneNumber).value;
      && r.db.users == db.users[i := db.users[i].(isPhoneVerified := true)]
      && "is_phone_verified" in GetUser(r.cache, db.users[i].id) && GetUser(r.cache, db.users[i].id)["is_phone_verified"] == "true"
    ensures r.db == db.(users := r.db.users)
    ensures r.outcome.Err? ==> r.db == db
    ensures Otp.VerifyOtp(cache, d.phoneNumber, d.otp, now).Ok? && FindUserByPhone(db, d.phoneNumber).None? ==>
      r == Reply(Err(BadRequest(UserNotFound)), db, Otp.VerifyOtp(cache, d.phoneNumber, d.otp, now).value.1)
  {
    match Otp.VerifyOtp(cache, d.phoneNumber, d.otp, now)
    case Err(e) => Reply(Err(e), db, cache)
    case Ok((valid, cache1)) =>
      if !valid then Reply(Err(Unauthorized(InvalidOtp)), db, cache1)
      else match FindUserByPhone(db, d.phoneNumber)
        case None => Reply(Err(BadRequest(UserNotFound)), db, cache1)
        case Some(i) =>
          var u := db.users[i].(isPhoneVerified := true);
          var cache2 := SetUser(cache1, u.id, UserHash(u, OrEmpty(u.password), OrEmpty(u.refreshToken), now));
          Reply(Ok(VerifiedMessage), db.(users := db.users[i := u]), cache2)
  }

  /** Registering and then entering the code that was sent, within its
      lifetime, marks the new user's phone as verified. */
  lemma RegisterThenVerify(db: Db, cache: Store, d: RegisterRequest, hashed: string, id: Id,
                           randoms: seq<real>, otpDraws: seq<nat>, now: int, later: int)
    requires Draws(randoms) && |otpDraws| == 6
    requires !StartsWith(d.phoneNumber, OtpPrefix)
    requires now <= later < now + OtpTtl
    requires Register(db, cache, d, hashed, id, randoms, otpDraws, now).outcome.Ok?
    ensures var reg := Register(db, cache, d, hashed, id, randoms, otpDraws, now);
      var ver := VerifyRegistration(reg.db, reg.cache, VerifyOtpRequest(d.phoneNumber, Otp.GenerateOtp(otpDraws), "signup"), later);
      && ver.outcome.Ok?
      && exists i :: 0 <= i < |ver.db.users| && ver.db.users[i].phoneNumber == d.phoneNumber && ver.db.users[i].isPhoneVerified
  {
    var reg := Register(db, cache, d, hashed, id, randoms, otpDraws, now);
    RegisteredCodeLive(db, cache, d, hashed, id, randoms, otpDraws, now, later);
    var ver := VerifyRegistration(reg.db, reg.cache, VerifyOtpRequest(d.phoneNumber, Otp.GenerateOtp(otpDraws), "signup"), later);
    var i := FindUserByPhone(reg.db, d.phoneNumber).value;
    assert ver.db.users[i].phoneNumber == d.phoneNumber && ver.db.users[i].isPhoneVerified;
  }

  /** After a successful registration the user can be found by phone and
      the code sent is still live, under the key verification reads. */
  lemma RegisteredCodeLive(db: Db, cache: Store, d: RegisterRequest, hashed: string, id: Id,
                           randoms: seq<real>, otpDraws: seq<nat>, now: int, later: int)
    requires Draws(randoms) && |otpDraws| == 6
    requires !StartsWith(d.phoneNumber, OtpPrefix)
    requires now <= later < now + OtpTtl
    requires Register(db, cache, d, hashed, id, randoms, otpDraws, now).outcome.Ok?
    ensures var reg := Register(db, cache, d, hashed, id, randoms, otpDraws, now);
      && FindUserByPhone(reg.db, d.phoneNumber).Some?
      && GetOtp(reg.cache, Otp.PhoneKey(d.phoneNumber), later) == Some(Otp.GenerateOtp(otpDraws))
      && Otp.GenerateOtp(otpDraws) != ""
  {
    var reg := Register(db, cache, d, hashed, id, randoms, otpDraws, now);
    var code := Otp.GenerateOtp(otpDraws);
    Otp.PlainPhoneKey(d.phoneNumber);
    assert GetOtp(reg.cache, d.phoneNumber, now) == Some(code);
    assert reg.cache.strings[OtpKey(d.phoneNumber)].expiresAt == Some(now + OtpTtl);
    assert code != "" by { assert |code| == 6; }
    RegisterTakesEmailAndPhone(db, cache, d, hashed, id, randoms, otpDraws, now);
  }

  /** The phone belongs to a user with a password, and the password given
      matches it. */
  predicate PasswordAccepted(db: Db, d: LoginRequest, matches: (string, string) -> bool)
  {
    && FindUserByPhone(db, d.phoneNumber).Some?
    && Truthy(db.users[FindUserByPhone(db, d.phoneNumber).value].password)
    && matches(d.password, db.users[FindUserByPhone(db, d.phoneNumber).value].password.value)
  }

  /** `login`. The password check is a parameter; an unknown phone, a user
      without a password and a wrong password are answered alike. An
      accepted password always sends a code: for a verified phone the reply
      says so, for an unverified one it asks for verification first. */
  function Login(db: Db, cache: Store, d: LoginRequest, matches: (string, string) -> bool,
                 otpDraws: seq<nat>, now: int): (r: Reply<string>)
    requires |otpDraws| == 6
    ensures r.db == db
    ensures (FindUserByPhone(db, d.phoneNumber).None?
      || !Truthy(db.users[FindUserByPhone(db, d.phoneNumber).value].password)
      || !matches(d.password, db.users[FindUserByPhone(db, d.phoneNumber).value].password.value))
      ==> r == Reply(Err(Unauthorized(InvalidCredentials)), db, cache)
    ensures r.outcome.Ok? ==> var u := db.users[FindUserByPhone(db, d.phoneNumber).value];
      && u.isPhoneVerified
      && GetUser(r.cache, u.id) == GetUser(CacheUser(cache, u, now), u.id)
      && r.outcome.value == LoginOtpSent
    ensures PasswordAccepted(db, d, matches) && !db.users[FindUserByPhone(db, d.phoneNumber).value].isPhoneVerified ==>
      && (Otp.SendOtp(cache, d.phoneNumber, otpDraws, now).Ok? ==>
            && r.outcome == Err(Unauthorized(VerifyPhoneFirst))
            && GetOtp(r.cache, d.phoneNumber, now) == Some(Otp.GenerateOtp(otpDraws)))
      && (Otp.SendOtp(cache, d.phoneNumber, otpDraws, now).Err? ==>
            r == Reply(Err(Otp.SendOtp(cache, d.phoneNumber, otpDraws, now).error), db, cache))
    ensures PasswordAccepted(db, d, matches) && db.users[FindUserByPhone(db, d.phoneNumber).value].isPhoneVerified ==>
      var cache1 := CacheUser(cache, db.users[FindUserByPhone(db, d.phoneNumber).value], now);
      && (r.outcome.Ok? <==> Otp.SendOtp(cache1, d.phoneNumber, otpDraws, now).Ok?)
      && (r.outcome.Ok? ==> GetOtp(r.cache, d.phoneNumber, now) == Some(Otp.GenerateOtp(otpDraws)))
      && (r.outcome.Err? ==> r.outcome.error == Otp.SendOtp(cache1, d.phoneNumber, otpDraws, now).error)
  {
    match FindUserByPhone(db, d.phoneNumber)
    case None => Reply(Err(Unauthorized(InvalidCredentials)), db, cache)
    case Some(i) =>
      var u := db.users[i];
      if !Truthy(u.password) || !matches(d.password, u.password.value) then
        Reply(Err(Unauthorized(InvalidCredentials)), db, cache)
      else if !u.isPhoneVerified then
        match Otp.SendOtp(cache, d.phoneNumber, otpDraws, now)
        case Err(e) => Reply(Err(e), db, cache)
        case Ok((_, cache')) =>
          Reply(Err(Unauthorized(VerifyPhoneFirst)), db, cache')
      else
        var cache1 := CacheUser(cache, u, now);
        match Otp.SendOtp(cache1, d.phoneNumber, otpDraws, now)
        case Err(e) => Reply(Err(e), db, cache1)
        case Ok((_, cache2)) => Reply(Ok(LoginOtpSent), db, cache2)
  }

  /** A user whose phone is not verified never gets past login, though a
      new code may be sent. */
  lemma LoginNeedsVerifiedPhone(db: Db, cache: Store, d: LoginRequest, matches: (string, string) -> bool,
                                otpDraws: seq<nat>, now: int)
    requires |otpDraws| == 6
    requires FindUserByPhone(db, d.phoneNumber).Some?
    requires !db.users[FindUserByPhone(db, d.phoneNumber).value].isPhoneVerified
    ensures Login(db, cache, d, matches, otpDraws, now).outcome.Err?
  {
  }

  datatype Session = Session(
    accessToken: string, refreshToken: string,
    id: Id, email: string, phoneNumber: string, firstName: string, lastName: string)

  /** `verifyLogin`, with the signed token pair as a parameter. */
  function VerifyLogin(db: Db, cache: Store, d: VerifyLoginRequest, tokens: (string, string), now: int): (r: Reply<Session>)
    ensures Otp.VerifyOtp(cache, d.phoneNumber, d.otp, now).Err? ==> r == Reply(Err(BadRequest("Invalid otp")), db, cache)
    ensures r.outcome.Ok? <==> Otp.VerifyOtp(cache, d.phoneNumber, d.otp, now).Ok? && FindUserByPhone(db, d.phoneNumber).Some?
    ensures r.outcome.Ok? ==> var i := FindUserByPhone(db, d.phoneNumber).value;
      && r.outcome.value.id == db.users[i].id
      && r.outcome.value.accessToken == tokens.0 && r.outcome.value.refreshToken == tokens.1
      && r.db.users == db.users[i := db.users[i].(refreshToken := Some(tokens.1))]
      && "refreshToken" in GetUser(r.cache, db.users[i].id) && GetUser(r.cache, db.users[i].id)["refreshToken"] == tokens.1
    ensures r.outcome.Ok? ==> var u := db.users[FindUserByPhone(db, d.phoneNumber).value];
      && r.outcome.value.email == u.email && r.outcome.value.phoneNumber == u.phoneNumber
      && r.outcome.value.firstName == u.firstName && r.outcome.value.lastName == u.lastName
    ensures r.db == db.(users := r.db.users)
    ensures r.outcome.Err? ==> r.db == db
    ensures Otp.VerifyOtp(cache, d.phoneNumber, d.otp, now).Ok? && FindUserByPhone(db, d.phoneNumber).None? ==>
      r == Reply(Err(Unauthorized(UserNotFound)), db, Otp.VerifyOtp(cache, d.phoneNumber, d.otp, now).value.1)
  {
    match Otp.VerifyOtp(cache, d.phoneNumber, d.otp, now)
    case Err(e) => Reply(Err(e), db, cache)
    case Ok((valid, cache1)) =>
      if !valid then Reply(Err(Unauthorized(InvalidOtp)), db, cache1)
      else match FindUserByPhone(db, d.phoneNumber)
        case None => Reply(Err(Unauthorized(UserNotFound)), db, cache1)
        case Some(i) =>
          var u := db.users[i];
          var cache2 := SetUser(cache1, u.id, UserHash(u, OrEmpty(u.password), tokens.1, now));
          var db' := db.(users := db.users[i := u.(refreshToken := Some(tokens.1))]);
          Reply(Ok(Session(tokens.0, tokens.1, u.id, u.email, u.phoneNumber, u.firstName, u.lastName)), db', cache2)
  }

  /** A user with a verified phone and the right password, with no code
      pending, is sent one at login; entering it within its lifetime opens a
      session for that user carrying the signed tokens. */
  lemma LoginThenVerify(db: Db, cache: Store, d: LoginRequest, matches: (string, string) -> bool,
                        otpDraws: seq<nat>, tokens: (string, string), purpose: string, now: int, later: int)
    requires |otpDraws| == 6 && !StartsWith(d.phoneNumber, OtpPrefix)
    requires PasswordAccepted(db, d, matches) && db.users[FindUserByPhone(db, d.phoneNumber).value].isPhoneVerified
    requires !Truthy(GetOtp(cache, Otp.PhoneKey(d.phoneNumber), now))
    requires now <= later < now + OtpTtl
    ensures var login := Login(db, cache, d, matches, otpDraws, now);
      var s := VerifyLogin(login.db, login.cache, VerifyOtpRequest(d.phoneNumber, Otp.GenerateOtp(otpDraws), purpose), tokens, later);
      && login.outcome == Ok(LoginOtpSent)
      && s.outcome.Ok?
      && s.outcome.value.id == db.users[FindUserByPhone(db, d.phoneNumber).value].id
      && s.outcome.value.accessToken == tokens.0 && s.outcome.value.refreshToken == tokens.1
  {
    var u := db.users[FindUserByPhone(db, d.phoneNumber).value];
    var cache1 := CacheUser(cache, u, now);
    assert GetOtp(cache1, Otp.PhoneKey(d.phoneNumber), now) == GetOtp(cache, Otp.PhoneKey(d.phoneNumber), now);
    Otp.SendThenVerifyOnce(cache1, d.phoneNumber, otpDraws, now, later);
  }

  /** `sendOtp` of the authentication service: a sign-up code only for an
      unknown phone, a login or reset code only for a known one; any
      refusal of the code store is reported as one message. */
  function SendOtp(db: Db, cache: Store, phone: string, purpose: OtpPurpose, otpDraws: seq<nat>, now: int): (r: Reply<string>)
    requires |otpDraws| == 6
    ensures r.db == db
    ensures purpose.Signup? && FindUserByPhone(db, phone).Some? ==> r == Reply(Err(Conflict(PhoneRegistered)), db, cache)
    ensures (purpose.Login? || purpose.PasswordReset?) && FindUserByPhone(db, phone).None? ==>
      r == Reply(Err(BadRequest(UserNotFound)), db, cache)
    ensures r.outcome.Ok? <==>
      && (purpose.Signup? ==> FindUserByPhone(db, phone).None?)
      && ((purpose.Login? || purpose.PasswordReset?) ==> FindUserByPhone(db, phone).Some?)
      && Otp.SendOtp(cache, phone, otpDraws, now).Ok?
    ensures Otp.SendOtp(cache, phone, otpDraws, now).Err? ==> r.outcome.Err? && r.cache == cache
    ensures r.outcome.Ok? ==> r.outcome.value == OtpSentMessage && r.cache == Otp.SendOtp(cache, phone, otpDraws, now).value.1
    ensures r.outcome.Err? && Otp.SendOtp(cache, phone, otpDraws, now).Err?
            && !(purpose.Signup? && FindUserByPhone(db, phone).Some?)
            && !((purpose.Login? || purpose.PasswordReset?) && FindUserByPhone(db, phone).None?) ==>
      r == Reply(Err(BadRequest(OtpSendFailed)), db, cache)
  {
    if purpose.Signup? && FindUserByPhone(db, phone).Some? then
      Reply(Err(Conflict(PhoneRegistered)), db, cache)
    else if (purpose.Login? || purpose.PasswordReset?) && FindUserByPhone(db, phone).None? then
      Reply(Err(BadRequest(UserNotFound)), db, cache)
    else match Otp.SendOtp(cache, phone, otpDraws, now)
      case Err(_) => Reply(Err(BadRequest(OtpSendFailed)), db, cache)
      case Ok((_, cache')) => Reply(Ok(OtpSentMessage), db, cache')
  }

  /** A login code sent through the service opens a session for the
      phone's user when it is entered within its lifetime. */
  lemma SendLoginCodeThenVerify(db: Db, cache: Store, phone: string, otpDraws: seq<nat>,
                                tokens: (string, string), purpose: string, now: int, later: int)
    requires |otpDraws| == 6 && !StartsWith(phone, OtpPrefix)
    requires now <= later < now + OtpTtl
    requires SendOtp(db, cache, phone, AuthDto.OtpPurpose.Login, otpDraws, now).outcome.Ok?
    ensures var sent := SendOtp(db, cache, phone, AuthDto.OtpPurpose.Login, otpDraws, now);
      var s := VerifyLogin(sent.db, sent.cache, VerifyOtpRequest(phone, Otp.GenerateOtp(otpDraws), purpose), tokens, later);
      && s.outcome.Ok?
      && s.outcome.value.id == db.users[FindUserByPhone(db, phone).value].id
      && s.outcome.value.accessToken == tokens.0 && s.outcome.value.refreshToken == tokens.1
  {
    Otp.SendThenVerifyOnce(cache, phone, otpDraws, now, later);
  }
}

=== FILE: auth_dto.dfy ===
/** The shapes and validation rules of the authentication requests.

    Email and phone-number syntax belong to the validator library and are
    parameters (`isEmail`, `isPhone`). Every field arrives as a string. A
    request is rejected with the set of messages of the rules it breaks;
    all rules are evaluated, none stops the others. */
module AuthDto {
  import opened Outcomes
  import opened Text

  datatype OtpPurpose = Signup | PasswordReset | Login | VerifyAccount

  /** The wire value of each purpose. */
  function PurposeValue(p: OtpPurpose): string
  {
    match p
    case Signup => "signup"
    case PasswordReset => "password-reset"
    case Login => "login"
    case VerifyAccount => "verify-account"
  }

  /** `@IsEnum(OtpPurpose)`: the purpose whose wire value is `s`, if any. */
  function ParsePurpose(s: string): (r: Option<OtpPurpose>)
    ensures r.Some? ==> PurposeValue(r.value) == s
  {
    if s == "signup" then Some(Signup)
    else if s == "password-reset" then Some(PasswordReset)
    else if s == "login" then Some(Login)
    else if s == "verify-account" then Some(VerifyAccount)
    else None
  }

  /** Every purpose is recognised from its wire value; with the contract of
      `ParsePurpose` the two are inverse on the four wire values. */
  lemma PurposeRoundTrip(p: OtpPurpose)
    ensures ParsePurpose(PurposeValue(p)) == Some(p)
  {
  }

  /** `/^\d{6}$/`: exactly six ASCII digits, nothing before or after. */
  predicate IsOtpCode(s: string)
  {
    |s| == 6 && AllDigits(s)
  }

  /** The class `[A-Za-z\s-']`: outside unicode mode the `-` after `\s` is
      a literal hyphen, not a range. */
  predicate IsNameChar(c: char)
  {
    IsLetter(c) || IsSpace(c) || c == '-' || c == '\''
  }

  /** `/^[A-Za-z\s-']+$/`. */
  predicate IsName(s: string)
  {
    |s| >= 1 && forall i :: 0 <= i < |s| ==> IsNameChar(s[i])
  }

  predicate IsVariationSelector(c: char)
  {
    c == '\U{FE0E}' || c == '\U{FE0F}'
  }

  /** Length as `@MinLength` measures it: a character outside the Basic
      Multilingual Plane counts once, and the variation selectors U+FE0E
      and U+FE0F not at all. */
  function ValidatorLength(s: string): (n: nat)
    ensures n <= |s|
    ensures (forall i :: 0 <= i < |s| ==> !IsVariationSelector(s[i])) ==> n == |s|
  {
    if |s| == 0 then 0
    else (if IsVariationSelector(s[0]) then 0 else 1) + ValidatorLength(s[1..])
  }

  /** No line terminator in `s[from..to]`: a regular-expression `.*` can
      cross that stretch. */
  predicate OnOneLine(s: string, from: nat, to: nat)
    requires from <= to <= |s|
  {
    forall k :: from <= k < to ==> !IsLineTerminator(s[k])
  }

  /** The lookahead `(?=.*C)` at position `p`. */
  predicate AheadOnLine(s: string, p: nat, cls: char -> bool)
    requires p <= |s|
  {
    exists j :: p <= j < |s| && cls(s[j]) && OnOneLine(s, p, j)
  }

  predicate LookaheadsAt(s: string, p: nat)
    requires p <= |s|
  {
    AheadOnLine(s, p, IsLower) && AheadOnLine(s, p, IsUpper) && AheadOnLine(s, p, IsDigit)
  }

  /** `/(?=.*[a-z])(?=.*[A-Z])(?=.*\d)/`, unanchored: the three lookaheads
      succeed together at some position. */
  predicate PasswordPattern(s: string)
  {
    exists p :: 0 <= p <= |s| && LookaheadsAt(s, p)
  }

  function Min3(a: nat, b: nat, c: nat): nat
  {
    if a <= b && a <= c then a else if b <= c then b else c
  }

  function Max3(a: nat, b: nat, c: nat): nat
  {
    if a >= b && a >= c then a else if b >= c then b else c
  }

  /** A lowercase letter, an uppercase letter and a digit at `a`, `b`, `c`,
      with no line break anywhere between the first and the last of them. */
  predicate WitnessesOnOneLine(s: string, a: nat, b: nat, c: nat)
  {
    && a < |s| && b < |s| && c < |s|
    && IsLower(s[a]) && IsUpper(s[b]) && IsDigit(s[c])
    && OnOneLine(s, Min3(a, b, c), Max3(a, b, c))
  }

  /** The pattern holds exactly when one line of the password holds a
      lowercase letter, an uppercase letter and a digit. */
  lemma PasswordPatternIffOneLine(s: string)
    ensures PasswordPattern(s) <==> exists a, b, c :: WitnessesOnOneLine(s, a, b, c)
  {
    if PasswordPattern(s) {
      var p :| 0 <= p <= |s| && LookaheadsAt(s, p);
      var a :| p <= a < |s| && IsLower(s[a]) && OnOneLine(s, p, a);
      var b :| p <= b < |s| && IsUpper(s[b]) && OnOneLine(s, p, b);
      var c :| p <= c < |s| && IsDigit(s[c]) && OnOneLine(s, p, c);
      assert OnOneLine(s, Min3(a, b, c), Max3(a, b, c));
      assert WitnessesOnOneLine(s, a, b, c);
    }
    if exists a, b, c :: WitnessesOnOneLine(s, a, b, c) {
      var a, b, c :| WitnessesOnOneLine(s, a, b, c);
      var p := Min3(a, b, c);
      assert OnOneLine(s, p, a) && OnOneLine(s, p, b) && OnOneLine(s, p, c);
      assert LookaheadsAt(s, p);
    }
  }

  /** On a password without line breaks the pattern asks only for one
      character of each class, wherever they stand. */
  lemma SingleLinePassword(s: string)
    requires forall k :: 0 <= k < |s| ==> !IsLineTerminator(s[k])
    ensures PasswordPattern(s) <==>
      (exists a :: 0 <= a < |s| && IsLower(s[a])) && (exists b :: 0 <= b < |s| && IsUpper(s[b])) && (exists c :: 0 <= c < |s| && IsDigit(s[c]))
  {
    PasswordPatternIffOneLine(s);
    if (exists a :: 0 <= a < |s| && IsLower(s[a])) && (exists b :: 0 <= b < |s| && IsUpper(s[b])) && (exists c :: 0 <= c < |s| && IsDigit(s[c])) {
      var a :| 0 <= a < |s| && IsLower(s[a]);
      var b :| 0 <= b < |s| && IsUpper(s[b]);
      var c :| 0 <= c < |s| && IsDigit(s[c]);
      assert WitnessesOnOneLine(s, a, b, c);
    }
  }

  datatype SendOtpRequest = SendOtpRequest(phoneNumber: string, purpose: string)

  datatype VerifyOtpRequest = VerifyOtpRequest(phoneNumber: string, otp: string, purpose: string)

  /** The login-verification request declares no rule of its own. */
  type VerifyLoginRequest = VerifyOtpRequest

  datatype RegisterRequest = RegisterRequest(
    firstName: string, lastName: string, email: string, phoneNumber: string, password: string)

  datatype LoginRequest = LoginRequest(phoneNumber: string, password: string)

  /** The validators' messages. */
  const FirstNameRequired: string := "First name is required"
  const FirstNameChars: string := "First name can only contain letters, spaces, hyphens, and apostrophes"
  const LastNameRequired: string := "Last name is required"
  const LastNameChars: string := "Last name can only contain letters, spaces, hyphens, and apostrophes"
  const EmailInvalid: string := "Please provide a valid email"
  const EmailRequired: string := "Email is required"
  const PhoneInvalid: string := "Please provide a valid phone number"
  const PhoneRequired: string := "Phone number is required"
  const PasswordTooShort: string := "Password must be at least 6 characters long"
  const PasswordTooWeak: string := "Password must contain at least one uppercase letter, one lowercase letter, and one number"
  const PasswordRequired: string := "Password is required"
  const PurposeInvalid: string := "Invalid OTP purpose"
  const PurposeRequired: string := "OTP purpose is required"
  const OtpNotSixDigits: string := "OTP must be a 6-digit number"
  const OtpRequired: string := "OTP is required"

  /** The message of a rule when it is broken, nothing otherwise. */
  function Rule(holds: bool, message: string): set<string>
  {
    if holds then {} else {message}
  }

  function PhoneMessages(phone: string, isPhone: string -> bool): set<string>
  {
    Rule(isPhone(phone), PhoneInvalid) + Rule(phone != "", PhoneRequired)
  }

  function PurposeMessages(purpose: string): set<string>
  {
    Rule(ParsePurpose(purpose).Some?, PurposeInvalid) + Rule(purpose != "", PurposeRequired)
  }

  function SendOtpMessages(d: SendOtpRequest, isPhone: string -> bool): (r: set<string>)
    ensures r == {} <==> isPhone(d.phoneNumber) && d.phoneNumber != "" && ParsePurpose(d.purpose).Some?
  {
    PhoneMessages(d.phoneNumber, isPhone) + PurposeMessages(d.purpose)
  }

  function VerifyOtpMessages(d: VerifyOtpRequest, isPhone: string -> bool): (r: set<string>)
    ensures r == {} <==> isPhone(d.phoneNumber) && d.phoneNumber != "" && IsOtpCode(d.otp) && ParsePurpose(d.purpose).Some?
  {
    PhoneMessages(d.phoneNumber, isPhone)
    + Rule(IsOtpCode(d.otp), OtpNotSixDigits) + Rule(d.otp != "", OtpRequired)
    + PurposeMessages(d.purpose)
  }

  function RegisterMessages(d: RegisterRequest, isEmail: string -> bool, isPhone: string -> bool): (r: set<string>)
    ensures r == {} <==>
      && IsName(d.firstName) && IsName(d.lastName)
      && isEmail(d.email) && d.email != ""
      && isPhone(d.phoneNumber) && d.phoneNumber != ""
      && ValidatorLength(d.password) >= 6 && PasswordPattern(d.password)
  {
    Rule(d.firstName != "", FirstNameRequired)
    + Rule(IsName(d.firstName), FirstNameChars)
    + Rule(d.lastName != "", LastNameRequired)
    + Rule(IsName(d.lastName), LastNameChars)
    + Rule(isEmail(d.email), EmailInvalid) + Rule(d.email != "", EmailRequired)
    + PhoneMessages(d.phoneNumber, isPhone)
    + Rule(ValidatorLength(d.password) >= 6, PasswordTooShort)
    + Rule(PasswordPattern(d.password), PasswordTooWeak)
    + Rule(d.password != "", PasswordRequired)
  }

  function LoginMessages(d: LoginRequest, isPhone: string -> bool): (r: set<string>)
    ensures r == {} <==> isPhone(d.phoneNumber) && d.phoneNumber != "" && d.password != ""
  {
    PhoneMessages(d.phoneNumber, isPhone) + Rule(d.password != "", PasswordRequired)
  }

  /** A request that passes validation is answered; one that does not is a
      bad request carrying every broken rule's message. */
  function Validated<T>(request: T, messages: set<string>): (r: Result<T>)
    ensures r.Ok? <==> messages == {}
    ensures r.Ok? ==> r.value == request
    ensures r.Err? ==> r.error.BadRequest?
  {
    if messages == {} then Ok(request) else Err(BadRequest("Validation failed"))
  }

  /** A registration password of six or more letters and digits on one line
      passes exactly when it mixes cases and has a digit. */
  lemma RegisterPasswordRule(d: RegisterRequest, isEmail: string -> bool, isPhone: string -> bool)
    requires IsName(d.firstName) && IsName(d.lastName)
    requires isEmail(d.email) && d.email != "" && isPhone(d.phoneNumber) && d.phoneNumber != ""
    requires |d.password| >= 6 && forall k :: 0 <= k < |d.password| ==> IsLetter(d.password[k]) || IsDigit(d.password[k])
    ensures RegisterMessages(d, isEmail, isPhone) == {} <==>
      (exists a :: 0 <= a < |d.password| && IsLower(d.password[a]))
      && (exists b :: 0 <= b < |d.password| && IsUpper(d.password[b]))
      && (exists c :: 0 <= c < |d.password| && IsDigit(d.password[c]))
  {
    var s := d.password;
    assert forall k :: 0 <= k < |s| ==> !IsVariationSelector(s[k]) && !IsLineTerminator(s[k]);
    assert ValidatorLength(s) >= 6;
    SingleLinePassword(s);
  }
}

=== FILE: byte_ranges.dfy ===
/** The two byte-range readers of the video service and the response
    headers built from them (after sections 14.1.2, 14.4 and 15.3.7 of
    RFC 9110, which the code follows only loosely).

    - `ParseRange` (used by the stream endpoint) reads EVERY digit of the
      header as one decimal number and serves at most one chunk from there.
    - `WatchRange` (used by the watch endpoint) drops the first `bytes=`,
      splits on `-` and reads both halves with `parseInt`. */
module ByteRanges {
  import opened Outcomes
  import opened Text
  import Seqs

  /** `10 ** 6`: the most bytes past `start` one stream response reaches. */
  const ChunkLimit: nat := 1000000

  datatype Header = Header(name: string, value: string)

  /** The value of the first header named `name`, if there is one. */
  function HeaderValue(headers: seq<Header>, name: string): (r: Option<string>)
    ensures r.Some? <==> exists k :: 0 <= k < |headers| && headers[k].name == name
  {
    match Seqs.FindIndex(headers, (h: Header) => h.name == name)
    case None => None
    case Some(k) => Some(headers[k].value)
  }

  /** The header at `k` is the first of its name. */
  lemma HeaderValueAt(headers: seq<Header>, k: nat)
    requires k < |headers|
    requires forall j :: 0 <= j < k ==> headers[j].name != headers[k].name
    ensures HeaderValue(headers, headers[k].name) == Some(headers[k].value)
  {
    var name := headers[k].name;
    Seqs.FindIndexIs(headers, (h: Header) => h.name == name, k);
  }

  /** The byte window the stream endpoint serves. */
  datatype Chunk = Chunk(start: nat, end: int, chunkSize: int)

  function Min(a: int, b: int): int { if a <= b then a else b }

  /** Every digit of the header, in order: `range.replace(/\D/g, '')`. */
  function RangeDigits(range: string): (ds: string)
    ensures AllDigits(ds)
  {
    var ds := Seqs.Filter(range, IsDigit);
    assert forall i :: 0 <= i < |ds| ==> ds[i] in ds;
    ds
  }

  /** `parseRange`: the start is the number all the header's digits spell
      together; the window ends one chunk later or at the last byte. A start
      at or past the end of the file is not rejected: the window is then
      empty or negative. */
  function ParseRange(range: string, fileSize: nat): (c: Chunk)
    ensures c.start == DecimalValue(RangeDigits(range))
    ensures c.end <= c.start + ChunkLimit && c.end <= fileSize - 1
    ensures c.end == c.start + ChunkLimit || c.end == fileSize - 1
    ensures c.chunkSize == c.end - c.start + 1
    ensures c.start < fileSize ==> c.start <= c.end < fileSize && 1 <= c.chunkSize <= ChunkLimit + 1
    ensures c.start >= fileSize ==> c.end < c.start && c.chunkSize <= 0
    ensures c.end == fileSize - 1 || c.chunkSize == ChunkLimit + 1
  {
    var start := DecimalValue(RangeDigits(range));
    var end := Min(start + ChunkLimit, fileSize - 1);
    Chunk(start, end, end - start + 1)
  }

  /** The headers `streamVideo` sends with its chunk. */
  function StreamHeaders(c: Chunk, fileSize: nat): (hs: seq<Header>)
    ensures HeaderValue(hs, "Content-Range") == Some(ContentRange(IntToString(c.start), IntToString(c.end), fileSize))
    ensures HeaderValue(hs, "Content-Length") == Some(IntToString(c.chunkSize))
    ensures HeaderValue(hs, "Accept-Ranges") == Some("bytes")
  {
    var hs := [ Header("Content-Range", ContentRange(IntToString(c.start), IntToString(c.end), fileSize)),
                Header("Accept-Ranges", "bytes"),
                Header("Content-Length", IntToString(c.chunkSize)),
                Header("Content-Type", "video/mp4") ];
    HeaderValueAt(hs, 0);
    HeaderValueAt(hs, 1);
    HeaderValueAt(hs, 2);
    hs
  }

  function ContentRange(start: string, end: string, fileSize: nat): string
  {
    "bytes " + start + "-" + end + "/" + NatToString(fileSize)
  }

  lemma RangeDigitsOfDigits(ds: string)
    requires AllDigits(ds)
    ensures RangeDigits(ds) == ds
  {
    Seqs.FilterAll(ds, IsDigit);
  }

  lemma RangeDigitsConcat(x: string, y: string)
    ensures RangeDigits(x + y) == RangeDigits(x) + RangeDigits(y)
  {
    Seqs.FilterConcat(x, y, IsDigit);
  }

  lemma DigitFreeLiterals()
    ensures RangeDigits("bytes=") == [] && RangeDigits("-") == []
  {
    Seqs.FilterNone("bytes=", IsDigit);
    Seqs.FilterNone("-", IsDigit);
  }

  /** The digits of `bytes=A-B` are those of A followed by those of B. */
  lemma RangeDigitsOfHeader(sa: string, sb: string)
    requires AllDigits(sa) && AllDigits(sb)
    ensures RangeDigits("bytes=" + sa + "-" + sb) == sa + sb
  {
    assert "bytes=" + sa + "-" + sb == "bytes=" + (sa + ("-" + sb));
    RangeDigitsConcat("bytes=", sa + ("-" + sb));
    RangeDigitsConcat(sa, "-" + sb);
    RangeDigitsConcat("-", sb);
    DigitFreeLiterals();
    RangeDigitsOfDigits(sa);
    RangeDigitsOfDigits(sb);
  }

  /** For `bytes=A-B` the start is A and B written side by side, not A. */
  lemma ParseRangeJoinsDigits(a: nat, b: nat, fileSize: nat)
    ensures ParseRange("bytes=" + NatToString(a) + "-" + NatToString(b), fileSize).start
            == a * Pow10(|NatToString(b)|) + b
  {
    var sa, sb := NatToString(a), NatToString(b);
    RangeDigitsOfHeader(sa, sb);
    DecimalValueConcat(sa, sb);
    DecimalOfNatToString(a);
    DecimalOfNatToString(b);
  }

  /** For an open range `bytes=A-` the start is A. */
  lemma ParseRangeOpenEnded(a: nat, fileSize: nat)
    ensures ParseRange("bytes=" + NatToString(a) + "-", fileSize).start == a
  {
    OpenEndedDigits(a);
  }

  /** The digits of `bytes=a-` spell `a`. */
  lemma OpenEndedDigits(a: nat)
    ensures DecimalValue(RangeDigits("bytes=" + NatToString(a) + "-")) == a
  {
    var sa := NatToString(a);
    RangeDigitsOfHeader(sa, "");
    assert "bytes=" + sa + "-" + "" == "bytes=" + sa + "-";
    assert sa + "" == sa;
    DecimalOfNatToString(a);
  }

  /** `bytes=0-99` on a 1000-byte file starts at byte 99 and runs to the end. */
  lemma ParseRangeExample()
    ensures ParseRange("bytes=0-99", 1000) == Chunk(99, 999, 901)
  {
    assert NatToString(0) == "0";
    assert NatToString(99) == "99";
    assert "bytes=" + "0" + "-" + "99" == "bytes=0-99";
    ParseRangeJoinsDigits(0, 99, 1000);
  }

  /** The watch endpoint's window; `None` stands for JavaScript's NaN. */
  datatype WatchWindow = WatchWindow(start: Option<int>, end: Option<int>, chunkSize: Option<int>)

  /** The watch endpoint's range reading: a missing or empty second half
      means "to the last byte"; the size is `end - start + 1` unless either
      side is NaN. */
  function WatchRange(range: string, fileSize: nat): (w: WatchWindow)
    ensures w.start.Some? ==> w.start.value >= 0
    ensures w.chunkSize.Some? <==> w.start.Some? && w.end.Some?
    ensures w.chunkSize.Some? ==> w.chunkSize.value == w.end.value - w.start.value + 1
  {
    var parts := Split(RemoveFirst(range, "bytes="), '-');
    var start := ParseInt(parts[0]);
    NoMinusParsesNonNegative(parts[0]);
    var end := if |parts| > 1 && parts[1] != "" then ParseInt(parts[1]) else Some(fileSize - 1);
    var size := if start.Some? && end.Some? then Some(end.value - start.value + 1) else None;
    WatchWindow(start, end, size)
  }

  /** A field without `-` never parses to a negative number. */
  lemma NoMinusParsesNonNegative(s: string)
    requires '-' !in s
    ensures ParseInt(s).Some? ==> ParseInt(s).value >= 0
  {
    var t := TrimStart(s);
    if |t| > 0 {
      assert t[0] == s[|s| - |t|];
    }
  }

  lemma SplitNoSeparator(s: string, sep: char)
    requires sep !in s
    ensures Split(s, sep) == [s]
  {
    forall j | 0 <= j < |s| ensures s[j] != sep {
      assert s[j] in s;
    }
    Seqs.FindIndexNone(s, (x: char) => x == sep);
  }

  lemma SplitDigitsAround(sa: string, rest: string)
    requires AllDigits(sa)
    ensures Split(sa + "-" + rest, '-') == [sa] + Split(rest, '-')
  {
    var s := sa + "-" + rest;
    Seqs.FindIndexIs(s, (x: char) => x == '-', |sa|);
    assert s[..|sa|] == sa;
    assert s[|sa| + 1..] == rest;
  }

  lemma RemoveBytesPrefix(rest: string)
    ensures RemoveFirst("bytes=" + rest, "bytes=") == rest
  {
    var s := "bytes=" + rest;
    assert StartsWith(s, "bytes=");
    assert s[6..] == rest;
  }

  lemma DigitsHaveNoMinus(s: string)
    requires AllDigits(s)
    ensures '-' !in s
  {
  }

  /** The fields the watch endpoint reads from `bytes=A-B`. */
  lemma WatchFields(sa: string, rest: string)
    requires AllDigits(sa) && '-' !in rest
    ensures Split(RemoveFirst("bytes=" + sa + "-" + rest, "bytes="), '-') == [sa, rest]
  {
    var fields := sa + "-" + rest;
    assert "bytes=" + sa + "-" + rest == "bytes=" + fields;
    RemoveBytesPrefix(fields);
    SplitAroundMinus(sa, rest);
  }

  /** Digits, a minus sign and a field without one split into two fields. */
  lemma SplitAroundMinus(sa: string, rest: string)
    requires AllDigits(sa) && '-' !in rest
    ensures Split(sa + "-" + rest, '-') == [sa, rest]
  {
    SplitDigitsAround(sa, rest);
    SplitNoSeparator(rest, '-');
  }

  /** The window read from a header whose fields are `p0` and `p1`. */
  lemma WatchRangeOfFields(range: string, fileSize: nat, p0: string, p1: string)
    requires Split(RemoveFirst(range, "bytes="), '-') == [p0, p1]
    ensures var end := if p1 != "" then ParseInt(p1) else Some(fileSize - 1);
            WatchRange(range, fileSize).start == ParseInt(p0)
            && WatchRange(range, fileSize).end == end
  {
  }

  /** A header `bytes=A-B` with digit fields is read field by field. */
  lemma WatchRangeOfDigits(sa: string, sb: string, fileSize: nat)
    requires AllDigits(sa) && AllDigits(sb) && |sa| > 0
    ensures var w := WatchRange("bytes=" + sa + "-" + sb, fileSize);
            && w.start == Some(DecimalValue(sa))
            && w.end == (if sb == "" then Some(fileSize - 1) else Some(DecimalValue(sb)))
  {
    DigitsHaveNoMinus(sb);
    WatchFields(sa, sb);
    WatchRangeOfFields("bytes=" + sa + "-" + sb, fileSize, sa, sb);
  }

  /** `bytes=A-B` is read as exactly A through B, which is B - A + 1 bytes. */
  lemma WatchRangeClosed(a: nat, b: nat, fileSize: nat)
    ensures var w := WatchRange("bytes=" + NatToString(a) + "-" + NatToString(b), fileSize);
            w.start == Some(a as int) && w.end == Some(b as int) && w.chunkSize.Some? && w.chunkSize.value == b - a + 1
  {
    DecimalOfNatToString(a);
    DecimalOfNatToString(b);
    WatchRangeOfDigits(NatToString(a), NatToString(b), fileSize);
  }

  /** `bytes=A-` runs from A to the last byte of the file. */
  lemma WatchRangeOpen(a: nat, fileSize: nat)
    ensures var w := WatchRange("bytes=" + NatToString(a) + "-", fileSize);
            w.start == Some(a as int) && w.end == Some(fileSize - 1) && w.chunkSize.Some? && w.chunkSize.value == fileSize - a
  {
    DecimalOfNatToString(a);
    WatchRangeOfOpenDigits(NatToString(a), fileSize);
  }

  /** A header `bytes=A-` with a digit field runs from A to the last byte. */
  lemma WatchRangeOfOpenDigits(sa: string, fileSize: nat)
    requires AllDigits(sa) && |sa| > 0
    ensures var w := WatchRange("bytes=" + sa + "-", fileSize);
            w.start == Some(DecimalValue(sa)) && w.end == Some(fileSize - 1)
  {
    assert "bytes=" + sa + "-" + "" == "bytes=" + sa + "-";
    WatchRangeOfDigits(sa, "", fileSize);
  }

  /** JavaScript's rendering of a number that may be NaN. */
  function ShowNumber(n: Option<int>): string
  {
    match n
    case None => "NaN"
    case Some(v) => IntToString(v)
  }

  /** Headers of a ranged watch response. */
  function WatchRangeHeaders(w: WatchWindow, fileSize: nat): (hs: seq<Header>)
    ensures HeaderValue(hs, "Content-Range") == Some(ContentRange(ShowNumber(w.start), ShowNumber(w.end), fileSize))
    ensures HeaderValue(hs, "Content-Length") == Some(ShowNumber(w.chunkSize))
  {
    var hs := [ Header("Content-Range", ContentRange(ShowNumber(w.start), ShowNumber(w.end), fileSize)),
                Header("Accept-Ranges", "bytes"),
                Header("Content-Length", ShowNumber(w.chunkSize)),
                Header("Content-Type", "video/mp4") ];
    HeaderValueAt(hs, 0);
    HeaderValueAt(hs, 2);
    hs
  }

  /** Headers of an unranged watch response: the whole file, no Content-Range. */
  function WholeFileHeaders(fileSize: nat): (hs: seq<Header>)
    ensures HeaderValue(hs, "Content-Length") == Some(NatToString(fileSize))
    ensures HeaderValue(hs, "Content-Range").None?
  {
    var hs := [ Header("Content-Length", NatToString(fileSize)),
                Header("Content-Type", "video/mp4") ];
    HeaderValueAt(hs, 0);
    hs
  }
}

=== FILE: channels.dfy ===
/** Channels: a channel is a user seen through their public videos. The
    service answers a channel's card and its video list, edits the name and
    avatar, and toggles subscriptions. */
module Channels {
  import opened Outcomes
  import opened Text
  import opened Schema
  import Seqs
  import Paging
  import Videos
  import Sorting

  /** What a channel page shows: published and public. */
  predicate Listed(v: Video)
  {
    v.status == PUBLISHED && v.visibility == PUBLIC
  }

  /** Some user with the video's author id has `username`: the relation
      filter `author: { username }`. */
  predicate AuthorNamed(users: seq<User>, authorId: Id, username: string)
  {
    exists i :: 0 <= i < |users| && users[i].id == authorId && users[i].username == username
  }

  /** The videos counted towards a channel's total views. */
  function ListedBy(users: seq<User>, username: string): Video -> bool
  {
    (v: Video) => Listed(v) && AuthorNamed(users, v.authorId, username)
  }

  function ViewsOf(v: Video): int { v.viewsCount }

  /** Total views of the channel named `username`. */
  function ChannelViews(db: Db, username: string): int
  {
    Seqs.Sum(Seqs.Filter(db.videos, ListedBy(db.users, username)), ViewsOf)
  }

  /** The subscriptions whose channel is `channelId`. */
  function Subscribers(subs: set<Subscription>, channelId: Id): set<Subscription>
  {
    set s | s in subs && s.channelId == channelId
  }

  function AuthoredBy(channelId: Id): Video -> bool
  {
    (v: Video) => v.authorId == channelId
  }

  /** A channel's card. */
  datatype ChannelView = ChannelView(
    id: Id,
    username: string,
    channelName: string,
    channelDescription: string,
    avatar: Option<string>,
    subscribersCount: nat,
    totalViews: int,
    videosCount: nat,
    joinedAt: int,
    isVerified: bool,
    isSubscribed: bool)

  /** `getChannelByUsername`. The total counts only published public videos,
      while `videosCount` counts every video of the author, whatever its
      status; the subscription flag needs a caller. */
  function GetChannelByUsername(db: Db, username: string, currentUserId: Option<Id>): (r: Result<ChannelView>)
    ensures FindUserByUsername(db, username).None? <==> r == Err(NotFound("Channel not found"))
    ensures r.Err? ==> FindUserByUsername(db, username).None?
    ensures r.Ok? ==>
      var u := db.users[FindUserByUsername(db, username).value];
      var view := r.value;
      && view.id == u.id && view.username == username
      && view.totalViews == ChannelViews(db, username)
      && view.subscribersCount == |Subscribers(db.subscriptions, u.id)|
      && view.videosCount == Seqs.Count(db.videos, AuthoredBy(u.id))
      && (view.isSubscribed <==> Truthy(currentUserId) && Subscription(currentUserId.value, u.id) in db.subscriptions)
      && (view.avatar.Some? <==> Truthy(u.avatarUrl))
      && (view.avatar.Some? ==> view.avatar == u.avatarUrl)
      && view.channelName == u.firstName + " " + u.lastName
      && view.joinedAt == u.createdAt
      && view.isVerified == u.isEmailVerified
      && view.channelDescription == ""
  {
    match FindUserByUsername(db, username)
    case None => Err(NotFound("Channel not found"))
    case Some(i) =>
      var u := db.users[i];
      var subscribed := Truthy(currentUserId) && Subscription(currentUserId.value, u.id) in db.subscriptions;
      Ok(ChannelView(
        u.id, u.username, u.firstName + " " + u.lastName, "",
        if Truthy(u.avatarUrl) then u.avatarUrl else None,
        |Subscribers(db.subscriptions, u.id)|,
        ChannelViews(db, username),
        Seqs.Count(db.videos, AuthoredBy(u.id)),
        u.createdAt, u.isEmailVerified, subscribed))
  }

  /** A video appended to the table adds its views to the channel's total
      exactly when it is published, public and by that channel. */
  lemma ChannelViewsAppend(db: Db, v: Video, username: string)
    ensures ChannelViews(db.(videos := db.videos + [v]), username)
      == ChannelViews(db, username) + (if ListedBy(db.users, username)(v) then v.viewsCount else 0)
  {
    var p := ListedBy(db.users, username);
    Seqs.FilterConcat(db.videos, [v], p);
    assert Seqs.Filter([v], p) == if p(v) then [v] else [] by {
      assert [v][1..] == [];
    }
    if p(v) {
      Seqs.SumAppend(Seqs.Filter(db.videos, p), v, ViewsOf);
    } else {
      assert Seqs.Filter(db.videos + [v], p) == Seqs.Filter(db.videos, p);
    }
  }

  /** An upload does not move any channel's total: the new row is still
      processing. */
  lemma UploadKeepsChannelViews(db: Db, dto: Videos.CreateVideo, userId: Id, newId: Id, now: int, username: string)
    requires Videos.UploadVideo(db, dto, userId, newId, now, true).Ok?
    ensures ChannelViews(Videos.UploadVideo(db, dto, userId, newId, now, true).value.1, username) == ChannelViews(db, username)
  {
    var db' := Videos.UploadVideo(db, dto, userId, newId, now, true).value.1;
    var v := db'.videos[|db.videos|];
    assert db'.videos == db.videos + [v];
    assert db' == db.(videos := db.videos + [v]);
    ChannelViewsAppend(db, v, username);
  }

  /** Every subscription names two existing users. */
  predicate SubscriptionsReferUsers(db: Db)
  {
    forall s :: s in db.subscriptions ==> FindUser(db, s.subscriberId).Some? && FindUser(db, s.channelId).Some?
  }

  /** `toggleSubscribe`: answers the new state. Subscribing to oneself is
      refused; a new subscription must name two existing users. */
  function ToggleSubscribe(db: Db, channelId: Id, subscriberId: Id): (r: Result<(bool, Db)>)
    ensures channelId == subscriberId ==> r == Err(BadRequest("Cannot subscribe to your own channel"))
    ensures r.Ok? ==>
      var (on, db') := r.value;
      var pair := Subscription(subscriberId, channelId);
      && db' == db.(subscriptions := db'.subscriptions)
      && (on <==> pair in db'.subscriptions)
      && (on <==> pair !in db.subscriptions)
      && db'.subscriptions - {pair} == db.subscriptions - {pair}
    ensures r.Err? && channelId != subscriberId ==>
      && Subscription(subscriberId, channelId) !in db.subscriptions
      && (FindUser(db, channelId).None? || FindUser(db, subscriberId).None?)
    ensures channelId != subscriberId && FindUser(db, channelId).Some? && FindUser(db, subscriberId).Some? ==> r.Ok?
  {
    var pair := Subscription(subscriberId, channelId);
    if channelId == subscriberId then Err(BadRequest("Cannot subscribe to your own channel"))
    else if pair in db.subscriptions then Ok((false, db.(subscriptions := db.subscriptions - {pair})))
    else if FindUser(db, channelId).None? || FindUser(db, subscriberId).None? then
      Err(Internal(MissingRelation))
    else Ok((true, db.(subscriptions := db.subscriptions + {pair})))
  }

  /** Toggling keeps every subscription pointing at existing users. */
  lemma ToggleSubscribeKeepsReferences(db: Db, channelId: Id, subscriberId: Id)
    requires SubscriptionsReferUsers(db)
    requires ToggleSubscribe(db, channelId, subscriberId).Ok?
    ensures SubscriptionsReferUsers(ToggleSubscribe(db, channelId, subscriberId).value.1)
  {
  }

  /** Toggling twice restores the store. */
  lemma ToggleSubscribeTwice(db: Db, channelId: Id, subscriberId: Id)
    requires SubscriptionsReferUsers(db)
    requires ToggleSubscribe(db, channelId, subscriberId).Ok?
    ensures var db1 := ToggleSubscribe(db, channelId, subscriberId).value.1;
      && ToggleSubscribe(db1, channelId, subscriberId).Ok?
      && ToggleSubscribe(db1, channelId, subscriberId).value.1 == db
  {
    var pair := Subscription(subscriberId, channelId);
    var db1 := ToggleSubscribe(db, channelId, subscriberId).value.1;
    if pair in db.subscriptions {
      assert db1.subscriptions + {pair} == db.subscriptions;
    } else {
      assert db1.subscriptions - {pair} == db.subscriptions;
    }
  }

  /** After a toggle, the channel's card shows the new state to the
      subscriber and its subscriber count moved by one. */
  lemma ToggleShowsOnChannel(db: Db, channelId: Id, subscriberId: Id, username: string)
    requires subscriberId != ""
    requires FindUserByUsername(db, username).Some? && db.users[FindUserByUsername(db, username).value].id == channelId
    requires ToggleSubscribe(db, channelId, subscriberId).Ok?
    ensures var (on, db') := ToggleSubscribe(db, channelId, subscriberId).value;
      var before := GetChannelByUsername(db, username, Some(subscriberId)).value;
      var after := GetChannelByUsername(db', username, Some(subscriberId)).value;
      && after.isSubscribed == on
      && after.subscribersCount == if on then before.subscribersCount + 1 else before.subscribersCount - 1
  {
    var (on, db') := ToggleSubscribe(db, channelId, subscriberId).value;
    SubscribersMoveByOne(db.subscriptions, db'.subscriptions, Subscription(subscriberId, channelId));
  }

  /** Adding or removing one subscription to a channel moves that channel's
      subscriber count by one. */
  lemma SubscribersMoveByOne(subs: set<Subscription>, subs': set<Subscription>, pair: Subscription)
    requires subs' - {pair} == subs - {pair}
    requires pair in subs' <==> pair !in subs
    ensures pair in subs' ==> |Subscribers(subs', pair.channelId)| == |Subscribers(subs, pair.channelId)| + 1
    ensures pair in subs ==> |Subscribers(subs', pair.channelId)| == |Subscribers(subs, pair.channelId)| - 1
  {
    var was := Subscribers(subs, pair.channelId);
    forall x | x != pair ensures x in subs' <==> x in subs {
      assert x in subs' <==> x in subs' - {pair};
      assert x in subs <==> x in subs - {pair};
    }
    if pair in subs' {
      assert Subscribers(subs', pair.channelId) == was + {pair};
    } else {
      assert Subscribers(subs', pair.channelId) == was - {pair};
    }
  }

  /** The first name is what precedes the first space, the last name all
      that follows it: `channelName?.split(' ')`, head and tail re-joined. */
  function NameParts(channelName: Option<string>): (r: (string, string))
    ensures channelName.None? ==> r == ("", "")
    ensures ' ' !in r.0
    ensures channelName.Some? && ' ' !in channelName.value ==> r == (channelName.value, "")
    ensures channelName.Some? && ' ' in channelName.value ==> r.0 + " " + r.1 == channelName.value
  {
    match channelName
    case None => ("", "")
    case Some(s) =>
      var parts := Split(s, ' ');
      SplitHead(s);
      (parts[0], Join(parts[1..], " "))
  }

  /** The head and tail of a split on one character. */
  lemma SplitHead(s: string)
    ensures ' ' !in s ==> Split(s, ' ') == [s]
    ensures ' ' in s ==> Split(s, ' ')[0] + " " + Join(Split(s, ' ')[1..], " ") == s
  {
    match IndexOfChar(s, ' ')
    case None =>
      assert forall j :: 0 <= j < |s| ==> s[j] != ' ';
    case Some(i) =>
      assert s[i] == ' ';
      var rest := Split(s[i + 1..], ' ');
      assert Split(s, ' ') == [s[..i]] + rest;
      assert ([s[..i]] + rest)[1..] == rest;
      JoinSplit(s[i + 1..], ' ');
      assert " " == [' '];
      assert s == s[..i] + " " + s[i + 1..];
  }

  /** What `updateChannel` may carry. */
  datatype ChannelUpdate = ChannelUpdate(channelName: Option<string>, avatar: Option<string>)

  /** `updateChannel`: both name fields are always written (emptied when no
      name is given); the avatar only when one is given. The answer is the
      caller's card as `getChannelByUsername` builds it. */
  function UpdateChannel(db: Db, userId: Id, dto: ChannelUpdate): (r: Result<(ChannelView, Db)>)
    ensures FindUser(db, userId).None? <==> r.Err?
    ensures r.Ok? ==>
      var i := FindUser(db, userId).value;
      var (view, db') := r.value;
      var u := db.users[i];
      && |db'.users| == |db.users|
      && db' == db.(users := db.users[i := db'.users[i]])
      && db'.users[i] == u.(firstName := NameParts(dto.channelName).0, lastName := NameParts(dto.channelName).1,
                            avatarUrl := db'.users[i].avatarUrl)
      && (db'.users[i].avatarUrl == if Truthy(dto.avatar) then dto.avatar else u.avatarUrl)
      && GetChannelByUsername(db', u.username, Some(userId)) == Ok(view)
  {
    match FindUser(db, userId)
    case None => Err(Internal("Record to update not found"))
    case Some(i) =>
      var (first, last) := NameParts(dto.channelName);
      var u := db.users[i];
      var u' := u.(firstName := first, lastName := last, avatarUrl := if Truthy(dto.avatar) then dto.avatar else u.avatarUrl);
      var db' := db.(users := db.users[i := u']);
      assert db'.users[i].username == u.username;
      assert FindUserByUsername(db', u.username).Some?;
      Ok((GetChannelByUsername(db', u.username, Some(userId)).value, db'))
  }

  /** Usernames are distinct. */
  predicate UniqueUsernames(users: seq<User>)
  {
    forall i, j :: 0 <= i < j < |users| ==> users[i].username != users[j].username
  }

  /** With distinct usernames, a two-word name comes back on the card as
      given. */
  lemma UpdateChannelShowsName(db: Db, userId: Id, name: string, avatar: Option<string>)
    requires UniqueUsernames(db.users) && FindUser(db, userId).Some?
    requires ' ' in name
    ensures var r := UpdateChannel(db, userId, ChannelUpdate(Some(name), avatar));
      r.Ok? && r.value.0.channelName == name
  {
    var i := FindUser(db, userId).value;
    var db' := UpdateChannel(db, userId, ChannelUpdate(Some(name), avatar)).value.1;
    var uname := db.users[i].username;
    forall j | 0 <= j < i ensures db'.users[j].username != uname {
      assert db'.users[j] == db.users[j];
    }
    Seqs.FindIndexIs(db'.users, (x: User) => x.username == uname, i);
  }

  /** The name shown for a channel: "first last" trimmed, or the username
      when that is blank. */
  function DisplayName(firstName: string, lastName: string, username: string): (r: string)
    ensures ((forall j :: 0 <= j < |firstName| ==> IsSpace(firstName[j]))
             && (forall j :: 0 <= j < |lastName| ==> IsSpace(lastName[j]))) ==> r == username
    ensures |firstName| > 0 && |lastName| > 0 && !IsSpace(firstName[0]) && !IsSpace(lastName[|lastName| - 1]) ==>
      r == firstName + " " + lastName
    ensures (exists j :: 0 <= j < |firstName + " " + lastName| && !IsSpace((firstName + " " + lastName)[j])) ==>
      r == Trim(firstName + " " + lastName)
    ensures RunBetweenBlanks(firstName + " " + lastName, |firstName + " " + lastName| - |TrimStart(firstName + " " + lastName)|,
                             Trim(firstName + " " + lastName))
  {
    var t := Trim(firstName + " " + lastName);
    TrimSlice(firstName + " " + lastName, TrimStart(firstName + " " + lastName), t);
    FullNameEdges(firstName, lastName);
    if t != "" then t else username
  }

  /** "first last" is blank when both parts are, and has no white space at
      its ends when the first starts and the last ends with a non-blank. */
  lemma FullNameEdges(firstName: string, lastName: string)
    ensures ((forall j :: 0 <= j < |firstName| ==> IsSpace(firstName[j]))
             && (forall j :: 0 <= j < |lastName| ==> IsSpace(lastName[j]))) ==>
           forall j :: 0 <= j < |firstName + " " + lastName| ==> IsSpace((firstName + " " + lastName)[j])
    ensures |firstName| > 0 && |lastName| > 0 ==>
      var full := firstName + " " + lastName;
      full[0] == firstName[0] && full[|full| - 1] == lastName[|lastName| - 1]
  {
    var full := firstName + " " + lastName;
    if (forall j :: 0 <= j < |firstName| ==> IsSpace(firstName[j]))
       && (forall j :: 0 <= j < |lastName| ==> IsSpace(lastName[j])) {
      forall j | 0 <= j < |full| ensures IsSpace(full[j]) {
        if j < |firstName| { assert full[j] == firstName[j]; }
        else if j > |firstName| { assert full[j] == lastName[j - |firstName| - 1]; }
      }
    }
  }

  function ChannelListed(channelId: Id): Video -> bool
  {
    (v: Video) => v.authorId == channelId && Listed(v)
  }

  /** One entry of a channel's video list, with its author's display name. */
  datatype ChannelVideo = ChannelVideo(video: Video, channelName: string, views: int)

  datatype ChannelVideos = ChannelVideos(videos: seq<ChannelVideo>, total: nat, page: int, limit: nat, totalPages: Option<nat>)

  /** `createdAt: 'desc'`. */
  function Newest(v: Video): int { -v.createdAt }

  /** `viewsCount: 'desc'`. */
  function MostViewed(v: Video): int { -v.viewsCount }

  /** The order `sort` asks for: `newest`, or by views for any other value. */
  function SortKey(sort: string): Video -> int
  {
    if sort == "newest" then Newest else MostViewed
  }

  /** The channel's published public videos in the requested order. */
  function ChannelRows(videos: seq<Video>, channelId: Id, sort: string): (rows: seq<Video>)
    ensures |rows| == Seqs.Count(videos, ChannelListed(channelId))
    ensures Sorting.SortedBy(rows, SortKey(sort))
    ensures forall x :: x in rows <==> x in videos && x.authorId == channelId && Listed(x)
  {
    var listed := Seqs.Filter(videos, ChannelListed(channelId));
    Seqs.FilterCount(videos, ChannelListed(channelId));
    Sorting.SortByMembers(listed, SortKey(sort));
    Sorting.SortBy(listed, SortKey(sort))
  }

  /** The list entries of a page of videos. */
  function Present(items: seq<Video>, name: string): (out: seq<ChannelVideo>)
    ensures |out| == |items|
    ensures forall k :: 0 <= k < |items| ==> out[k] == ChannelVideo(items[k], name, items[k].viewsCount)
  {
    seq(|items|, k requires 0 <= k < |items| => ChannelVideo(items[k], name, items[k].viewsCount))
  }

  /** `getChannelVideos`: the channel's published public videos in the
      requested order, one page of them. */
  function GetChannelVideos(db: Db, username: string, limit: nat, page: int, sort: string): (r: Result<ChannelVideos>)
    ensures FindUserByUsername(db, username).None? ==> r == Err(NotFound("Channel not found"))
    ensures FindUserByUsername(db, username).Some? ==> (r.Ok? <==> !(page < 1 && limit > 0))
    ensures r.Ok? ==>
      var u := db.users[FindUserByUsername(db, username).value];
      var list := r.value;
      && list.total == Seqs.Count(db.videos, ChannelListed(u.id))
      && list.totalPages == Paging.PageCount(list.total, limit)
      && list.page == page && list.limit == limit
      && (var rows := ChannelRows(db.videos, u.id, sort);
          var skip := Paging.Skip(page, limit);
          && skip >= 0 && |list.videos| == Paging.PageLength(|rows|, skip, limit)
          && (forall k :: 0 <= k < |list.videos| ==> list.videos[k].video == rows[skip + k]))
      && |list.videos| <= limit
      && (forall k :: 0 <= k < |list.videos| ==>
           && list.videos[k].video in db.videos
           && list.videos[k].video.authorId == u.id && Listed(list.videos[k].video)
           && list.videos[k].channelName == DisplayName(u.firstName, u.lastName, u.username)
           && list.videos[k].views == list.videos[k].video.viewsCount)
      && (forall a, b :: 0 <= a < b < |list.videos| ==>
           SortKey(sort)(list.videos[a].video) <= SortKey(sort)(list.videos[b].video))
  {
    match FindUserByUsername(db, username)
    case None => Err(NotFound("Channel not found"))
    case Some(i) =>
      var u := db.users[i];
      var rows := ChannelRows(db.videos, u.id, sort);
      match Paging.PageItems(rows, page, limit)
      case Err(e) => Err(e)
      case Ok(items) =>
        Paging.PageOfSorted(rows, page, limit, SortKey(sort));
        Ok(ChannelVideos(Present(items, DisplayName(u.firstName, u.lastName, u.username)),
                         |rows|, page, limit, Paging.PageCount(|rows|, limit)))
  }

  /** A page of a channel's list is non-empty exactly when its number is
      between 1 and the page count. */
  lemma ChannelVideosPageNonEmptyIff(db: Db, username: string, limit: nat, page: int, sort: string)
    requires FindUserByUsername(db, username).Some? && page >= 1 && limit >= 1
    ensures var r := GetChannelVideos(db, username, limit, page, sort);
      r.Ok? && (|r.value.videos| > 0 <==> page <= r.value.totalPages.value)
  {
    var u := db.users[FindUserByUsername(db, username).value];
    Paging.PageNonEmptyIff(ChannelRows(db.videos, u.id, sort), page, limit);
  }

  /** Every listed video of the channel is on some page: the `i`-th in the
      requested order on page `i / limit + 1`. */
  lemma ChannelListsEveryVideo(db: Db, username: string, limit: nat, sort: string, i: nat)
    requires FindUserByUsername(db, username).Some? && limit > 0
    requires i < |ChannelRows(db.videos, db.users[FindUserByUsername(db, username).value].id, sort)|
    ensures var page := i / limit + 1;
      var out := GetChannelVideos(db, username, limit, page, sort);
      && out.Ok? && i % limit < |out.value.videos|
      && out.value.videos[i % limit].video == ChannelRows(db.videos, db.users[FindUserByUsername(db, username).value].id, sort)[i]
  {
    Paging.RowOnItsPage(ChannelRows(db.videos, db.users[FindUserByUsername(db, username).value].id, sort), limit, i);
  }
}

=== FILE: comments.dfy ===
/** Comments on videos: creation, the like/dislike toggles with the
    counters they keep on the comment row, reaction removal, and pinning.

    `likeComment` and `dislikeComment` are one operation, `React`, with the
    reaction kind as a parameter: each is the other with LIKE and DISLIKE
    exchanged. */
module Comments {
  import opened Outcomes
  import opened Schema
  import Seqs

  /** The fields of a new comment. */
  datatype NewComment = NewComment(content: string, videoId: Id, parentId: Option<Id>)

  /** `create`'s answer: the row with an empty reply list. */
  datatype CommentView = CommentView(comment: Comment, replyCount: nat, replies: seq<Comment>)

  /** `parentId &&`: an absent or empty parent id means a top-level comment. */
  predicate HasParent(dto: NewComment)
  {
    dto.parentId.Some? && dto.parentId.value != ""
  }

  /** `create`: the video must exist, and so must the parent when one is
      named. The parent is not required to belong to the same video. The
      author is connected by id, so the store refuses the row when the
      caller has no user row. */
  function Create(db: Db, dto: NewComment, userId: Id, newId: Id): (r: Result<(CommentView, Db)>)
    ensures FindVideo(db, dto.videoId).None? ==> r == Err(NotFound("Video not found"))
    ensures FindVideo(db, dto.videoId).Some? && HasParent(dto) && FindComment(db, dto.parentId.value).None? ==>
      r == Err(NotFound("Parent comment not found"))
    ensures (&& FindVideo(db, dto.videoId).Some?
             && (HasParent(dto) ==> FindComment(db, dto.parentId.value).Some?)
             && FindUser(db, userId).None?) ==> r == Err(Internal(MissingRelation))
    ensures r.Ok? <==> && FindVideo(db, dto.videoId).Some?
                       && (HasParent(dto) ==> FindComment(db, dto.parentId.value).Some?)
                       && FindUser(db, userId).Some?
    ensures r.Ok? ==>
      var (view, db') := r.value;
      && db' == db.(comments := db.comments + [view.comment])
      && view.comment.id == newId && view.comment.authorId == userId
      && view.comment.videoId == dto.videoId && view.comment.content == dto.content
      && view.comment.likesCount == 0 && view.comment.dislikesCount == 0 && !view.comment.isPinned
      && (view.comment.parentId.Some? <==> HasParent(dto))
      && view.replyCount == 0 && view.replies == []
  {
    if FindVideo(db, dto.videoId).None? then Err(NotFound("Video not found"))
    else if HasParent(dto) && FindComment(db, dto.parentId.value).None? then Err(NotFound("Parent comment not found"))
    else if FindUser(db, userId).None? then Err(Internal(MissingRelation))
    else
      var c := Comment(newId, dto.content, dto.videoId, userId,
                       if HasParent(dto) then dto.parentId else None, 0, 0, false);
      Ok((CommentView(c, 0, []), db.(comments := db.comments + [c])))
  }

  /** A reply is accepted under a parent that belongs to another video. */
  lemma CreateAcceptsForeignParent(db: Db, dto: NewComment, userId: Id, newId: Id)
    requires FindVideo(db, dto.videoId).Some? && HasParent(dto)
    requires FindComment(db, dto.parentId.value).Some? && FindUser(db, userId).Some?
    requires db.comments[FindComment(db, dto.parentId.value).value].videoId != dto.videoId
    ensures Create(db, dto, userId, newId).Ok?
    ensures Create(db, dto, userId, newId).value.0.comment.parentId == dto.parentId
  {
  }

  function Opposite(kind: ReactionKind): ReactionKind
  {
    if kind == LIKE then DISLIKE else LIKE
  }

  /** Reactions of `kind` on comment `commentId`, by anyone. */
  function OnComment(commentId: Id, kind: ReactionKind): Reaction -> bool
  {
    (r: Reaction) => r.commentId == commentId && r.kind == kind
  }

  /** Reactions of `kind` by `userId` on `commentId`: the `findFirst` filter. */
  function Mine(userId: Id, commentId: Id, kind: ReactionKind): Reaction -> bool
  {
    (r: Reaction) => r.userId == userId && r.commentId == commentId && r.kind == kind
  }

  /** The counter of `kind` on a comment row. */
  function Counter(c: Comment, kind: ReactionKind): int
  {
    if kind == LIKE then c.likesCount else c.dislikesCount
  }

  function AddToCounter(c: Comment, kind: ReactionKind, delta: int): (c': Comment)
    ensures Counter(c', kind) == Counter(c, kind) + delta
    ensures Counter(c', Opposite(kind)) == Counter(c, Opposite(kind))
    ensures c' == c.(likesCount := c'.likesCount, dislikesCount := c'.dislikesCount)
  {
    if kind == LIKE then c.(likesCount := c.likesCount + delta) else c.(dislikesCount := c.dislikesCount + delta)
  }

  /** `likeComment` (kind LIKE) and `dislikeComment` (kind DISLIKE): a
      reaction of the same kind is withdrawn, one of the other kind is turned
      into this kind, and otherwise a new one is recorded; the comment's
      counters follow by one step each. The new reaction connects the
      caller by id, so recording one fails when the caller has no user row;
      withdrawing and converting do not touch that relation. */
  function React(db: Db, commentId: Id, userId: Id, kind: ReactionKind, newId: Id): (r: Result<(Comment, Db)>)
    ensures FindComment(db, commentId).None? <==> r == Err(NotFound("Comment not found"))
    ensures FindComment(db, commentId).Some? ==>
      (r.Ok? <==> || FindUser(db, userId).Some?
                  || Seqs.FindIndex(db.reactions, Mine(userId, commentId, kind)).Some?
                  || Seqs.FindIndex(db.reactions, Mine(userId, commentId, Opposite(kind))).Some?)
    ensures FindComment(db, commentId).Some? && FindUser(db, userId).None?
            && Seqs.FindIndex(db.reactions, Mine(userId, commentId, kind)).None?
            && Seqs.FindIndex(db.reactions, Mine(userId, commentId, Opposite(kind))).None? ==>
      r == Err(Internal(MissingRelation))
    ensures r.Ok? ==>
      var i := FindComment(db, commentId).value;
      var (c, db') := r.value;
      && db' == db.(comments := db.comments[i := c], reactions := db'.reactions)
      && c == db.comments[i].(likesCount := c.likesCount, dislikesCount := c.dislikesCount)
      && (Counter(c, kind) - Counter(db.comments[i], kind) == 1 || Counter(c, kind) - Counter(db.comments[i], kind) == -1)
      && (Counter(c, Opposite(kind)) - Counter(db.comments[i], Opposite(kind)) == 0
          || Counter(c, Opposite(kind)) - Counter(db.comments[i], Opposite(kind)) == -1)
      && (forall x: Reaction :: x.userId != userId || x.commentId != commentId ==> (x in db'.reactions <==> x in db.reactions))
    ensures r.Ok? && Seqs.FindIndex(db.reactions, Mine(userId, commentId, kind)).Some? ==>
      var old_ := db.comments[FindComment(db, commentId).value];
      var (c, db') := r.value;
      && Counter(c, kind) == Counter(old_, kind) - 1 && Counter(c, Opposite(kind)) == Counter(old_, Opposite(kind))
      && db'.reactions == Seqs.RemoveAt(db.reactions, Seqs.FindIndex(db.reactions, Mine(userId, commentId, kind)).value)
    ensures r.Ok? && Seqs.FindIndex(db.reactions, Mine(userId, commentId, kind)).None?
                  && Seqs.FindIndex(db.reactions, Mine(userId, commentId, Opposite(kind))).Some? ==>
      var old_ := db.comments[FindComment(db, commentId).value];
      var (c, db') := r.value;
      var k := Seqs.FindIndex(db.reactions, Mine(userId, commentId, Opposite(kind))).value;
      && Counter(c, kind) == Counter(old_, kind) + 1 && Counter(c, Opposite(kind)) == Counter(old_, Opposite(kind)) - 1
      && db'.reactions == db.reactions[k := db.reactions[k].(kind := kind)]
    ensures r.Ok? && Seqs.FindIndex(db.reactions, Mine(userId, commentId, kind)).None?
                  && Seqs.FindIndex(db.reactions, Mine(userId, commentId, Opposite(kind))).None? ==>
      var old_ := db.comments[FindComment(db, commentId).value];
      var (c, db') := r.value;
      && Counter(c, kind) == Counter(old_, kind) + 1 && Counter(c, Opposite(kind)) == Counter(old_, Opposite(kind))
      && db'.reactions == db.reactions + [Reaction(newId, userId, commentId, kind)]
  {
    match FindComment(db, commentId)
    case None => Err(NotFound("Comment not found"))
    case Some(i) =>
      var c := db.comments[i];
      var rs := db.reactions;
      match Seqs.FindIndex(rs, Mine(userId, commentId, kind))
      case Some(k) =>
        var rs' := Seqs.RemoveAt(rs, k);
        RemoveAtMembers(rs, k);
        var c' := AddToCounter(c, kind, -1);
        Ok((c', db.(comments := db.comments[i := c'], reactions := rs')))
      case None =>
        match Seqs.FindIndex(rs, Mine(userId, commentId, Opposite(kind)))
        case Some(k) =>
          var rs' := rs[k := rs[k].(kind := kind)];
          UpdateMembers(rs, k, rs[k].(kind := kind));
          var c' := AddToCounter(AddToCounter(c, kind, 1), Opposite(kind), -1);
          Ok((c', db.(comments := db.comments[i := c'], reactions := rs')))
        case None =>
          if FindUser(db, userId).None? then Err(Internal(MissingRelation))
          else
          var rs' := rs + [Reaction(newId, userId, commentId, kind)];
          var c' := AddToCounter(c, kind, 1);
          Ok((c', db.(comments := db.comments[i := c'], reactions := rs')))
  }

  /** Dropping the row at `k` keeps every other row. */
  lemma RemoveAtMembers(rs: seq<Reaction>, k: nat)
    requires k < |rs|
    ensures forall x :: x != rs[k] ==> (x in Seqs.RemoveAt(rs, k) <==> x in rs)
  {
    assert rs == Seqs.RemoveAt(rs, k)[..k] + [rs[k]] + Seqs.RemoveAt(rs, k)[k..];
  }

  /** Replacing the row at `k` keeps every other row. */
  lemma UpdateMembers(rs: seq<Reaction>, k: nat, y: Reaction)
    requires k < |rs|
    ensures forall x :: x != rs[k] && x != y ==> (x in rs[k := y] <==> x in rs)
  {
    assert rs == rs[..k] + [rs[k]] + rs[k + 1..];
    assert rs[k := y] == rs[..k] + [y] + rs[k + 1..];
  }

  /** Removing the first row `p` holds of leaves no such row when it was
      the only one. */
  lemma RemovedGone(rs: seq<Reaction>, k: nat, p: Reaction -> bool)
    requires k < |rs| && p(rs[k])
    ensures (forall j :: 0 <= j < |rs| && j != k ==> !p(rs[j])) ==> Seqs.FindIndex(Seqs.RemoveAt(rs, k), p).None?
  {
    var rs' := Seqs.RemoveAt(rs, k);
    if forall j :: 0 <= j < |rs| && j != k ==> !p(rs[j]) {
      forall j | 0 <= j < |rs'| ensures !p(rs'[j]) {
        if j < k { assert rs'[j] == rs[j]; } else { assert rs'[j] == rs[j + 1]; }
      }
      Seqs.FindIndexNone(rs', p);
    }
  }

  predicate UniqueCommentIds(cs: seq<Comment>)
  {
    forall i, j :: 0 <= i < j < |cs| ==> cs[i].id != cs[j].id
  }

  /** At most one reaction per user and comment. */
  predicate OneReactionPerUser(rs: seq<Reaction>)
  {
    forall i, j :: 0 <= i < j < |rs| ==> rs[i].userId != rs[j].userId || rs[i].commentId != rs[j].commentId
  }

  /** Each comment's counters are the numbers of reactions of each kind on it. */
  predicate CountersMatch(cs: seq<Comment>, rs: seq<Reaction>)
  {
    forall k :: 0 <= k < |cs| ==>
      && cs[k].likesCount == Seqs.Count(rs, OnComment(cs[k].id, LIKE))
      && cs[k].dislikesCount == Seqs.Count(rs, OnComment(cs[k].id, DISLIKE))
  }

  /** The invariant the reaction operations keep. */
  predicate ReactionsConsistent(db: Db)
  {
    UniqueCommentIds(db.comments) && OneReactionPerUser(db.reactions) && CountersMatch(db.comments, db.reactions)
  }

  /** Under the invariant, reacting toggles the user's reaction of that kind
      and leaves them none of the other kind. */
  lemma ReactToggles(db: Db, commentId: Id, userId: Id, kind: ReactionKind, newId: Id)
    requires OneReactionPerUser(db.reactions)
    requires React(db, commentId, userId, kind, newId).Ok?
    ensures var rs' := React(db, commentId, userId, kind, newId).value.1.reactions;
      && Seqs.FindIndex(rs', Mine(userId, commentId, kind)).Some?
         == Seqs.FindIndex(db.reactions, Mine(userId, commentId, kind)).None?
      && Seqs.FindIndex(rs', Mine(userId, commentId, Opposite(kind))).None?
  {
    var rs := db.reactions;
    var rs' := React(db, commentId, userId, kind, newId).value.1.reactions;
    var same, other := Mine(userId, commentId, kind), Mine(userId, commentId, Opposite(kind));
    match Seqs.FindIndex(rs, same)
    case Some(k) =>
      assert rs' == Seqs.RemoveAt(rs, k);
      forall j | 0 <= j < |rs| && j != k ensures !same(rs[j]) && !other(rs[j]) {
        SameUserPair(rs, j, k);
      }
      RemovedGone(rs, k, same);
      forall j | 0 <= j < |rs'| ensures !other(rs'[j]) {
        if j < k { assert rs'[j] == rs[j]; } else { assert rs'[j] == rs[j + 1]; }
      }
      Seqs.FindIndexNone(rs', other);
    case None =>
      match Seqs.FindIndex(rs, other)
      case Some(k) =>
        assert rs' == rs[k := rs[k].(kind := kind)];
        forall j | 0 <= j < |rs'| ensures !other(rs'[j]) {
          if j != k {
            assert rs'[j] == rs[j];
            SameUserPair(rs, j, k);
          }
        }
        Seqs.FindIndexNone(rs', other);
        assert same(rs'[k]);
      case None =>
        assert rs' == rs + [Reaction(newId, userId, commentId, kind)];
        forall j | 0 <= j < |rs'| ensures !other(rs'[j]) {
          if j < |rs| { assert rs'[j] == rs[j]; }
        }
        Seqs.FindIndexNone(rs', other);
        assert same(rs'[|rs|]);
  }

  /** Under the one-reaction rule, two rows of the same user and comment
      are the same row. */
  lemma SameUserPair(rs: seq<Reaction>, j: nat, k: nat)
    requires OneReactionPerUser(rs)
    requires j < |rs| && k < |rs| && j != k
    ensures rs[j].userId != rs[k].userId || rs[j].commentId != rs[k].commentId
  {
    if j > k {
      assert rs[k].userId != rs[j].userId || rs[k].commentId != rs[j].commentId;
    }
  }

  /** Counting reactions of another comment is blind to a change confined to
      reactions on `commentId`. */
  lemma CountElsewhere(rs: seq<Reaction>, rs': seq<Reaction>, commentId: Id, other: Id, kind: ReactionKind, k: nat)
    requires other != commentId && k < |rs|
    requires rs[k].commentId == commentId
    ensures rs' == Seqs.RemoveAt(rs, k) ==> Seqs.Count(rs', OnComment(other, kind)) == Seqs.Count(rs, OnComment(other, kind))
    ensures forall x: Reaction :: x.commentId == commentId && rs' == rs[k := x] ==>
      Seqs.Count(rs', OnComment(other, kind)) == Seqs.Count(rs, OnComment(other, kind))
  {
    Seqs.CountRemoveAt(rs, k, OnComment(other, kind));
    forall x: Reaction | x.commentId == commentId {
      Seqs.CountUpdate(rs, k, x, OnComment(other, kind));
    }
  }

  /** A comment row changed only in its counters keeps the ids unique. */
  lemma CountersOnlyKeepIds(cs: seq<Comment>, i: nat, c': Comment)
    requires UniqueCommentIds(cs) && i < |cs| && c'.id == cs[i].id
    ensures UniqueCommentIds(cs[i := c'])
  {
    var cs' := cs[i := c'];
    forall a, b | 0 <= a < b < |cs'| ensures cs'[a].id != cs'[b].id {
      assert cs'[a].id == cs[a].id && cs'[b].id == cs[b].id;
    }
  }

  /** Withdrawing the reaction at `k` on comment `i`, with the counter of
      its kind lowered by one, keeps the invariant. */
  lemma WithdrawKeepsConsistent(db: Db, i: nat, k: nat)
    requires ReactionsConsistent(db)
    requires i < |db.comments| && k < |db.reactions| && db.reactions[k].commentId == db.comments[i].id
    ensures ReactionsConsistent(db.(comments := db.comments[i := AddToCounter(db.comments[i], db.reactions[k].kind, -1)],
                                    reactions := Seqs.RemoveAt(db.reactions, k)))
  {
    var cs, rs := db.comments, db.reactions;
    var kind, commentId := rs[k].kind, cs[i].id;
    var cs', rs' := cs[i := AddToCounter(cs[i], kind, -1)], Seqs.RemoveAt(rs, k);
    CountersOnlyKeepIds(cs, i, cs'[i]);
    forall a, b | 0 <= a < b < |rs'| ensures rs'[a].userId != rs'[b].userId || rs'[a].commentId != rs'[b].commentId {
      var a0 := if a < k then a else a + 1;
      var b0 := if b < k then b else b + 1;
      assert rs'[a] == rs[a0] && rs'[b] == rs[b0] && a0 < b0;
    }
    forall q | 0 <= q < |cs'| ensures
      && cs'[q].likesCount == Seqs.Count(rs', OnComment(cs'[q].id, LIKE))
      && cs'[q].dislikesCount == Seqs.Count(rs', OnComment(cs'[q].id, DISLIKE))
    {
      Seqs.CountRemoveAt(rs, k, OnComment(cs[q].id, LIKE));
      Seqs.CountRemoveAt(rs, k, OnComment(cs[q].id, DISLIKE));
      if q != i { assert cs[q].id != commentId; }
    }
  }

  /** Turning the reaction at `k` on comment `i` into the opposite kind, with
      the counters moved by one each, keeps the invariant. */
  lemma ConvertKeepsConsistent(db: Db, i: nat, k: nat, kind: ReactionKind)
    requires ReactionsConsistent(db)
    requires i < |db.comments| && k < |db.reactions| && db.reactions[k].commentId == db.comments[i].id
    requires db.reactions[k].kind == Opposite(kind)
    ensures ReactionsConsistent(db.(comments := db.comments[i := AddToCounter(AddToCounter(db.comments[i], kind, 1), Opposite(kind), -1)],
                                    reactions := db.reactions[k := db.reactions[k].(kind := kind)]))
  {
    var cs, rs := db.comments, db.reactions;
    var commentId := cs[i].id;
    var x := rs[k].(kind := kind);
    var cs', rs' := cs[i := AddToCounter(AddToCounter(cs[i], kind, 1), Opposite(kind), -1)], rs[k := x];
    CountersOnlyKeepIds(cs, i, cs'[i]);
    forall a, b | 0 <= a < b < |rs'| ensures rs'[a].userId != rs'[b].userId || rs'[a].commentId != rs'[b].commentId {
      assert rs'[a].userId == rs[a].userId && rs'[a].commentId == rs[a].commentId;
      assert rs'[b].userId == rs[b].userId && rs'[b].commentId == rs[b].commentId;
    }
    forall q | 0 <= q < |cs'| ensures
      && cs'[q].likesCount == Seqs.Count(rs', OnComment(cs'[q].id, LIKE))
      && cs'[q].dislikesCount == Seqs.Count(rs', OnComment(cs'[q].id, DISLIKE))
    {
      Seqs.CountUpdate(rs, k, x, OnComment(cs[q].id, LIKE));
      Seqs.CountUpdate(rs, k, x, OnComment(cs[q].id, DISLIKE));
      if q != i { assert cs[q].id != commentId; }
    }
  }

  /** Recording a first reaction of a user on comment `i`, with the counter
      of its kind raised by one, keeps the invariant. */
  lemma RecordKeepsConsistent(db: Db, i: nat, x: Reaction)
    requires ReactionsConsistent(db)
    requires i < |db.comments| && x.commentId == db.comments[i].id
    requires forall j :: 0 <= j < |db.reactions| ==> db.reactions[j].userId != x.userId || db.reactions[j].commentId != x.commentId
    ensures ReactionsConsistent(db.(comments := db.comments[i := AddToCounter(db.comments[i], x.kind, 1)],
                                    reactions := db.reactions + [x]))
  {
    var cs, rs := db.comments, db.reactions;
    var cs', rs' := cs[i := AddToCounter(cs[i], x.kind, 1)], rs + [x];
    CountersOnlyKeepIds(cs, i, cs'[i]);
    forall a, b | 0 <= a < b < |rs'| ensures rs'[a].userId != rs'[b].userId || rs'[a].commentId != rs'[b].commentId {
      assert rs'[a] == rs[a];
      if b < |rs| { assert rs'[b] == rs[b]; }
    }
    forall q | 0 <= q < |cs'| ensures
      && cs'[q].likesCount == Seqs.Count(rs', OnComment(cs'[q].id, LIKE))
      && cs'[q].dislikesCount == Seqs.Count(rs', OnComment(cs'[q].id, DISLIKE))
    {
      Seqs.CountAppend(rs, x, OnComment(cs[q].id, LIKE));
      Seqs.CountAppend(rs, x, OnComment(cs[q].id, DISLIKE));
      if q != i { assert cs[q].id != x.commentId; }
    }
  }

  /** Liking or disliking keeps every counter equal to the number of
      reactions it counts, and keeps one reaction per user and comment. */
  lemma ReactKeepsCountersExact(db: Db, commentId: Id, userId: Id, kind: ReactionKind, newId: Id)
    requires ReactionsConsistent(db)
    requires React(db, commentId, userId, kind, newId).Ok?
    ensures ReactionsConsistent(React(db, commentId, userId, kind, newId).value.1)
  {
    var i := FindComment(db, commentId).value;
    var rs := db.reactions;
    var same, other := Mine(userId, commentId, kind), Mine(userId, commentId, Opposite(kind));
    match Seqs.FindIndex(rs, same)
    case Some(k) =>
      WithdrawKeepsConsistent(db, i, k);
    case None =>
      match Seqs.FindIndex(rs, other)
      case Some(k) =>
        ConvertKeepsConsistent(db, i, k, kind);
      case None =>
        var x := Reaction(newId, userId, commentId, kind);
        forall j | 0 <= j < |rs| ensures rs[j].userId != userId || rs[j].commentId != commentId {
          assert !same(rs[j]) && !other(rs[j]);
        }
        RecordKeepsConsistent(db, i, x);
  }

  /** The comment found at `i` is still found at `i` after a change of that
      row that keeps its id. */
  lemma FindCommentAfterUpdate(db: Db, db': Db, id: Id, i: nat)
    requires FindComment(db, id) == Some(i)
    requires |db'.comments| == |db.comments|
    requires db'.comments[i].id == id
    requires forall j :: 0 <= j < i ==> db'.comments[j] == db.comments[j]
    ensures FindComment(db', id) == Some(i)
  {
    Seqs.FindIndexIs(db'.comments, (c: Comment) => c.id == id, i);
  }

  /** A user with no earlier reaction on the comment who reacts twice
      restores the store: the second call withdraws what the first recorded. */
  lemma ReactTwiceRestores(db: Db, commentId: Id, userId: Id, kind: ReactionKind, newId: Id)
    requires FindComment(db, commentId).Some? && FindUser(db, userId).Some?
    requires forall j :: 0 <= j < |db.reactions| ==> db.reactions[j].userId != userId || db.reactions[j].commentId != commentId
    ensures var db1 := React(db, commentId, userId, kind, newId).value.1;
      React(db1, commentId, userId, kind, newId).Ok?
      && React(db1, commentId, userId, kind, newId).value.1 == db
  {
    var i := FindComment(db, commentId).value;
    var rs := db.reactions;
    Seqs.FindIndexNone(rs, Mine(userId, commentId, kind));
    Seqs.FindIndexNone(rs, Mine(userId, commentId, Opposite(kind)));
    var db1 := React(db, commentId, userId, kind, newId).value.1;
    assert db1.reactions == rs + [Reaction(newId, userId, commentId, kind)];
    FindCommentAfterUpdate(db, db1, commentId, i);
    Seqs.FindIndexIs(db1.reactions, Mine(userId, commentId, kind), |rs|);
    var db2 := React(db1, commentId, userId, kind, newId).value.1;
    assert db2.reactions == Seqs.RemoveAt(db1.reactions, |rs|);
    assert db2.reactions == rs;
    assert db2.comments[i] == db.comments[i];
    assert db2.comments == db.comments;
  }

  /** `removeReaction`: every reaction of the user on the comment goes, then
      both counters are recounted from what is left. */
  function RemoveReaction(db: Db, commentId: Id, userId: Id): (r: Result<(Comment, Db)>)
    ensures FindComment(db, commentId).None? <==> r == Err(NotFound("Comment not found"))
    ensures FindComment(db, commentId).Some? ==> r.Ok?
    ensures r.Ok? ==>
      var i := FindComment(db, commentId).value;
      var (c, db') := r.value;
      && db' == db.(comments := db.comments[i := c], reactions := db'.reactions)
      && (forall x :: x in db'.reactions <==> x in db.reactions && !(x.userId == userId && x.commentId == commentId))
      && c.likesCount == Seqs.Count(db'.reactions, OnComment(commentId, LIKE))
      && c.dislikesCount == Seqs.Count(db'.reactions, OnComment(commentId, DISLIKE))
      && c == db.comments[i].(likesCount := c.likesCount, dislikesCount := c.dislikesCount)
  {
    match FindComment(db, commentId)
    case None => Err(NotFound("Comment not found"))
    case Some(i) =>
      var rs' := Seqs.Filter(db.reactions, (x: Reaction) => !(x.userId == userId && x.commentId == commentId));
      var c := db.comments[i].(likesCount := Seqs.Count(rs', OnComment(commentId, LIKE)),
                               dislikesCount := Seqs.Count(rs', OnComment(commentId, DISLIKE)));
      Ok((c, db.(comments := db.comments[i := c], reactions := rs')))
  }

  /** Removing a user's reactions keeps the counters exact on every comment,
      and after it the user has no reaction left on that comment. */
  lemma RemoveReactionKeepsCountersExact(db: Db, commentId: Id, userId: Id)
    requires ReactionsConsistent(db)
    requires RemoveReaction(db, commentId, userId).Ok?
    ensures var db' := RemoveReaction(db, commentId, userId).value.1;
      && ReactionsConsistent(db')
      && Seqs.FindIndex(db'.reactions, Mine(userId, commentId, LIKE)).None?
      && Seqs.FindIndex(db'.reactions, Mine(userId, commentId, DISLIKE)).None?
  {
    var i := FindComment(db, commentId).value;
    var db' := RemoveReaction(db, commentId, userId).value.1;
    var cs, rs, rs' := db.comments, db.reactions, db'.reactions;
    var keep := (x: Reaction) => !(x.userId == userId && x.commentId == commentId);
    assert rs' == Seqs.Filter(rs, keep);
    assert UniqueCommentIds(db'.comments) by {
      forall a, b | 0 <= a < b < |db'.comments| ensures db'.comments[a].id != db'.comments[b].id {
        assert db'.comments[a].id == cs[a].id && db'.comments[b].id == cs[b].id;
      }
    }
    FilterKeepsOrder(rs, keep);
    forall q | 0 <= q < |cs| && q != i ensures
      && db'.comments[q].likesCount == Seqs.Count(rs', OnComment(db'.comments[q].id, LIKE))
      && db'.comments[q].dislikesCount == Seqs.Count(rs', OnComment(db'.comments[q].id, DISLIKE))
    {
      var other := cs[q].id;
      assert other != commentId;
      Seqs.CountFilterSubsumed(rs, keep, OnComment(other, LIKE));
      Seqs.CountFilterSubsumed(rs, keep, OnComment(other, DISLIKE));
    }
    forall j | 0 <= j < |rs'| ensures !Mine(userId, commentId, LIKE)(rs'[j]) && !Mine(userId, commentId, DISLIKE)(rs'[j]) {
      assert rs'[j] in rs';
    }
    Seqs.FindIndexNone(rs', Mine(userId, commentId, LIKE));
    Seqs.FindIndexNone(rs', Mine(userId, commentId, DISLIKE));
  }

  /** A filtered sequence keeps one reaction per user and comment. */
  lemma FilterKeepsOrder(rs: seq<Reaction>, keep: Reaction -> bool)
    requires OneReactionPerUser(rs)
    ensures OneReactionPerUser(Seqs.Filter(rs, keep))
    decreases |rs|
  {
    if |rs| > 0 {
      FilterKeepsOrder(rs[1..], keep);
      var tail := Seqs.Filter(rs[1..], keep);
      if keep(rs[0]) {
        var f := Seqs.Filter(rs, keep);
        assert f == [rs[0]] + tail;
        forall a, b | 0 <= a < b < |f| ensures f[a].userId != f[b].userId || f[a].commentId != f[b].commentId {
          if a == 0 {
            assert f[b] == tail[b - 1];
            assert tail[b - 1] in rs[1..];
          } else {
            assert f[a] == tail[a - 1] && f[b] == tail[b - 1];
          }
        }
      }
    }
  }

  /** At most one comment of each video is pinned. */
  predicate OnePinPerVideo(cs: seq<Comment>)
  {
    forall a, b :: 0 <= a < b < |cs| && cs[a].isPinned && cs[b].isPinned ==> cs[a].videoId != cs[b].videoId
  }

  /** `updateMany` clearing the pins of one video. */
  function UnpinAll(cs: seq<Comment>, videoId: Id): (cs': seq<Comment>)
    ensures |cs'| == |cs|
    ensures forall k :: 0 <= k < |cs| ==> cs'[k] == cs[k].(isPinned := cs'[k].isPinned)
    ensures forall k :: 0 <= k < |cs| && cs[k].videoId == videoId ==> !cs'[k].isPinned
    ensures forall k :: 0 <= k < |cs| && cs[k].videoId != videoId ==> cs'[k] == cs[k]
  {
    seq(|cs|, k requires 0 <= k < |cs| => if cs[k].videoId == videoId then cs[k].(isPinned := false) else cs[k])
  }

  /** `togglePin`: only the author of the comment's video may pin; pinning
      first clears every pin on that video; a pinned comment is unpinned. */
  function TogglePin(db: Db, commentId: Id, userId: Id): (r: Result<(Comment, Db)>)
    ensures FindComment(db, commentId).None? ==> r == Err(NotFound("Comment not found"))
    ensures r.Ok? ==>
      && FindComment(db, commentId).Some?
      && var c := db.comments[FindComment(db, commentId).value];
      && FindVideo(db, c.videoId).Some? && db.videos[FindVideo(db, c.videoId).value].authorId == userId
      && r.value.0 == c.(isPinned := !c.isPinned)
    ensures
      (&& FindComment(db, commentId).Some?
       && FindVideo(db, db.comments[FindComment(db, commentId).value].videoId).Some?
       && db.videos[FindVideo(db, db.comments[FindComment(db, commentId).value].videoId).value].authorId != userId)
      ==> r == Err(Forbidden("Only the video author can pin comments"))
    ensures
      (&& FindComment(db, commentId).Some?
       && FindVideo(db, db.comments[FindComment(db, commentId).value].videoId).Some?
       && db.videos[FindVideo(db, db.comments[FindComment(db, commentId).value].videoId).value].authorId == userId)
      ==> r.Ok?
    ensures r.Ok? ==> var db' := r.value.1;
      && db' == db.(comments := db'.comments) && |db'.comments| == |db.comments|
      && (forall k :: 0 <= k < |db.comments| ==> db'.comments[k] == db.comments[k].(isPinned := db'.comments[k].isPinned))
    ensures r.Ok? ==>
      var i := FindComment(db, commentId).value;
      var (c, db') := r.value;
      && db'.comments[i] == c
      && (forall k :: 0 <= k < |db.comments| && db.comments[k].videoId != c.videoId ==> db'.comments[k] == db.comments[k])
      && (c.isPinned ==> forall k :: 0 <= k < |db.comments| && k != i && db.comments[k].videoId == c.videoId ==> !db'.comments[k].isPinned)
      && (!c.isPinned ==> db'.comments == db.comments[i := c])
  {
    match FindComment(db, commentId)
    case None => Err(NotFound("Comment not found"))
    case Some(i) =>
      var c := db.comments[i];
      match FindVideo(db, c.videoId)
      case None => Err(Internal("comment without its video"))
      case Some(v) =>
        if db.videos[v].authorId != userId then Err(Forbidden("Only the video author can pin comments"))
        else if c.isPinned then
          var c' := c.(isPinned := false);
          Ok((c', db.(comments := db.comments[i := c'])))
        else
          var c' := c.(isPinned := true);
          Ok((c', db.(comments := UnpinAll(db.comments, c.videoId)[i := c'])))
  }

  /** After pinning, the pinned comment is the only pinned one on its video;
      and toggling never leaves two pins on one video. */
  lemma TogglePinKeepsOnePin(db: Db, commentId: Id, userId: Id)
    requires OnePinPerVideo(db.comments)
    requires TogglePin(db, commentId, userId).Ok?
    ensures var (c, db') := TogglePin(db, commentId, userId).value;
      && OnePinPerVideo(db'.comments)
      && (c.isPinned ==> forall k :: 0 <= k < |db'.comments| && db'.comments[k].videoId == c.videoId && db'.comments[k].isPinned ==>
            k == FindComment(db, commentId).value)
  {
    var i := FindComment(db, commentId).value;
    var (c, db') := TogglePin(db, commentId, userId).value;
    var cs, cs' := db.comments, db'.comments;
    if c.isPinned {
      forall k | 0 <= k < |cs'| && k != i && cs'[k].videoId == c.videoId ensures !cs'[k].isPinned {
        assert cs'[k] == UnpinAll(cs, c.videoId)[k];
      }
      forall a, b | 0 <= a < b < |cs'| && cs'[a].isPinned && cs'[b].isPinned ensures cs'[a].videoId != cs'[b].videoId {
        if a != i && b != i {
          assert cs'[a] == UnpinAll(cs, c.videoId)[a] && cs'[b] == UnpinAll(cs, c.videoId)[b];
        }
      }
    } else {
      forall a, b | 0 <= a < b < |cs'| && cs'[a].isPinned && cs'[b].isPinned ensures cs'[a].videoId != cs'[b].videoId {
        assert cs'[a].isPinned ==> cs[a].isPinned;
        assert cs'[b].isPinned ==> cs[b].isPinned;
      }
    }
  }
}

=== FILE: guards.dfy ===
/** The two request guards: the bearer-token check that identifies the
    caller, and the role check that follows it. Token verification is a
    parameter: it yields the token's payload, or nothing for a token that
    is malformed, forged or expired. */
module Guards {
  import opened Outcomes
  import opened Text

  /** The caller a verified token identifies. */
  datatype RequestUser = RequestUser(id: string, email: string, roles: seq<string>)

  datatype Payload = Payload(sub: string, email: string, roles: Option<seq<string>>)

  /** `getAllAndOverride('isPublic', [handler, class])`: the handler's
      marker when it has one, the class's otherwise. */
  function IsPublic(onHandler: Option<bool>, onClass: Option<bool>): (r: bool)
    ensures onHandler.Some? ==> r == onHandler.value
    ensures onHandler.None? ==> r == (onClass == Some(true))
  {
    match onHandler
    case Some(b) => b
    case None => onClass == Some(true)
  }

  const BearerPrefix: string := "Bearer "

  /** `header.split(' ')[1]`, for a header that starts with the prefix and
      so has at least two parts. */
  function BearerToken(header: string): (token: string)
    requires StartsWith(header, BearerPrefix)
    ensures ' ' !in token
  {
    SplitHasTwoParts(header, 6);
    Split(header, ' ')[1]
  }

  /** A string with a space at `i` splits into at least two parts. */
  lemma SplitHasTwoParts(s: string, i: nat)
    requires i < |s| && s[i] == ' '
    ensures |Split(s, ' ')| >= 2
  {
    match IndexOfChar(s, ' ')
    case None =>
    case Some(j) =>
  }

  /** The token of `Bearer <t>` is `t` when `t` has no space. */
  lemma BearerTokenOf(t: string)
    requires ' ' !in t
    ensures StartsWith(BearerPrefix + t, BearerPrefix)
    ensures BearerToken(BearerPrefix + t) == t
  {
    var h := BearerPrefix + t;
    assert h[..7] == BearerPrefix;
    assert h[6] == ' ' && forall j :: 0 <= j < 6 ==> h[j] != ' ';
    assert IndexOfChar(h, ' ') == Some(6);
    assert h[7..] == t;
    assert IndexOfChar(t, ' ') == None;
    assert Split(h, ' ') == [h[..6]] + [t];
  }

  /** `AuthGuard.canActivate`. A public route passes without a caller; any
      other needs a header that starts with `Bearer ` and a token that
      verifies. The caller's roles default to none. */
  function Authenticate(onHandler: Option<bool>, onClass: Option<bool>, header: Option<string>,
                        verify: string -> Option<Payload>): (r: Result<Option<RequestUser>>)
    ensures IsPublic(onHandler, onClass) ==> r == Ok(None)
    ensures !IsPublic(onHandler, onClass) && (!Truthy(header) || !StartsWith(header.value, BearerPrefix)) ==>
      r == Err(Unauthorized("No token provided"))
    ensures !IsPublic(onHandler, onClass) && Truthy(header) && StartsWith(header.value, BearerPrefix) ==>
      && (r.Ok? <==> verify(BearerToken(header.value)).Some?)
      && (verify(BearerToken(header.value)).None? ==> r == Err(Unauthorized("Invalid or expired token")))
    ensures r.Ok? && !IsPublic(onHandler, onClass) ==>
      && r.value.Some?
      && StartsWith(header.value, BearerPrefix)
      && verify(BearerToken(header.value)).Some?
      && var p := verify(BearerToken(header.value)).value;
        r.value.value == RequestUser(p.sub, p.email, if p.roles.Some? then p.roles.value else [])
    ensures r.Err? ==> r.error.Unauthorized?
  {
    if IsPublic(onHandler, onClass) then Ok(None)
    else if !Truthy(header) || !StartsWith(header.value, BearerPrefix) then Err(Unauthorized("No token provided"))
    else match verify(BearerToken(header.value))
      case None => Err(Unauthorized("Invalid or expired token"))
      case Some(p) => Ok(Some(RequestUser(p.sub, p.email, if p.roles.Some? then p.roles.value else [])))
  }

  /** A route marked public on its handler is checked anyway when the
      handler marks it not public, whatever its class says. */
  lemma HandlerOverridesClass(onClass: Option<bool>, verify: string -> Option<Payload>)
    ensures Authenticate(Some(false), onClass, None, verify) == Err(Unauthorized("No token provided"))
    ensures Authenticate(None, Some(true), None, verify) == Ok(None)
  {
  }

  /** The prefix is matched with its case: `bearer <t>` is refused. */
  lemma LowercaseSchemeRefused(t: string, verify: string -> Option<Payload>)
    ensures Authenticate(None, None, Some("bearer " + t), verify) == Err(Unauthorized("No token provided"))
  {
    assert ("bearer " + t)[0] != BearerPrefix[0];
  }

  /** `RoleGuard.canActivate`. A route that names no roles is open;
      otherwise a caller must be known and hold one of them. */
  function Authorize(required: Option<seq<string>>, user: Option<RequestUser>): (r: Result<bool>)
    ensures r.Ok? ==> r.value
    ensures (required.None? || |required.value| == 0) ==> r.Ok?
    ensures required.Some? && |required.value| > 0 ==>
      (r.Ok? <==> user.Some? && exists k :: 0 <= k < |required.value| && required.value[k] in user.value.roles)
    ensures required.Some? && |required.value| > 0 && user.None? ==> r == Err(Unauthorized("Authentication required"))
    ensures r.Err? && user.Some? ==>
      r.error == Forbidden("Access denied. Required one of these roles: " + Join(required.value, ", "))
  {
    var roles := if required.Some? then required.value else [];
    if |roles| == 0 then Ok(true)
    else if user.None? then Err(Unauthorized("Authentication required"))
    else if exists k :: 0 <= k < |roles| && roles[k] in user.value.roles then Ok(true)
    else Err(Forbidden("Access denied. Required one of these roles: " + Join(roles, ", ")))
  }

  /** Holding more roles never loses access. */
  lemma AuthorizeMonotone(required: Option<seq<string>>, u: RequestUser, more: seq<string>)
    requires forall x :: x in u.roles ==> x in more
    requires Authorize(required, Some(u)).Ok?
    ensures Authorize(required, Some(u.(roles := more))).Ok?
  {
  }

  /** A token whose payload carries a required role passes both guards in
      turn. */
  lemma TokenWithRolePassesBoth(t: string, verify: string -> Option<Payload>, required: seq<string>, k: nat)
    requires ' ' !in t
    requires verify(t).Some? && verify(t).value.roles.Some?
    requires k < |required| && required[k] in verify(t).value.roles.value
    ensures var a := Authenticate(None, None, Some(BearerPrefix + t), verify);
      a.Ok? && Authorize(Some(required), a.value).Ok?
  {
    BearerTokenOf(t);
  }

  /** A token that carries no roles is refused by every route that names
      any role. */
  lemma NoRolesNoAccess(t: string, verify: string -> Option<Payload>, required: seq<string>)
    requires ' ' !in t
    requires verify(t).Some? && verify(t).value.roles.None?
    requires |required| > 0
    ensures var a := Authenticate(None, None, Some(BearerPrefix + t), verify);
      a.Ok? && Authorize(Some(required), a.value).Err? && Authorize(Some(required), a.value).error.Forbidden?
  {
    BearerTokenOf(t);
  }
}

=== FILE: otp.dfy ===
/** One-time codes: six random digits kept in the cache for three minutes
    under the phone's key, at most one live code per phone, removed once
    used. The random draws and the clock are parameters. */
module Otp {
  import opened Outcomes
  import opened Text
  import opened Redis
  import AuthDto

  /** The code the generator returns for six draws from its ten-digit
      alphabet. */
  function GenerateOtp(draws: seq<nat>): (code: string)
    requires |draws| == 6
    ensures AuthDto.IsOtpCode(code)
    ensures forall i :: 0 <= i < 6 ==> DigitValue(code[i]) == draws[i] % 10
  {
    seq(6, i requires 0 <= i < 6 => DigitChar(draws[i] % 10))
  }

  /** The key the service itself builds from a phone number. */
  function PhoneKey(phone: string): string
  {
    OtpPrefix + phone
  }

  /** `sendOtp`: refused while a code for the phone is live, with the
      seconds it has left; otherwise a fresh code is stored and the reply is
      whether the cache answered `OK`. */
  function SendOtp(st: Store, phone: string, draws: seq<nat>, now: int): (r: Result<(bool, Store)>)
    requires |draws| == 6
    ensures r.Err? <==> Truthy(GetOtp(st, PhoneKey(phone), now))
    ensures r.Err? ==> r.error == BadRequest("Try again " + IntToString(Ttl(st, PhoneKey(phone), now)) + " seconds")
    ensures r.Ok? ==> r.value.0 && GetOtp(r.value.1, phone, now) == Some(GenerateOtp(draws))
    ensures r.Ok? ==> r.value.1.hashes == st.hashes
  {
    var key := PhoneKey(phone);
    if Truthy(GetOtp(st, key, now)) then
      Err(BadRequest("Try again " + IntToString(Ttl(st, key, now)) + " seconds"))
    else
      var (reply, st') := SetOtp(st, phone, GenerateOtp(draws), now);
      Ok((reply == "OK", st'))
  }

  /** `verifyOtpSendUser`: the code must equal the live code for the phone,
      which is then removed; a failed attempt changes nothing. */
  function VerifyOtp(st: Store, phone: string, code: string, now: int): (r: Result<(bool, Store)>)
    ensures r.Ok? <==> GetOtp(st, PhoneKey(phone), now) == Some(code) && code != ""
    ensures r.Err? ==> r.error == BadRequest("Invalid otp")
    ensures r.Ok? ==> r.value.0 && r.value.1 == Del(st, PhoneKey(phone))
  {
    var key := PhoneKey(phone);
    var otp := GetOtp(st, key, now);
    if otp != Some(code) || !Truthy(otp) then Err(BadRequest("Invalid otp"))
    else Ok((true, Del(st, key)))
  }

  /** For a phone without the key prefix, the service's key and the
      cache's key coincide. */
  lemma PlainPhoneKey(phone: string)
    requires !StartsWith(phone, OtpPrefix)
    ensures OtpKey(phone) == PhoneKey(phone) == OtpKey(PhoneKey(phone))
  {
    OtpKeyIdempotent(phone);
  }

  /** After a successful send, another send for the same phone is refused
      until three minutes have passed, with the seconds still to wait. */
  lemma SendIsRateLimited(st: Store, phone: string, draws: seq<nat>, draws2: seq<nat>, now: int, later: int)
    requires |draws| == 6 && |draws2| == 6
    requires !StartsWith(phone, OtpPrefix)
    requires SendOtp(st, phone, draws, now).Ok?
    requires now <= later < now + OtpTtl
    ensures var st' := SendOtp(st, phone, draws, now).value.1;
      SendOtp(st', phone, draws2, later) == Err(BadRequest("Try again " + IntToString(now + OtpTtl - later) + " seconds"))
  {
    PlainPhoneKey(phone);
    var st' := SendOtp(st, phone, draws, now).value.1;
    assert GetOtp(st', PhoneKey(phone), later) == Some(GenerateOtp(draws));
    assert Ttl(st', PhoneKey(phone), later) == now + OtpTtl - later;
  }

  /** Once three minutes have passed, sending again is allowed. */
  lemma SendAllowedAfterExpiry(st: Store, phone: string, draws: seq<nat>, draws2: seq<nat>, now: int, later: int)
    requires |draws| == 6 && |draws2| == 6
    requires !StartsWith(phone, OtpPrefix)
    requires SendOtp(st, phone, draws, now).Ok?
    requires later >= now + OtpTtl
    ensures SendOtp(SendOtp(st, phone, draws, now).value.1, phone, draws2, later).Ok?
  {
    PlainPhoneKey(phone);
  }

  /** The code just sent is accepted once within its lifetime, and the same
      code is refused the second time. */
  lemma SendThenVerifyOnce(st: Store, phone: string, draws: seq<nat>, now: int, later: int)
    requires |draws| == 6
    requires !StartsWith(phone, OtpPrefix)
    requires SendOtp(st, phone, draws, now).Ok?
    requires now <= later < now + OtpTtl
    ensures var st' := SendOtp(st, phone, draws, now).value.1;
      var code := GenerateOtp(draws);
      && VerifyOtp(st', phone, code, later).Ok?
      && VerifyOtp(VerifyOtp(st', phone, code, later).value.1, phone, code, later).Err?
  {
    PlainPhoneKey(phone);
    var code := GenerateOtp(draws);
    assert code != "" by { assert |code| == 6; }
  }

  /** A different code than the one sent is refused, and leaves the sent
      code in place. */
  lemma WrongCodeRefused(st: Store, phone: string, draws: seq<nat>, code: string, now: int, later: int)
    requires |draws| == 6
    requires !StartsWith(phone, OtpPrefix)
    requires SendOtp(st, phone, draws, now).Ok?
    requires code != GenerateOtp(draws)
    ensures VerifyOtp(SendOtp(st, phone, draws, now).value.1, phone, code, later).Err?
  {
    PlainPhoneKey(phone);
  }

  /** A phone that already carries the key prefix is checked and verified
      under a doubly prefixed key but stored under itself: the code sent to
      it never decides a later verification, which answers as it would have
      before the send. */
  lemma PrefixedPhoneNeverVerifies(st: Store, phone: string, draws: seq<nat>, code: string, now: int, later: int)
    requires |draws| == 6
    requires StartsWith(phone, OtpPrefix)
    requires SendOtp(st, phone, draws, now).Ok?
    ensures var st' := SendOtp(st, phone, draws, now).value.1;
      VerifyOtp(st', phone, code, later).Ok? <==> VerifyOtp(st, phone, code, later).Ok?
  {
    var st' := SendOtp(st, phone, draws, now).value.1;
    assert OtpKey(phone) == phone;
    assert |PhoneKey(phone)| != |phone|;
    assert OtpKey(PhoneKey(phone)) == PhoneKey(phone);
    assert GetOtp(st', PhoneKey(phone), later) == GetOtp(st, PhoneKey(phone), later);
  }
}

=== FILE: outcomes.dfy ===
/** Failure-carrying results shared by every service of the model.

    Each NestJS exception class the services throw becomes one `Error`
    constructor, carrying the message text the service passes to it. */
module Outcomes {

  datatype Option<+T> = None | Some(value: T)

  datatype Error =
    | NotFound(message: string)
    | BadRequest(message: string)
    | Unauthorized(message: string)
    | Forbidden(message: string)
    | Conflict(message: string)
    | PayloadTooLarge(message: string)
    | Internal(message: string)

  /** The value a service returns, or the exception it throws. */
  datatype Result<+T> = Ok(value: T) | Err(error: Error)
}

=== FILE: paging.dfy ===
/** Offset pagination as the list endpoints compute it: `skip = (page - 1) * limit`,
    Prisma's `skip`/`take` window, `totalPages = Math.ceil(total / limit)` and
    `hasMore = skip + items.length < total`. */
module Paging {
  import opened Outcomes
  import Sorting

  function Min(a: int, b: int): int { if a <= b then a else b }

  /** Rows skipped before a 1-based page. */
  function Skip(page: int, limit: int): int
  {
    (page - 1) * limit
  }

  /** `Math.ceil(total / limit)`: the least page count whose pages hold every row. */
  function TotalPages(total: nat, limit: nat): (pages: nat)
    requires limit > 0
    ensures total <= pages * limit
    ensures pages == 0 || (pages - 1) * limit < total
  {
    (total + limit - 1) / limit
  }

  /** The rows a query with `skip` and `take` returns. */
  function Window<T>(rows: seq<T>, skip: nat, take: nat): (w: seq<T>)
    ensures |w| == PageLength(|rows|, skip, take)
    ensures forall k :: 0 <= k < |w| ==> w[k] == rows[skip + k]
  {
    if skip >= |rows| then [] else rows[skip..Min(skip + take, |rows|)]
  }

  /** How many rows a window holds: those left after `skip`, at most `take`. */
  function PageLength(total: nat, skip: nat, take: nat): nat
  {
    if skip >= total then 0 else Min(take, total - skip)
  }

  predicate HasMore(skip: int, returned: nat, total: nat)
  {
    skip + returned < total
  }

  /** `hasMore` holds exactly when rows remain after the window. */
  lemma HasMoreIffRowsRemain<T>(rows: seq<T>, skip: nat, take: nat)
    ensures HasMore(skip, |Window(rows, skip, take)|, |rows|) <==> skip + take < |rows|
  {
  }

  lemma MulMonotone(a: int, b: int, c: nat)
    requires a <= b
    ensures a * c <= b * c
  {
  }

  /** A page holds rows exactly when its number is between 1 and `totalPages`. */
  lemma PageNonEmptyIff<T>(rows: seq<T>, page: nat, limit: nat)
    requires page >= 1 && limit >= 1
    ensures |Window(rows, Skip(page, limit), limit)| > 0 <==> page <= TotalPages(|rows|, limit)
  {
    var pages := TotalPages(|rows|, limit);
    if page <= pages {
      MulMonotone(page - 1, pages - 1, limit);
    } else {
      MulMonotone(pages, page - 1, limit);
    }
  }

  /** The rows of a 1-based page of `limit` rows. Prisma refuses a negative
      `skip`, which a page number below 1 produces whenever `limit` is not 0. */
  function PageItems<T>(rows: seq<T>, page: int, limit: nat): (r: Result<seq<T>>)
    ensures r.Err? <==> page < 1 && limit > 0
    ensures r.Err? ==> r.error.Internal?
    ensures r.Ok? ==> Skip(page, limit) >= 0 && |r.value| <= limit
    ensures r.Ok? ==> |r.value| == PageLength(|rows|, Skip(page, limit), limit)
    ensures r.Ok? ==> |r.value| == 0 || Skip(page, limit) + |r.value| <= |rows|
    ensures r.Ok? ==> forall k :: 0 <= k < |r.value| ==> r.value[k] == rows[Skip(page, limit) + k]
    ensures r.Ok? && |r.value| < limit ==> Skip(page, limit) + |r.value| >= |rows|
  {
    var skip := Skip(page, limit);
    if skip < 0 then
      assert limit > 0 && page < 1 by { if page >= 1 { MulMonotone(0, page - 1, limit); } }
      Err(Internal("skip must not be negative"))
    else
      assert !(page < 1 && limit > 0) by { if page < 1 && limit > 0 { MulMonotone(page - 1, -1, limit); } }
      Ok(Window(rows, skip, limit))
  }

  /** `Math.ceil(total / limit)`; a zero limit gives a non-finite quotient
      (Infinity, or NaN for an empty table), shown as `None`. */
  function PageCount(total: nat, limit: nat): (r: Option<nat>)
    ensures r.None? <==> limit == 0
    ensures r.Some? ==> total <= r.value * limit && (r.value == 0 || (r.value - 1) * limit < total)
  {
    if limit == 0 then None else Some(TotalPages(total, limit))
  }

  /** Every row appears on exactly one page: row `i` is entry `i % limit` of
      page `i / limit + 1`. */
  lemma RowOnItsPage<T>(rows: seq<T>, limit: nat, i: nat)
    requires limit > 0 && i < |rows|
    ensures var page := i / limit + 1;
      && PageItems(rows, page, limit).Ok?
      && Skip(page, limit) + i % limit == i
      && i % limit < |PageItems(rows, page, limit).value|
      && PageItems(rows, page, limit).value[i % limit] == rows[i]
  {
    var page := i / limit + 1;
    assert Skip(page, limit) == i / limit * limit;
    assert i / limit * limit + i % limit == i;
  }

  /** A page of ordered rows is ordered, and holds only rows of the table. */
  lemma PageOfSorted<T>(rows: seq<T>, page: int, limit: nat, key: T -> int)
    requires Sorting.SortedBy(rows, key) && PageItems(rows, page, limit).Ok?
    ensures Sorting.SortedBy(PageItems(rows, page, limit).value, key)
    ensures forall k :: 0 <= k < |PageItems(rows, page, limit).value| ==> PageItems(rows, page, limit).value[k] in rows
  {
    var items := PageItems(rows, page, limit).value;
    var s := Skip(page, limit);
    forall a, b | 0 <= a < b < |items| ensures key(items[a]) <= key(items[b]) {
      assert items[a] == rows[s + a] && items[b] == rows[s + b];
    }
  }
}

=== FILE: playback.dfy ===
/** The two read paths of the video service: `streamVideo`, which serves
    one chunk of the file the record points to, and `watchVideo`, which
    picks a rendition from the video's output directory and serves it whole
    or by range.

    The filesystem is a parameter: `sizeAt` answers the size of the file at
    a path, or `None` when there is no such file, and a directory listing
    arrives as a sequence of names (`None` when the directory is missing). */
module Playback {
  import opened Outcomes
  import opened Text
  import opened Schema
  import opened ByteRanges
  import Seqs

  /** What `streamVideo` hands to the controller. */
  datatype StreamReply = StreamReply(chunk: Chunk, headers: seq<Header>, fileSize: nat)

  /** The start `parseRange` reads from a header. */
  function StreamStart(range: string): nat
  {
    DecimalValue(RangeDigits(range))
  }

  /** `streamVideo`: the record must exist and its file must be on disk.
      The chunk comes from `parseRange`; the read stream then refuses a
      window whose start lies past its end, which happens exactly when the
      start is at or beyond the end of the file. */
  function StreamVideo(db: Db, id: Id, range: string, sizeAt: string -> Option<nat>): (r: Result<StreamReply>)
    ensures FindVideo(db, id).None? ==> r == Err(NotFound("Video not found"))
    ensures FindVideo(db, id).Some? && sizeAt(db.videos[FindVideo(db, id).value].videoUrl).None? ==>
      r == Err(NotFound("Video file not found"))
    ensures r.Ok? <==>
      && FindVideo(db, id).Some?
      && sizeAt(db.videos[FindVideo(db, id).value].videoUrl).Some?
      && StreamStart(range) < sizeAt(db.videos[FindVideo(db, id).value].videoUrl).value
    ensures r.Err? ==> r.error.NotFound? || r.error.Internal?
    ensures r.Ok? ==>
      var StreamReply(c, headers, size) := r.value;
      && size == sizeAt(db.videos[FindVideo(db, id).value].videoUrl).value
      && c.start == StreamStart(range)
      && c.start <= c.end < size
      && c.end <= c.start + ChunkLimit
      && (c.end == c.start + ChunkLimit || c.end == size - 1)
      && 1 <= c.chunkSize <= ChunkLimit + 1
      && c.chunkSize == c.end - c.start + 1
      && HeaderValue(headers, "Content-Length") == Some(IntToString(c.chunkSize))
      && HeaderValue(headers, "Content-Range")
         == Some("bytes " + IntToString(c.start) + "-" + IntToString(c.end) + "/" + NatToString(size))
  {
    match FindVideo(db, id)
    case None => Err(NotFound("Video not found"))
    case Some(i) =>
      match sizeAt(db.videos[i].videoUrl)
      case None => Err(NotFound("Video file not found"))
      case Some(size) =>
        var c := ParseRange(range, size);
        if c.start > c.end then Err(Internal("start past end of the read window"))
        else Ok(StreamReply(c, StreamHeaders(c, size), size))
  }

  /** A follow-up request whose header reads as one past this chunk's end
      (as `bytes=<end + 1>-` does, by `OpenEndedDigits`) streams the chunk
      that starts right after this one, and once the last byte has been
      sent it is refused: sequential requests read the file without gap or
      overlap. */
  lemma NextChunkFollows(db: Db, id: Id, range: string, next: string, sizeAt: string -> Option<nat>)
    requires StreamVideo(db, id, range, sizeAt).Ok?
    requires StreamStart(next) == StreamVideo(db, id, range, sizeAt).value.chunk.end + 1
    ensures var reply := StreamVideo(db, id, range, sizeAt).value;
      var r := StreamVideo(db, id, next, sizeAt);
      && (reply.chunk.end + 1 < reply.fileSize ==> r.Ok? && r.value.chunk.start == reply.chunk.end + 1)
      && (reply.chunk.end + 1 == reply.fileSize ==> r.Err?)
  {
    StreamFrom(db, id, next, sizeAt, StreamStart(next));
  }

  /** A request whose header reads as start `n` succeeds exactly when `n`
      lies inside the file, and then streams from `n`. */
  lemma StreamFrom(db: Db, id: Id, header: string, sizeAt: string -> Option<nat>, n: nat)
    requires FindVideo(db, id).Some? && sizeAt(db.videos[FindVideo(db, id).value].videoUrl).Some?
    requires StreamStart(header) == n
    ensures var size := sizeAt(db.videos[FindVideo(db, id).value].videoUrl).value;
      var r := StreamVideo(db, id, header, sizeAt);
      && (r.Ok? <==> n < size)
      && (r.Ok? ==> r.value.chunk.start == n && r.value.fileSize == size)
  {
  }

  /** The rendition ladder `watchVideo` walks, best first. */
  const Qualities: seq<string> := ["1080", "720", "480", "360", "240"]

  function RenditionSuffix(q: string): string { q + "p.mp4" }

  /** Some file of the listing is the rendition of quality `q`. */
  predicate Offers(files: seq<string>, q: string)
  {
    exists i :: 0 <= i < |files| && EndsWith(files[i], RenditionSuffix(q))
  }

  predicate HasMp4(files: seq<string>)
  {
    exists i :: 0 <= i < |files| && EndsWith(files[i], ".mp4")
  }

  /** `files.find(f => f.endsWith(suffix))`. */
  function FirstEndingWith(files: seq<string>, suffix: string): (r: Option<string>)
    ensures r.Some? ==> r.value in files && EndsWith(r.value, suffix)
    ensures r.None? <==> forall i :: 0 <= i < |files| ==> !EndsWith(files[i], suffix)
  {
    match Seqs.FindIndex(files, (f: string) => EndsWith(f, suffix))
    case None => None
    case Some(i) => Some(files[i])
  }

  /** A name ending in `a + b` ends in `b`. */
  lemma EndsWithTail(s: string, a: string, b: string)
    requires EndsWith(s, a + b)
    ensures EndsWith(s, b)
  {
    assert s[|s| - |b|..] == (a + b)[|a|..];
  }

  lemma RenditionIsMp4(s: string, q: string)
    requires EndsWith(s, RenditionSuffix(q))
    ensures EndsWith(s, ".mp4")
  {
    assert RenditionSuffix(q) == (q + "p") + ".mp4";
    EndsWithTail(s, q + "p", ".mp4");
  }

  /** The first rung of `ladder` the listing offers, else any `.mp4`. */
  function SelectFrom(files: seq<string>, ladder: seq<string>): (r: Option<string>)
    ensures r.Some? ==> r.value in files && EndsWith(r.value, ".mp4")
    ensures r.None? <==> !HasMp4(files)
    decreases |ladder|
  {
    if |ladder| == 0 then
      FirstEndingWith(files, ".mp4")
    else
      match FirstEndingWith(files, RenditionSuffix(ladder[0]))
      case Some(f) =>
        RenditionIsMp4(f, ladder[0]);
        Some(f)
      case None => SelectFrom(files, ladder[1..])
  }

  /** The rendition `watchVideo` serves. */
  function SelectRendition(files: seq<string>): (r: Result<string>)
    ensures r.Ok? ==> r.value in files && EndsWith(r.value, ".mp4")
    ensures r.Err? <==> !HasMp4(files)
    ensures r.Err? ==> r.error == NotFound("No playable video found")
  {
    match SelectFrom(files, Qualities)
    case None => Err(NotFound("No playable video found"))
    case Some(f) => Ok(f)
  }

  /** When the best rung the listing offers is `ladder[k]`, the choice is the
      first file of that rung. */
  lemma {:induction false} SelectFromPrefers(files: seq<string>, ladder: seq<string>, k: nat, m: nat)
    requires k < |ladder|
    requires forall j :: 0 <= j < k ==> !Offers(files, ladder[j])
    requires m < |files| && EndsWith(files[m], RenditionSuffix(ladder[k]))
    requires forall i :: 0 <= i < m ==> !EndsWith(files[i], RenditionSuffix(ladder[k]))
    ensures SelectFrom(files, ladder) == Some(files[m])
    decreases k
  {
    if k == 0 {
      Seqs.FindIndexIs(files, (f: string) => EndsWith(f, RenditionSuffix(ladder[0])), m);
    } else {
      assert !Offers(files, ladder[0]);
      assert FirstEndingWith(files, RenditionSuffix(ladder[0])).None?;
      forall j | 0 <= j < k - 1 ensures !Offers(files, ladder[1..][j]) {
        assert ladder[1..][j] == ladder[j + 1];
      }
      SelectFromPrefers(files, ladder[1..], k - 1, m);
    }
  }

  /** When no rung is offered, the choice is the first `.mp4` of the listing. */
  lemma {:induction false} SelectFromFallsBack(files: seq<string>, ladder: seq<string>, m: nat)
    requires forall j :: 0 <= j < |ladder| ==> !Offers(files, ladder[j])
    requires m < |files| && EndsWith(files[m], ".mp4")
    requires forall i :: 0 <= i < m ==> !EndsWith(files[i], ".mp4")
    ensures SelectFrom(files, ladder) == Some(files[m])
    decreases |ladder|
  {
    if |ladder| == 0 {
      Seqs.FindIndexIs(files, (f: string) => EndsWith(f, ".mp4"), m);
    } else {
      assert !Offers(files, ladder[0]);
      assert FirstEndingWith(files, RenditionSuffix(ladder[0])).None?;
      forall j | 0 <= j < |ladder| - 1 ensures !Offers(files, ladder[1..][j]) {
        assert ladder[1..][j] == ladder[j + 1];
      }
      SelectFromFallsBack(files, ladder[1..], m);
    }
  }

  /** The watch endpoint serves the first file of the best quality the
      directory offers. */
  lemma SelectRenditionPrefers(files: seq<string>, k: nat, m: nat)
    requires k < |Qualities|
    requires forall j :: 0 <= j < k ==> !Offers(files, Qualities[j])
    requires m < |files| && EndsWith(files[m], RenditionSuffix(Qualities[k]))
    requires forall i :: 0 <= i < m ==> !EndsWith(files[i], RenditionSuffix(Qualities[k]))
    ensures SelectRendition(files) == Ok(files[m])
  {
    SelectFromPrefers(files, Qualities, k, m);
  }

  /** With no rendition of any listed quality, the first `.mp4` is served. */
  lemma SelectRenditionFallsBack(files: seq<string>, m: nat)
    requires forall j :: 0 <= j < |Qualities| ==> !Offers(files, Qualities[j])
    requires m < |files| && EndsWith(files[m], ".mp4")
    requires forall i :: 0 <= i < m ==> !EndsWith(files[i], ".mp4")
    ensures SelectRendition(files) == Ok(files[m])
  {
    SelectFromFallsBack(files, Qualities, m);
  }

  /** What `watchVideo` hands to the controller: the served file, its size,
      the window when the request was ranged, and the headers. */
  datatype WatchReply = WatchReply(file: string, fileSize: nat, window: Option<WatchWindow>, headers: seq<Header>)

  /** The largest buffer `Buffer.alloc` makes, in bytes: 2^53 - 1 on a
      64-bit platform. */
  const MaxBuffer: nat := 0x1F_FFFF_FFFF_FFFF

  /** `watchVideo`. `listing` is the content of the video's output directory.
      A ranged read allocates a buffer of `chunkSize` bytes, which fails when
      the size is NaN, negative or larger than `MaxBuffer`. */
  function WatchVideo(listing: Option<seq<string>>, range: Option<string>, sizeOf: string -> nat)
    : (r: Result<WatchReply>)
    ensures listing.None? ==> r == Err(NotFound("Video not found"))
    ensures listing.Some? && !HasMp4(listing.value) ==> r == Err(NotFound("No playable video found"))
    ensures r.Ok? ==>
      && listing.Some? && SelectRendition(listing.value) == Ok(r.value.file)
      && r.value.fileSize == sizeOf(r.value.file)
    ensures r.Ok? && !Truthy(range) ==>
      && r.value.window.None?
      && HeaderValue(r.value.headers, "Content-Length") == Some(NatToString(r.value.fileSize))
      && HeaderValue(r.value.headers, "Content-Range").None?
    ensures r.Ok? && Truthy(range) ==>
      && r.value.window == Some(WatchRange(range.value, r.value.fileSize))
      && var w := r.value.window.value;
      && w.chunkSize.Some? && 0 <= w.chunkSize.value <= MaxBuffer
      && HeaderValue(r.value.headers, "Content-Length") == Some(IntToString(w.chunkSize.value))
    ensures listing.Some? && HasMp4(listing.value) && Truthy(range) ==>
      (r.Ok? <==>
        var w := WatchRange(range.value, sizeOf(SelectRendition(listing.value).value));
        w.chunkSize.Some? && 0 <= w.chunkSize.value <= MaxBuffer)
    ensures listing.Some? && HasMp4(listing.value) && !Truthy(range) ==> r.Ok?
  {
    match listing
    case None => Err(NotFound("Video not found"))
    case Some(files) =>
      match SelectRendition(files)
      case Err(e) => Err(e)
      case Ok(file) =>
        var size := sizeOf(file);
        if Truthy(range) then
          var w := WatchRange(range.value, size);
          if w.chunkSize.None? || w.chunkSize.value < 0 || w.chunkSize.value > MaxBuffer then Err(Internal("buffer size out of range"))
          else Ok(WatchReply(file, size, Some(w), WatchRangeHeaders(w, size)))
        else
          Ok(WatchReply(file, size, None, WholeFileHeaders(size)))
  }
}

=== FILE: playlists.dfy ===
/** Playlists: owner-only edits of a playlist and its entries, and the two
    read paths, one playlist with its videos in position order and a user's
    playlists page by page. */
module Playlists {
  import opened Outcomes
  import opened Schema
  import Seqs
  import Paging
  import Sorting

  /** The owner check every write starts with. */
  function Owned(db: Db, playlistId: Id, authorId: Id): (r: Result<nat>)
    ensures FindPlaylist(db, playlistId).None? <==> r == Err(NotFound("Playlist not found"))
    ensures r.Ok? <==> FindPlaylist(db, playlistId).Some? && db.playlists[FindPlaylist(db, playlistId).value].authorId == authorId
    ensures r.Ok? ==> r.value == FindPlaylist(db, playlistId).value
    ensures r.Err? ==> r.error == NotFound("Playlist not found") || r.error == Forbidden("Not your playlist")
  {
    match FindPlaylist(db, playlistId)
    case None => Err(NotFound("Playlist not found"))
    case Some(i) => if db.playlists[i].authorId != authorId then Err(Forbidden("Not your playlist")) else Ok(i)
  }

  /** The entries of one playlist. */
  function InPlaylist(playlistId: Id): PlaylistEntry -> bool
  {
    (e: PlaylistEntry) => e.playlistId == playlistId
  }

  /** The entry that puts `videoId` in `playlistId`. */
  function EntryOf(playlistId: Id, videoId: Id): PlaylistEntry -> bool
  {
    (e: PlaylistEntry) => e.playlistId == playlistId && e.videoId == videoId
  }

  /** What `addVideo` may carry: an explicit position is optional. */
  datatype AddVideoRequest = AddVideoRequest(videoId: Id, position: Option<int>)

  /** `addVideo`: owner only, for an existing video. A video already in the
      playlist is answered with its entry and nothing is written; otherwise a
      new entry goes at the given position, or after the current entries. */
  function AddVideo(db: Db, playlistId: Id, dto: AddVideoRequest, authorId: Id, newId: Id): (r: Result<(PlaylistEntry, Db)>)
    ensures Owned(db, playlistId, authorId).Err? ==> r == Err(Owned(db, playlistId, authorId).error)
    ensures Owned(db, playlistId, authorId).Ok? && FindVideo(db, dto.videoId).None? ==> r == Err(NotFound("Video not found"))
    ensures r.Ok? <==> Owned(db, playlistId, authorId).Ok? && FindVideo(db, dto.videoId).Some?
    ensures r.Ok? ==>
      var (entry, db') := r.value;
      && entry.playlistId == playlistId && entry.videoId == dto.videoId
      && match Seqs.FindIndex(db.entries, EntryOf(playlistId, dto.videoId))
         case Some(k) => entry == db.entries[k] && db' == db
         case None =>
           && db' == db.(entries := db.entries + [entry])
           && entry.id == newId
           && entry.position == (if dto.position.Some? then dto.position.value else Seqs.Count(db.entries, InPlaylist(playlistId)))
  {
    match Owned(db, playlistId, authorId)
    case Err(e) => Err(e)
    case Ok(_) =>
      if FindVideo(db, dto.videoId).None? then Err(NotFound("Video not found"))
      else
        match Seqs.FindIndex(db.entries, EntryOf(playlistId, dto.videoId))
        case Some(k) => Ok((db.entries[k], db))
        case None =>
          var position := if dto.position.Some? then dto.position.value else Seqs.Count(db.entries, InPlaylist(playlistId));
          var entry := PlaylistEntry(newId, playlistId, dto.videoId, position);
          Ok((entry, db.(entries := db.entries + [entry])))
  }

  /** Adding the same video again changes nothing and answers the entry the
      first call made. */
  lemma AddVideoIdempotent(db: Db, playlistId: Id, dto: AddVideoRequest, authorId: Id, newId: Id, newId2: Id)
    requires AddVideo(db, playlistId, dto, authorId, newId).Ok?
    ensures var (entry, db1) := AddVideo(db, playlistId, dto, authorId, newId).value;
      AddVideo(db1, playlistId, dto, authorId, newId2) == Ok((entry, db1))
  {
    var (entry, db1) := AddVideo(db, playlistId, dto, authorId, newId).value;
    match Seqs.FindIndex(db.entries, EntryOf(playlistId, dto.videoId))
    case Some(k) =>
    case None =>
      Seqs.FindIndexIs(db1.entries, EntryOf(playlistId, dto.videoId), |db.entries|);
  }

  /** At most one entry per playlist and video. */
  predicate OneEntryPerVideo(entries: seq<PlaylistEntry>)
  {
    forall i, j :: 0 <= i < j < |entries| ==>
      entries[i].playlistId != entries[j].playlistId || entries[i].videoId != entries[j].videoId
  }

  /** `addVideo` never puts a video twice into a playlist. */
  lemma AddVideoKeepsOneEntry(db: Db, playlistId: Id, dto: AddVideoRequest, authorId: Id, newId: Id)
    requires OneEntryPerVideo(db.entries)
    requires AddVideo(db, playlistId, dto, authorId, newId).Ok?
    ensures OneEntryPerVideo(AddVideo(db, playlistId, dto, authorId, newId).value.1.entries)
  {
    var es := db.entries;
    var es' := AddVideo(db, playlistId, dto, authorId, newId).value.1.entries;
    if Seqs.FindIndex(es, EntryOf(playlistId, dto.videoId)).None? {
      forall i, j | 0 <= i < j < |es'|
        ensures es'[i].playlistId != es'[j].playlistId || es'[i].videoId != es'[j].videoId
      {
        assert es'[i] == es[i];
        if j < |es| { assert es'[j] == es[j]; }
        else { assert !EntryOf(playlistId, dto.videoId)(es[i]); }
      }
    }
  }

  function Position(e: PlaylistEntry): int { e.position }

  /** The video an entry points at, or `None` (JavaScript `null`) when the
      row is missing. */
  function VideoOf(db: Db, videoId: Id): Option<Video>
  {
    match FindVideo(db, videoId)
    case None => None
    case Some(i) => Some(db.videos[i])
  }

  /** `findOne`'s answer: the playlist, its entries by ascending position with
      their videos, and the entry count. */
  datatype PlaylistView = PlaylistView(playlist: Playlist, entries: seq<PlaylistEntry>, videos: seq<Option<Video>>, videosCount: nat)

  /** `findOne`: a private playlist is shown to its author only; an anonymous
      caller is not its author. */
  function FindOne(db: Db, id: Id, userId: Option<Id>): (r: Result<PlaylistView>)
    ensures FindPlaylist(db, id).None? <==> r == Err(NotFound("Playlist not found"))
    ensures FindPlaylist(db, id).Some? ==>
      var p := db.playlists[FindPlaylist(db, id).value];
      (r == Err(Forbidden("This playlist is private")) <==> p.visibility == PRIVATE && (userId.None? || userId.value != p.authorId))
    ensures FindPlaylist(db, id).Some? ==>
      var p := db.playlists[FindPlaylist(db, id).value];
      (r.Ok? <==> p.visibility != PRIVATE || (userId.Some? && userId.value == p.authorId))
    ensures r.Ok? ==>
      var view := r.value;
      && view.playlist == db.playlists[FindPlaylist(db, id).value]
      && Sorting.SortedBy(view.entries, Position)
      && multiset(view.entries) == multiset(Seqs.Filter(db.entries, InPlaylist(id)))
      && view.videosCount == |view.entries| == Seqs.Count(db.entries, InPlaylist(id))
      && |view.videos| == |view.entries|
      && forall k :: 0 <= k < |view.entries| ==> view.videos[k] == VideoOf(db, view.entries[k].videoId)
  {
    match FindPlaylist(db, id)
    case None => Err(NotFound("Playlist not found"))
    case Some(i) =>
      var p := db.playlists[i];
      if p.visibility == PRIVATE && (userId.None? || userId.value != p.authorId) then Err(Forbidden("This playlist is private"))
      else
        var entries := EntriesByPosition(db, id);
        Ok(PlaylistView(p, entries, EntryVideos(db, entries), |entries|))
  }

  /** The playlist's entries by ascending position. */
  function EntriesByPosition(db: Db, id: Id): (entries: seq<PlaylistEntry>)
    ensures Sorting.SortedBy(entries, Position)
    ensures multiset(entries) == multiset(Seqs.Filter(db.entries, InPlaylist(id)))
    ensures |entries| == Seqs.Count(db.entries, InPlaylist(id))
  {
    Seqs.FilterCount(db.entries, InPlaylist(id));
    Sorting.SortBy(Seqs.Filter(db.entries, InPlaylist(id)), Position)
  }

  /** The video of each entry, in order. */
  function EntryVideos(db: Db, entries: seq<PlaylistEntry>): (vs: seq<Option<Video>>)
    ensures |vs| == |entries| && forall k :: 0 <= k < |entries| ==> vs[k] == VideoOf(db, entries[k].videoId)
  {
    seq(|entries|, k requires 0 <= k < |entries| => VideoOf(db, entries[k].videoId))
  }

  /** The author always sees their own playlist. */
  lemma FindOneOwnerAllowed(db: Db, id: Id)
    requires FindPlaylist(db, id).Some?
    ensures FindOne(db, id, Some(db.playlists[FindPlaylist(db, id).value].authorId)).Ok?
  {
  }

  /** Every entry of the playlist appears in the view, and nothing else. */
  lemma FindOneListsEveryEntry(db: Db, id: Id, userId: Option<Id>)
    requires FindOne(db, id, userId).Ok?
    ensures forall e :: e in FindOne(db, id, userId).value.entries <==> e in db.entries && e.playlistId == id
  {
    var rows := Seqs.Filter(db.entries, InPlaylist(id));
    Sorting.SortByMembers(rows, Position);
    assert FindOne(db, id, userId).value.entries == EntriesByPosition(db, id);
  }

  /** `createdAt: 'desc'`. */
  function NewestFirst(p: Playlist): int { -p.createdAt }

  /** The playlists of `userId` a caller may see: all of them for the
      owner, the public ones for anybody else. */
  function Visible(userId: Id, isOwner: bool): Playlist -> bool
  {
    (p: Playlist) => p.authorId == userId && (isOwner || p.visibility == PUBLIC)
  }

  /** One row of `findByUser`: the playlist, its entry count, and the
      thumbnail of its video at position 0, if any. */
  datatype PlaylistSummary = PlaylistSummary(playlist: Playlist, videosCount: nat, thumbnail: Option<string>)

  datatype PlaylistPage = PlaylistPage(items: seq<PlaylistSummary>, total: nat, page: int, totalPages: Option<nat>)

  /** The entries at position 0 of `playlistId`. */
  function AtHead(playlistId: Id): PlaylistEntry -> bool
  {
    (e: PlaylistEntry) => e.playlistId == playlistId && e.position == 0
  }

  /** The thumbnail map is built from every position-0 entry, a later one
      replacing an earlier one; an empty thumbnail shows as none. */
  function HeadThumbnail(db: Db, playlistId: Id): (r: Option<string>)
    ensures r.Some? ==> r.value != ""
    ensures Seqs.FindLast(db.entries, AtHead(playlistId)).None? ==> r.None?
    ensures Seqs.FindLast(db.entries, AtHead(playlistId)).Some? ==>
      var v := VideoOf(db, db.entries[Seqs.FindLast(db.entries, AtHead(playlistId)).value].videoId);
      r == (if v.Some? && v.value.thumbnail != "" then Some(v.value.thumbnail) else None)
  {
    match Seqs.FindLast(db.entries, AtHead(playlistId))
    case None => None
    case Some(k) =>
      match VideoOf(db, db.entries[k].videoId)
      case None => None
      case Some(v) => if v.thumbnail == "" then None else Some(v.thumbnail)
  }

  /** A position-0 entry added after the others decides the thumbnail,
      whatever head entries came before it. */
  lemma LaterHeadEntryWins(db: Db, e: PlaylistEntry, v: Video)
    requires e.position == 0 && VideoOf(db, e.videoId) == Some(v) && v.thumbnail != ""
    ensures HeadThumbnail(db.(entries := db.entries + [e]), e.playlistId) == Some(v.thumbnail)
  {
    var db' := db.(entries := db.entries + [e]);
    assert Seqs.FindLast(db'.entries, AtHead(e.playlistId)) == Some(|db.entries|);
    assert VideoOf(db', e.videoId) == VideoOf(db, e.videoId);
  }

  function Summarize(db: Db, p: Playlist): PlaylistSummary
  {
    PlaylistSummary(p, Seqs.Count(db.entries, InPlaylist(p.id)), HeadThumbnail(db, p.id))
  }

  /** The playlists of `userId` a caller may see, newest first. */
  function UserPlaylists(db: Db, userId: Id, isOwner: bool): (rows: seq<Playlist>)
    ensures |rows| == Seqs.Count(db.playlists, Visible(userId, isOwner))
    ensures Sorting.SortedBy(rows, NewestFirst)
    ensures forall p :: p in rows <==> p in db.playlists && p.authorId == userId && (isOwner || p.visibility == PUBLIC)
  {
    var rows := Seqs.Filter(db.playlists, Visible(userId, isOwner));
    Seqs.FilterCount(db.playlists, Visible(userId, isOwner));
    Sorting.SortByMembers(rows, NewestFirst);
    Sorting.SortBy(rows, NewestFirst)
  }

  /** `findByUser`: the visible playlists newest first, the page's window of
      them, each with its entry count and thumbnail. */
  function FindByUser(db: Db, userId: Id, page: int, limit: nat, isOwner: bool): (r: Result<PlaylistPage>)
    ensures r.Err? <==> page < 1 && limit > 0
    ensures r.Ok? ==>
      var out := r.value;
      var rows := UserPlaylists(db, userId, isOwner);
      var skip := Paging.Skip(page, limit);
      && out.total == Seqs.Count(db.playlists, Visible(userId, isOwner))
      && out.totalPages == Paging.PageCount(out.total, limit)
      && skip >= 0 && |out.items| == Paging.PageLength(|rows|, skip, limit)
      && (forall k :: 0 <= k < |out.items| ==>
            && out.items[k].playlist == rows[skip + k]
            && out.items[k].videosCount == Seqs.Count(db.entries, InPlaylist(rows[skip + k].id))
            && out.items[k].thumbnail == HeadThumbnail(db, rows[skip + k].id))
  {
    var rows := UserPlaylists(db, userId, isOwner);
    match Paging.PageItems(rows, page, limit)
    case Err(e) => Err(e)
    case Ok(items) =>
      Ok(PlaylistPage(Summaries(db, items), |rows|, page, Paging.PageCount(|rows|, limit)))
  }

  /** The summary of each playlist, in order. */
  function Summaries(db: Db, items: seq<Playlist>): (out: seq<PlaylistSummary>)
    ensures |out| == |items|
    ensures forall k :: 0 <= k < |out| ==> out[k] == Summarize(db, items[k])
  {
    seq(|items|, k requires 0 <= k < |items| => Summarize(db, items[k]))
  }

  /** A page holds only playlists the caller may see, newest first. */
  lemma FindByUserPageVisible(db: Db, userId: Id, page: int, limit: nat, isOwner: bool)
    requires FindByUser(db, userId, page, limit, isOwner).Ok?
    ensures var items := FindByUser(db, userId, page, limit, isOwner).value.items;
      && (forall k :: 0 <= k < |items| ==>
            items[k].playlist in db.playlists && items[k].playlist.authorId == userId
            && (isOwner || items[k].playlist.visibility == PUBLIC))
      && (forall a, b :: 0 <= a < b < |items| ==> items[a].playlist.createdAt >= items[b].playlist.createdAt)
  {
    var rows := UserPlaylists(db, userId, isOwner);
    var items := FindByUser(db, userId, page, limit, isOwner).value.items;
    var skip := Paging.Skip(page, limit);
    forall k | 0 <= k < |items|
      ensures items[k].playlist in db.playlists && items[k].playlist.authorId == userId
              && (isOwner || items[k].playlist.visibility == PUBLIC)
    {
      assert rows[skip + k] in rows;
    }
    forall a, b | 0 <= a < b < |items| ensures items[a].playlist.createdAt >= items[b].playlist.createdAt {
      assert NewestFirst(rows[skip + a]) <= NewestFirst(rows[skip + b]);
    }
  }

  /** Every playlist the caller may see is on some page: the `i`-th newest
      on page `i / limit + 1`. */
  lemma FindByUserListsEveryVisible(db: Db, userId: Id, limit: nat, isOwner: bool, i: nat)
    requires limit > 0 && i < |UserPlaylists(db, userId, isOwner)|
    ensures var page := i / limit + 1;
      var out := FindByUser(db, userId, page, limit, isOwner);
      out.Ok? && i % limit < |out.value.items| && out.value.items[i % limit].playlist == UserPlaylists(db, userId, isOwner)[i]
  {
    Paging.RowOnItsPage(UserPlaylists(db, userId, isOwner), limit, i);
  }

  /** The owner's count includes every playlist anyone else is shown. */
  lemma FindByUserOwnerSeesMore(db: Db, userId: Id, page: int, limit: nat)
    requires page >= 1
    ensures FindByUser(db, userId, page, limit, false).value.total <= FindByUser(db, userId, page, limit, true).value.total
  {
    Seqs.CountMonotone(db.playlists, Visible(userId, false), Visible(userId, true));
  }

  /** What `update` may carry: an absent field is left alone. */
  datatype PlaylistUpdate = PlaylistUpdate(title: Option<string>, description: Option<string>, visibility: Option<Visibility>)

  function Edit<T>(current: T, incoming: Option<T>): T
  {
    if incoming.Some? then incoming.value else current
  }

  /** `update`: owner only; only the given fields change. */
  function Update(db: Db, id: Id, dto: PlaylistUpdate, authorId: Id): (r: Result<(Playlist, Db)>)
    ensures Owned(db, id, authorId).Err? <==> r.Err?
    ensures r.Err? ==> r.error == Owned(db, id, authorId).error
    ensures r.Ok? ==>
      var i := FindPlaylist(db, id).value;
      var (p, db') := r.value;
      var old_ := db.playlists[i];
      && db' == db.(playlists := db.playlists[i := p])
      && p.id == old_.id && p.authorId == old_.authorId && p.createdAt == old_.createdAt
      && (dto.title.None? ==> p.title == old_.title)
      && (dto.title.Some? ==> p.title == dto.title.value)
      && (dto.description.None? ==> p.description == old_.description)
      && (dto.description.Some? ==> p.description == dto.description)
      && (dto.visibility.None? ==> p.visibility == old_.visibility)
      && (dto.visibility.Some? ==> p.visibility == dto.visibility.value)
  {
    match Owned(db, id, authorId)
    case Err(e) => Err(e)
    case Ok(i) =>
      var old_ := db.playlists[i];
      var p := old_.(title := Edit(old_.title, dto.title),
                     description := if dto.description.Some? then dto.description else old_.description,
                     visibility := Edit(old_.visibility, dto.visibility));
      Ok((p, db.(playlists := db.playlists[i := p])))
  }

  /** Applying the same update twice is applying it once. */
  lemma UpdateIdempotent(db: Db, id: Id, dto: PlaylistUpdate, authorId: Id)
    requires Update(db, id, dto, authorId).Ok?
    ensures var db1 := Update(db, id, dto, authorId).value.1;
      Update(db1, id, dto, authorId) == Ok((db1.playlists[FindPlaylist(db, id).value], db1))
  {
    var i := FindPlaylist(db, id).value;
    var db1 := Update(db, id, dto, authorId).value.1;
    Seqs.FindIndexIs(db1.playlists, (p: Playlist) => p.id == id, i);
    assert db1.playlists[i := db1.playlists[i]] == db1.playlists;
  }

  /** `removeVideo`: owner only; deletes the entry that puts the video in the
      playlist, and nothing else. */
  function RemoveVideo(db: Db, playlistId: Id, videoId: Id, authorId: Id): (r: Result<Db>)
    ensures Owned(db, playlistId, authorId).Err? ==> r == Err(Owned(db, playlistId, authorId).error)
    ensures Owned(db, playlistId, authorId).Ok? ==>
      (r == Err(NotFound("Video not found in playlist")) <==> Seqs.FindIndex(db.entries, EntryOf(playlistId, videoId)).None?)
    ensures Owned(db, playlistId, authorId).Ok? && Seqs.FindIndex(db.entries, EntryOf(playlistId, videoId)).Some? ==> r.Ok?
    ensures r.Ok? ==>
      var k := Seqs.FindIndex(db.entries, EntryOf(playlistId, videoId)).value;
      && r.value == db.(entries := Seqs.RemoveAt(db.entries, k))
      && EntryOf(playlistId, videoId)(db.entries[k])
  {
    match Owned(db, playlistId, authorId)
    case Err(e) => Err(e)
    case Ok(_) =>
      match Seqs.FindIndex(db.entries, EntryOf(playlistId, videoId))
      case None => Err(NotFound("Video not found in playlist"))
      case Some(k) => Ok(db.(entries := Seqs.RemoveAt(db.entries, k)))
  }

  /** Adding a video that was not in the playlist and removing it again
      restores the store. */
  lemma AddThenRemoveVideo(db: Db, playlistId: Id, dto: AddVideoRequest, authorId: Id, newId: Id)
    requires AddVideo(db, playlistId, dto, authorId, newId).Ok?
    requires Seqs.FindIndex(db.entries, EntryOf(playlistId, dto.videoId)).None?
    ensures RemoveVideo(AddVideo(db, playlistId, dto, authorId, newId).value.1, playlistId, dto.videoId, authorId) == Ok(db)
  {
    var db1 := AddVideo(db, playlistId, dto, authorId, newId).value.1;
    Seqs.FindIndexIs(db1.entries, EntryOf(playlistId, dto.videoId), |db.entries|);
    assert Seqs.RemoveAt(db1.entries, |db.entries|) == db.entries;
  }

  /** `remove`: owner only; every entry of the playlist goes, then the
      playlist row. */
  function Remove(db: Db, id: Id, authorId: Id): (r: Result<Db>)
    ensures Owned(db, id, authorId).Err? <==> r.Err?
    ensures r.Err? ==> r.error == Owned(db, id, authorId).error
    ensures r.Ok? ==>
      var db' := r.value;
      && db' == db.(entries := db'.entries, playlists := Seqs.RemoveAt(db.playlists, FindPlaylist(db, id).value))
      && (forall e :: e in db'.entries <==> e in db.entries && e.playlistId != id)
  {
    match Owned(db, id, authorId)
    case Err(e) => Err(e)
    case Ok(i) =>
      Ok(db.(entries := Seqs.Filter(db.entries, (e: PlaylistEntry) => e.playlistId != id),
             playlists := Seqs.RemoveAt(db.playlists, i)))
  }

  predicate UniquePlaylistIds(playlists: seq<Playlist>)
  {
    forall i, j :: 0 <= i < j < |playlists| ==> playlists[i].id != playlists[j].id
  }

  /** With distinct ids, a removed playlist is gone for every reader. */
  lemma RemoveThenNotFound(db: Db, id: Id, authorId: Id, userId: Option<Id>)
    requires UniquePlaylistIds(db.playlists)
    requires Remove(db, id, authorId).Ok?
    ensures FindOne(Remove(db, id, authorId).value, id, userId) == Err(NotFound("Playlist not found"))
  {
    var i := FindPlaylist(db, id).value;
    var ps' := Remove(db, id, authorId).value.playlists;
    forall j | 0 <= j < |ps'| ensures ps'[j].id != id {
      if j < i { assert ps'[j] == db.playlists[j]; }
      else { assert ps'[j] == db.playlists[j + 1]; }
    }
    Seqs.FindIndexNone(ps', (p: Playlist) => p.id == id);
  }
}

=== FILE: redis.dfy ===
/** The key-value cache: expiring strings for one-time codes, and hashes for
    cached users and their lookup indexes.

    Time is a parameter `now`, in whole seconds; a string written with an
    expiry is readable while `now` is before its deadline. A connection
    error ends the process, so every command here succeeds. */
module Redis {
  import opened Outcomes
  import opened Text

  /** A string value and the second at which it expires, if it does. */
  datatype Entry = Entry(value: string, expiresAt: Option<int>)

  type Hash = map<string, string>

  datatype Store = Store(strings: map<string, Entry>, hashes: map<string, Hash>)

  /** Seconds a one-time code lives. */
  const OtpTtl: nat := 180

  const OtpPrefix: string := "users:"

  /** The key a code is kept under: the phone with the `users:` prefix,
      unless it already carries it. */
  function OtpKey(phone: string): (key: string)
    ensures StartsWith(key, OtpPrefix)
    ensures StartsWith(phone, OtpPrefix) ==> key == phone
    ensures !StartsWith(phone, OtpPrefix) ==> key == OtpPrefix + phone
  {
    if StartsWith(phone, OtpPrefix) then phone else OtpPrefix + phone
  }

  /** Normalising a key twice is normalising it once. */
  lemma OtpKeyIdempotent(phone: string)
    ensures OtpKey(OtpKey(phone)) == OtpKey(phone)
  {
  }

  predicate Live(e: Entry, now: int)
  {
    e.expiresAt.None? || now < e.expiresAt.value
  }

  /** `GET`: the value while it lives. */
  function Get(st: Store, key: string, now: int): (r: Option<string>)
    ensures r.Some? <==> key in st.strings && Live(st.strings[key], now)
    ensures r.Some? ==> r.value == st.strings[key].value
  {
    if key in st.strings && Live(st.strings[key], now) then Some(st.strings[key].value) else None
  }

  /** `SETEX`: replies `OK`. */
  function SetEx(st: Store, key: string, seconds: nat, value: string, now: int): (r: (string, Store))
    ensures r.0 == "OK"
    ensures r.1.hashes == st.hashes
    ensures r.1.strings == st.strings[key := Entry(value, Some(now + seconds))]
  {
    ("OK", st.(strings := st.strings[key := Entry(value, Some(now + seconds))]))
  }

  /** `TTL`: seconds left, -1 for a key without expiry, -2 for a missing
      or expired one. */
  function Ttl(st: Store, key: string, now: int): (r: int)
    ensures Get(st, key, now).None? <==> r == -2
    ensures Get(st, key, now).Some? && st.strings[key].expiresAt.Some? ==> r > 0
    ensures Get(st, key, now).Some? && st.strings[key].expiresAt.Some? ==>
      now + r == st.strings[key].expiresAt.value
    ensures Get(st, key, now).Some? && st.strings[key].expiresAt.None? ==> r == -1
  {
    if key !in st.strings || !Live(st.strings[key], now) then -2
    else match st.strings[key].expiresAt
      case None => -1
      case Some(t) => t - now
  }

  /** After `SETEX key seconds`, `TTL` counts the seconds down to one and
      then reports the key gone. */
  lemma SetExThenTtl(st: Store, key: string, seconds: nat, value: string, now: int, elapsed: nat)
    ensures var st' := SetEx(st, key, seconds, value, now).1;
      && (elapsed < seconds ==> Ttl(st', key, now + elapsed) == seconds - elapsed)
      && (elapsed >= seconds ==> Ttl(st', key, now + elapsed) == -2)
  {
  }

  /** `DEL`. */
  function Del(st: Store, key: string): (r: Store)
    ensures key !in r.strings && r.hashes == st.hashes
    ensures forall k :: k != key ==> (k in r.strings <==> k in st.strings) && (k in r.strings ==> r.strings[k] == st.strings[k])
  {
    st.(strings := st.strings - {key})
  }

  function SetOtp(st: Store, phone: string, value: string, now: int): (r: (string, Store))
    ensures r.0 == "OK"
    ensures Get(r.1, OtpKey(phone), now) == Some(value)
  {
    SetEx(st, OtpKey(phone), OtpTtl, value, now)
  }

  /** The code stored for a phone, under either spelling, while it lives. */
  function GetOtp(st: Store, phone: string, now: int): (r: Option<string>)
    ensures r.Some? <==> OtpKey(phone) in st.strings && Live(st.strings[OtpKey(phone)], now)
    ensures r.Some? ==> r.value == st.strings[OtpKey(phone)].value
  {
    Get(st, OtpKey(phone), now)
  }

  /** A code reads back, under either spelling of the phone, until its
      lifetime is over, and not after. */
  lemma SetThenGetOtp(st: Store, phone: string, value: string, now: int, later: int)
    requires now <= later
    ensures var st' := SetOtp(st, phone, value, now).1;
      && (later < now + OtpTtl ==> GetOtp(st', phone, later) == Some(value) && GetOtp(st', OtpKey(phone), later) == Some(value))
      && (later >= now + OtpTtl ==> GetOtp(st', phone, later).None?)
  {
    OtpKeyIdempotent(phone);
  }

  /** `HSET`: the given fields are merged into the hash. */
  function HSet(st: Store, key: string, fields: Hash): (r: Store)
    ensures r.strings == st.strings
    ensures key in r.hashes
    ensures forall f :: f in r.hashes[key] <==> f in fields || (key in st.hashes && f in st.hashes[key])
    ensures forall f :: f in fields ==> r.hashes[key][f] == fields[f]
    ensures forall f :: f !in fields && key in st.hashes && f in st.hashes[key] ==> r.hashes[key][f] == st.hashes[key][f]
    ensures forall k :: k != key ==> (k in r.hashes <==> k in st.hashes) && (k in r.hashes ==> r.hashes[k] == st.hashes[k])
  {
    var current := if key in st.hashes then st.hashes[key] else map[];
    st.(hashes := st.hashes[key := current + fields])
  }

  /** `HGETALL`: an empty hash when the key is missing. */
  function HGetAll(st: Store, key: string): Hash
  {
    if key in st.hashes then st.hashes[key] else map[]
  }

  /** `HGET`. */
  function HGet(st: Store, key: string, field: string): (r: Option<string>)
    ensures r.Some? <==> field in HGetAll(st, key)
    ensures r.Some? ==> key in st.hashes && field in st.hashes[key] && r.value == st.hashes[key][field]
  {
    var h := HGetAll(st, key);
    if field in h then Some(h[field]) else None
  }

  function UserKey(userId: string): string { "user:" + userId }

  function IndexKey(field: string): string { "index:" + field }

  /** A user's hash and an index never share a key. */
  lemma UserAndIndexKeysDiffer(userId: string, field: string)
    ensures UserKey(userId) != IndexKey(field)
  {
    assert UserKey(userId)[0] == 'u' && IndexKey(field)[0] == 'i';
  }

  function SetUser(st: Store, userId: string, data: Hash): Store
  {
    HSet(st, UserKey(userId), data)
  }

  function GetUser(st: Store, userId: string): Hash
  {
    HGetAll(st, UserKey(userId))
  }

  function SetIndex(st: Store, field: string, value: string, userId: string): Store
  {
    HSet(st, IndexKey(field), map[value := userId])
  }

  /** Lookup through an index: nothing when the index has no entry, or an
      empty one; otherwise the hash of the indexed user. */
  function GetUserByField(st: Store, field: string, value: string): (r: Option<Hash>)
    ensures HGet(st, IndexKey(field), value).None? ==> r.None?
    ensures r.Some? <==> Truthy(HGet(st, IndexKey(field), value))
    ensures r.Some? ==> r.value == GetUser(st, HGet(st, IndexKey(field), value).value)
  {
    var userId := HGet(st, IndexKey(field), value);
    if !Truthy(userId) then None else Some(GetUser(st, userId.value))
  }

  /** The user whose e-mail index entry is `email`, with every field of
      that user's hash. */
  function GetUserByEmail(st: Store, email: string): (r: Option<Hash>)
    ensures r.Some? <==> IndexKey("email") in st.hashes && email in st.hashes[IndexKey("email")]
                         && st.hashes[IndexKey("email")][email] != ""
    ensures r.Some? ==> r.value == HGetAll(st, UserKey(st.hashes[IndexKey("email")][email]))
  {
    GetUserByField(st, "email", email)
  }

  /** The user whose phone index entry is `phone`, with every field of
      that user's hash. */
  function GetUserByPhone(st: Store, phone: string): (r: Option<Hash>)
    ensures r.Some? <==> IndexKey("phone") in st.hashes && phone in st.hashes[IndexKey("phone")]
                         && st.hashes[IndexKey("phone")][phone] != ""
    ensures r.Some? ==> r.value == HGetAll(st, UserKey(st.hashes[IndexKey("phone")][phone]))
  {
    GetUserByField(st, "phone", phone)
  }

  /** The fields `createUser` is given. */
  datatype NewUser = NewUser(id: string, email: string, phoneNumber: string, fullName: string, password: string)

  /** The hash `createUser` writes: the given fields, an unverified flag and
      both time stamps. */
  function NewUserHash(u: NewUser, stamp: string): Hash
  {
    map["id" := u.id, "email" := u.email, "phoneNumber" := u.phoneNumber, "fullName" := u.fullName,
        "password" := u.password, "isVerified" := "false", "createdAt" := stamp, "updatedAt" := stamp]
  }

  /** `createUser`: the user hash and both index entries. The three writes
      touch three different keys, so their order does not matter. */
  function CreateUser(st: Store, u: NewUser, stamp: string): (r: Store)
    ensures r.strings == st.strings
    ensures GetUser(r, u.id) == GetUser(st, u.id) + NewUserHash(u, stamp)
    ensures HGetAll(r, IndexKey("email")) == HGetAll(st, IndexKey("email"))[u.email := u.id]
    ensures HGetAll(r, IndexKey("phone")) == HGetAll(st, IndexKey("phone"))[u.phoneNumber := u.id]
    ensures forall k :: k != UserKey(u.id) && k != IndexKey("email") && k != IndexKey("phone") ==>
      (k in r.hashes <==> k in st.hashes) && (k in r.hashes ==> r.hashes[k] == st.hashes[k])
  {
    CreateUserWrites(st, u, stamp);
    SetIndex(SetIndex(SetUser(st, u.id, NewUserHash(u, stamp)), "email", u.email, u.id), "phone", u.phoneNumber, u.id)
  }

  /** HSET as a single map update of the hash it writes. */
  lemma HSetUpdates(st: Store, key: string, fields: Hash)
    ensures HSet(st, key, fields) == st.(hashes := st.hashes[key := HGetAll(st, key) + fields])
  {
  }

  /** Writing three different keys, one after the other, updates each and
      keeps every other key. */
  lemma ThreeUpdates(h: map<string, Hash>, k1: string, v1: Hash, k2: string, v2: Hash, k3: string, v3: Hash)
    requires k1 != k2 && k1 != k3 && k2 != k3
    ensures var r := h[k1 := v1][k2 := v2][k3 := v3];
      && k1 in r && r[k1] == v1 && k2 in r && r[k2] == v2 && k3 in r && r[k3] == v3
      && forall k :: k != k1 && k != k2 && k != k3 ==> (k in r <==> k in h) && (k in r ==> r[k] == h[k])
  {
  }

  /** Merging a one-field hash sets that field. */
  lemma MergeOne(h: Hash, f: string, v: string)
    ensures h + map[f := v] == h[f := v]
  {
  }

  /** Three HSETs on different keys are one update of those three keys. */
  lemma ThreeHSets(st: Store, k1: string, f1: Hash, k2: string, f2: Hash, k3: string, f3: Hash)
    requires k1 != k2 && k1 != k3 && k2 != k3
    ensures HSet(HSet(HSet(st, k1, f1), k2, f2), k3, f3)
         == st.(hashes := st.hashes[k1 := HGetAll(st, k1) + f1][k2 := HGetAll(st, k2) + f2][k3 := HGetAll(st, k3) + f3])
  {
    HSetUpdates(st, k1, f1);
    HSetUpdates(HSet(st, k1, f1), k2, f2);
    HSetUpdates(HSet(HSet(st, k1, f1), k2, f2), k3, f3);
  }

  /** The three writes of `createUser` as one update of three keys. */
  lemma CreateUserShape(st: Store, u: NewUser, stamp: string)
    ensures SetIndex(SetIndex(SetUser(st, u.id, NewUserHash(u, stamp)), "email", u.email, u.id), "phone", u.phoneNumber, u.id)
         == st.(hashes := st.hashes[UserKey(u.id) := HGetAll(st, UserKey(u.id)) + NewUserHash(u, stamp)]
                                   [IndexKey("email") := HGetAll(st, IndexKey("email"))[u.email := u.id]]
                                   [IndexKey("phone") := HGetAll(st, IndexKey("phone"))[u.phoneNumber := u.id]])
  {
    var ku, ke, kp := UserKey(u.id), IndexKey("email"), IndexKey("phone");
    UserAndIndexKeysDiffer(u.id, "email");
    UserAndIndexKeysDiffer(u.id, "phone");
    assert ke != kp by {
      assert ke[6] != kp[6];
    }
    ThreeHSets(st, ku, NewUserHash(u, stamp), ke, map[u.email := u.id], kp, map[u.phoneNumber := u.id]);
    MergeOne(HGetAll(st, ke), u.email, u.id);
    MergeOne(HGetAll(st, kp), u.phoneNumber, u.id);
  }

  /** What the three writes of `createUser` leave in the store. */
  lemma CreateUserWrites(st: Store, u: NewUser, stamp: string)
    ensures var r := SetIndex(SetIndex(SetUser(st, u.id, NewUserHash(u, stamp)), "email", u.email, u.id), "phone", u.phoneNumber, u.id);
      && r.strings == st.strings
      && GetUser(r, u.id) == GetUser(st, u.id) + NewUserHash(u, stamp)
      && HGetAll(r, IndexKey("email")) == HGetAll(st, IndexKey("email"))[u.email := u.id]
      && HGetAll(r, IndexKey("phone")) == HGetAll(st, IndexKey("phone"))[u.phoneNumber := u.id]
      && forall k :: k != UserKey(u.id) && k != IndexKey("email") && k != IndexKey("phone") ==>
           (k in r.hashes <==> k in st.hashes) && (k in r.hashes ==> r.hashes[k] == st.hashes[k])
  {
    UserAndIndexKeysDiffer(u.id, "email");
    UserAndIndexKeysDiffer(u.id, "phone");
    assert IndexKey("email") != IndexKey("phone") by {
      assert IndexKey("email")[6] != IndexKey("phone")[6];
    }
    CreateUserShape(st, u, stamp);
    ThreeUpdates(st.hashes, UserKey(u.id), HGetAll(st, UserKey(u.id)) + NewUserHash(u, stamp),
                 IndexKey("email"), HGetAll(st, IndexKey("email"))[u.email := u.id],
                 IndexKey("phone"), HGetAll(st, IndexKey("phone"))[u.phoneNumber := u.id]);
  }

  /** A created user is found by email and by phone, unverified, provided
      the id is not empty. */
  lemma CreateUserThenLookup(st: Store, u: NewUser, stamp: string)
    requires u.id != ""
    ensures var st' := CreateUser(st, u, stamp);
      && GetUserByEmail(st', u.email).Some?
      && GetUserByPhone(st', u.phoneNumber).Some?
      && GetUserByEmail(st', u.email) == GetUserByPhone(st', u.phoneNumber)
      && GetUserByEmail(st', u.email).value["isVerified"] == "false"
      && GetUserByEmail(st', u.email).value["id"] == u.id
  {
    var h := NewUserHash(u, stamp);
    var st1 := SetUser(st, u.id, h);
    var st2 := SetIndex(st1, "email", u.email, u.id);
    var st3 := SetIndex(st2, "phone", u.phoneNumber, u.id);
    NewUserHashFields(u, stamp);
    assert IndexKey("email") != IndexKey("phone") by {
      assert IndexKey("email")[6] != IndexKey("phone")[6];
    }
    IndexedAt(st1, "email", u.email, u.id);
    SetIndexKeepsOtherIndex(st2, "phone", "email", u.phoneNumber, u.id, u.email);
    IndexedAt(st2, "phone", u.phoneNumber, u.id);
    SetIndexKeepsUser(st1, "email", u.email, u.id, u.id);
    SetIndexKeepsUser(st2, "phone", u.phoneNumber, u.id, u.id);
  }

  /** The hash `createUser` writes is unverified and carries the id. */
  lemma NewUserHashFields(u: NewUser, stamp: string)
    ensures "isVerified" in NewUserHash(u, stamp) && NewUserHash(u, stamp)["isVerified"] == "false"
    ensures "id" in NewUserHash(u, stamp) && NewUserHash(u, stamp)["id"] == u.id
  {
  }

  /** An index entry reads back right after it is written. */
  lemma IndexedAt(st: Store, field: string, value: string, userId: string)
    ensures HGet(SetIndex(st, field, value, userId), IndexKey(field), value) == Some(userId)
  {
  }

  /** Writing one index leaves every other index as it was. */
  lemma SetIndexKeepsOtherIndex(st: Store, field: string, other: string, value: string, userId: string, v: string)
    requires IndexKey(field) != IndexKey(other)
    ensures HGet(SetIndex(st, field, value, userId), IndexKey(other), v) == HGet(st, IndexKey(other), v)
  {
    assert HGetAll(SetIndex(st, field, value, userId), IndexKey(other)) == HGetAll(st, IndexKey(other));
  }

  /** Writing an index leaves every user hash as it was. */
  lemma SetIndexKeepsUser(st: Store, field: string, value: string, userId: string, id: string)
    ensures GetUser(SetIndex(st, field, value, userId), id) == GetUser(st, id)
  {
    UserAndIndexKeysDiffer(id, field);
  }

  /** `verifyUser`: sets the flag, whatever else the hash holds. */
  function VerifyUser(st: Store, userId: string): (r: Store)
    ensures "isVerified" in GetUser(r, userId) && GetUser(r, userId)["isVerified"] == "true"
    ensures forall f :: f != "isVerified" && f in GetUser(st, userId) ==> f in GetUser(r, userId) && GetUser(r, userId)[f] == GetUser(st, userId)[f]
    ensures forall f :: f in GetUser(r, userId) ==> f == "isVerified" || f in GetUser(st, userId)
    ensures r.strings == st.strings
    ensures forall k :: k != UserKey(userId) ==> (k in r.hashes <==> k in st.hashes) && (k in r.hashes ==> r.hashes[k] == st.hashes[k])
  {
    HSet(st, UserKey(userId), map["isVerified" := "true"])
  }

  /** Verifying twice is verifying once. */
  lemma VerifyUserIdempotent(st: Store, userId: string)
    ensures VerifyUser(VerifyUser(st, userId), userId) == VerifyUser(st, userId)
  {
    var h := GetUser(VerifyUser(st, userId), userId);
    assert h + map["isVerified" := "true"] == h;
  }
}

=== FILE: schema.dfy ===
/** The relational store behind the services, as an immutable value.

    Every table is a sequence of rows in table order; a lookup by a unique
    column (`findUnique`, `findFirst`) is the first row that matches. The
    column sets are those the services read or write. */
module Schema {
  import opened Outcomes
  import Seqs

  type Id = string

  /** `ADMIN` and `USER` are the roles the services name; any other value of
      the database enum is carried as `OtherRole`. */
  datatype Role = USER | ADMIN | OtherRole(name: string)

  datatype VideoStatus = UPLOADING | PROCESSING | PUBLISHED | DELETED

  datatype Visibility = PUBLIC | PRIVATE | UNLISTED

  datatype User = User(
    id: Id,
    email: string,
    phoneNumber: string,
    username: string,
    firstName: string,
    lastName: string,
    password: Option<string>,
    role: Role,
    avatarUrl: Option<string>,
    bio: Option<string>,
    isEmailVerified: bool,
    isPhoneVerified: bool,
    refreshToken: Option<string>,
    createdAt: int)

  datatype Video = Video(
    id: Id,
    title: string,
    description: Option<string>,
    videoUrl: string,
    thumbnail: string,
    duration: int,
    viewsCount: int,
    likesCount: int,
    dislikesCount: int,
    visibility: Visibility,
    authorId: Id,
    status: VideoStatus,
    createdAt: int)

  datatype ReactionKind = LIKE | DISLIKE

  /** One row of the `like` table: a user's reaction to a comment. */
  datatype Reaction = Reaction(id: Id, userId: Id, commentId: Id, kind: ReactionKind)

  datatype Comment = Comment(
    id: Id,
    content: string,
    videoId: Id,
    authorId: Id,
    parentId: Option<Id>,
    likesCount: int,
    dislikesCount: int,
    isPinned: bool)

  /** Keyed by the pair: the table's composite unique key. */
  datatype Subscription = Subscription(subscriberId: Id, channelId: Id)

  datatype Playlist = Playlist(
    id: Id,
    title: string,
    description: Option<string>,
    visibility: Visibility,
    authorId: Id,
    createdAt: int)

  datatype PlaylistEntry = PlaylistEntry(id: Id, playlistId: Id, videoId: Id, position: int)

  /** One row per (user, video): the table's composite unique key. */
  datatype WatchEntry = WatchEntry(userId: Id, videoId: Id, watchTime: int, watchedAt: int)

  /** One row of the `analytics` table per recorded view. */
  datatype ViewRecord = ViewRecord(
    videoId: Id,
    userId: Id,
    watchTime: int,
    quality: string,
    device: string,
    location: Option<string>,
    createdAt: int)

  datatype Db = Db(
    users: seq<User>,
    videos: seq<Video>,
    comments: seq<Comment>,
    reactions: seq<Reaction>,
    subscriptions: set<Subscription>,
    playlists: seq<Playlist>,
    entries: seq<PlaylistEntry>,
    history: seq<WatchEntry>,
    views: seq<ViewRecord>)

  function FindVideo(db: Db, id: Id): Option<nat>
  {
    Seqs.FindIndex(db.videos, (v: Video) => v.id == id)
  }

  /** The store's refusal of a row that names a user, video or comment
      that does not exist (`connect` to a missing record, or a foreign key
      with no target). */
  const MissingRelation: string := "Foreign key constraint violated"

  function FindUser(db: Db, id: Id): Option<nat>
  {
    Seqs.FindIndex(db.users, (u: User) => u.id == id)
  }

  function FindUserByEmail(db: Db, email: string): Option<nat>
  {
    Seqs.FindIndex(db.users, (u: User) => u.email == email)
  }

  function FindUserByPhone(db: Db, phone: string): Option<nat>
  {
    Seqs.FindIndex(db.users, (u: User) => u.phoneNumber == phone)
  }

  function FindUserByUsername(db: Db, username: string): Option<nat>
  {
    Seqs.FindIndex(db.users, (u: User) => u.username == username)
  }

  function FindComment(db: Db, id: Id): Option<nat>
  {
    Seqs.FindIndex(db.comments, (c: Comment) => c.id == id)
  }

  function FindPlaylist(db: Db, id: Id): Option<nat>
  {
    Seqs.FindIndex(db.playlists, (p: Playlist) => p.id == id)
  }

  /** The primary keys of the video table are distinct. */
  predicate UniqueVideoIds(videos: seq<Video>)
  {
    forall i, j :: 0 <= i < j < |videos| ==> videos[i].id != videos[j].id
  }

  /** The sort key of `orderBy: { createdAt: 'desc' }` on users. */
  function JoinedNewest(u: User): int { -u.createdAt }

  predicate UniqueUserIds(users: seq<User>)
  {
    forall i, j :: 0 <= i < j < |users| ==> users[i].id != users[j].id
  }
}

=== FILE: seqs.dfy ===
/** Generic operations on sequences used as database tables: first match,
    filtering, counting, summing and positional removal, with the lemmas
    that relate counts to the edits the services perform. */
module Seqs {
  import opened Outcomes

  /** Index of the first element satisfying `p`, as `findFirst` returns. */
  function FindIndex<T>(s: seq<T>, p: T -> bool): (r: Option<nat>)
    ensures r.Some? ==> r.value < |s| && p(s[r.value])
    ensures r.Some? ==> forall j :: 0 <= j < r.value ==> !p(s[j])
    ensures r.None? ==> forall j :: 0 <= j < |s| ==> !p(s[j])
  {
    if |s| == 0 then None
    else if p(s[0]) then Some(0)
    else match FindIndex(s[1..], p)
      case None => None
      case Some(i) => Some(i + 1)
  }

  /** Index of the last element `p` holds of. */
  function FindLast<T>(s: seq<T>, p: T -> bool): (r: Option<nat>)
    ensures r.Some? ==> r.value < |s| && p(s[r.value])
    ensures r.Some? ==> forall j :: r.value < j < |s| ==> !p(s[j])
    ensures r.None? ==> forall j :: 0 <= j < |s| ==> !p(s[j])
  {
    if |s| == 0 then None
    else if p(s[|s| - 1]) then Some(|s| - 1)
    else FindLast(s[..|s| - 1], p)
  }

  function Filter<T>(s: seq<T>, p: T -> bool): (r: seq<T>)
    ensures |r| <= |s|
    ensures forall x :: x in r ==> x in s && p(x)
    ensures forall x :: x in s && p(x) ==> x in r
  {
    if |s| == 0 then []
    else if p(s[0]) then [s[0]] + Filter(s[1..], p)
    else Filter(s[1..], p)
  }

  function Count<T>(s: seq<T>, p: T -> bool): nat
  {
    if |s| == 0 then 0
    else (if p(s[0]) then 1 else 0) + Count(s[1..], p)
  }

  function Sum<T>(s: seq<T>, f: T -> int): int
  {
    if |s| == 0 then 0 else f(s[0]) + Sum(s[1..], f)
  }

  function RemoveAt<T>(s: seq<T>, i: nat): (r: seq<T>)
    requires i < |s|
    ensures |r| == |s| - 1
    ensures forall j :: 0 <= j < i ==> r[j] == s[j]
    ensures forall j :: i <= j < |r| ==> r[j] == s[j + 1]
  {
    s[..i] + s[i + 1..]
  }

  function Indicator(b: bool): nat { if b then 1 else 0 }

  lemma {:induction false} CountAppend<T>(s: seq<T>, x: T, p: T -> bool)
    ensures Count(s + [x], p) == Count(s, p) + Indicator(p(x))
  {
    if |s| == 0 {
      assert s + [x] == [x];
    } else {
      assert (s + [x])[1..] == s[1..] + [x];
      CountAppend(s[1..], x, p);
    }
  }

  lemma {:induction false} CountConcat<T>(a: seq<T>, b: seq<T>, p: T -> bool)
    ensures Count(a + b, p) == Count(a, p) + Count(b, p)
  {
    if |a| == 0 {
      assert a + b == b;
    } else {
      assert (a + b)[1..] == a[1..] + b;
      CountConcat(a[1..], b, p);
    }
  }

  lemma {:induction false} CountSplitAt<T>(s: seq<T>, i: nat, p: T -> bool)
    requires i < |s|
    ensures Count(s, p) == Count(s[..i], p) + Indicator(p(s[i])) + Count(s[i + 1..], p)
  {
    assert s == s[..i] + ([s[i]] + s[i + 1..]);
    CountConcat(s[..i], [s[i]] + s[i + 1..], p);
    CountConcat([s[i]], s[i + 1..], p);
    assert [s[i]][1..] == [];
  }

  /** Deleting one row lowers a count by exactly that row's contribution. */
  lemma CountRemoveAt<T>(s: seq<T>, i: nat, p: T -> bool)
    requires i < |s|
    ensures Count(RemoveAt(s, i), p) + Indicator(p(s[i])) == Count(s, p)
  {
    CountSplitAt(s, i, p);
    CountConcat(s[..i], s[i + 1..], p);
  }

  /** Rewriting one row in place swaps its contribution for the new row's. */
  lemma CountUpdate<T>(s: seq<T>, i: nat, x: T, p: T -> bool)
    requires i < |s|
    ensures Count(s[i := x], p) + Indicator(p(s[i])) == Count(s, p) + Indicator(p(x))
  {
    CountSplitAt(s, i, p);
    CountSplitAt(s[i := x], i, p);
    assert s[i := x][..i] == s[..i];
    assert s[i := x][i + 1..] == s[i + 1..];
  }

  lemma {:induction false} CountNone<T>(s: seq<T>, p: T -> bool)
    requires forall j :: 0 <= j < |s| ==> !p(s[j])
    ensures Count(s, p) == 0
  {
    if |s| > 0 {
      CountNone(s[1..], p);
    }
  }

  lemma {:induction false} FilterCount<T>(s: seq<T>, p: T -> bool)
    ensures |Filter(s, p)| == Count(s, p)
  {
    if |s| > 0 {
      FilterCount(s[1..], p);
    }
  }

  /** Two predicates that agree on every row count the same rows. */
  lemma {:induction false} CountCongruent<T>(s: seq<T>, p: T -> bool, q: T -> bool)
    requires forall j :: 0 <= j < |s| ==> p(s[j]) == q(s[j])
    ensures Count(s, p) == Count(s, q)
  {
    if |s| > 0 {
      CountCongruent(s[1..], p, q);
    }
  }

  /** Filtering by `p` does not change the count of rows that satisfy `q`
      when every such row satisfies `p`. */
  lemma {:induction false} CountFilterSubsumed<T>(s: seq<T>, p: T -> bool, q: T -> bool)
    requires forall j :: 0 <= j < |s| && q(s[j]) ==> p(s[j])
    ensures Count(Filter(s, p), q) == Count(s, q)
  {
    if |s| > 0 {
      CountFilterSubsumed(s[1..], p, q);
      if p(s[0]) {
        assert Filter(s, p) == [s[0]] + Filter(s[1..], p);
        assert ([s[0]] + Filter(s[1..], p))[1..] == Filter(s[1..], p);
      }
    }
  }

  /** Filtering keeps exactly the rows `p` holds of, counted by any other predicate. */
  lemma {:induction false} CountOfFilter<T>(s: seq<T>, p: T -> bool, q: T -> bool)
    ensures Count(Filter(s, p), q) == Count(s, x => p(x) && q(x))
  {
    if |s| > 0 {
      CountOfFilter(s[1..], p, q);
      if p(s[0]) {
        assert Filter(s, p) == [s[0]] + Filter(s[1..], p);
        assert ([s[0]] + Filter(s[1..], p))[1..] == Filter(s[1..], p);
      }
    }
  }

  lemma {:induction false} SumAppend<T>(s: seq<T>, x: T, f: T -> int)
    ensures Sum(s + [x], f) == Sum(s, f) + f(x)
  {
    if |s| == 0 {
      assert s + [x] == [x];
    } else {
      assert (s + [x])[1..] == s[1..] + [x];
      SumAppend(s[1..], x, f);
    }
  }

  lemma {:induction false} SumNonNegative<T>(s: seq<T>, f: T -> int)
    requires forall j :: 0 <= j < |s| ==> f(s[j]) >= 0
    ensures Sum(s, f) >= 0
  {
    if |s| > 0 {
      SumNonNegative(s[1..], f);
    }
  }

  /** The first match is determined: a matching index with no match before it. */
  lemma {:induction false} FindIndexIs<T>(s: seq<T>, p: T -> bool, k: nat)
    requires k < |s| && p(s[k])
    requires forall j :: 0 <= j < k ==> !p(s[j])
    ensures FindIndex(s, p) == Some(k)
  {
    if k > 0 {
      FindIndexIs(s[1..], p, k - 1);
    }
  }

  lemma {:induction false} FilterConcat<T>(a: seq<T>, b: seq<T>, p: T -> bool)
    ensures Filter(a + b, p) == Filter(a, p) + Filter(b, p)
  {
    if |a| == 0 {
      assert a + b == b;
    } else {
      assert (a + b)[1..] == a[1..] + b;
      FilterConcat(a[1..], b, p);
    }
  }

  /** Filtering twice keeps the elements both predicates hold of. */
  lemma {:induction false} FilterOfFilter<T>(s: seq<T>, p: T -> bool, q: T -> bool, both: T -> bool)
    requires forall x :: both(x) == (p(x) && q(x))
    ensures Filter(Filter(s, p), q) == Filter(s, both)
  {
    if |s| > 0 {
      FilterOfFilter(s[1..], p, q, both);
      if p(s[0]) {
        assert ([s[0]] + Filter(s[1..], p))[1..] == Filter(s[1..], p);
      }
    }
  }

  lemma {:induction false} FilterAll<T>(s: seq<T>, p: T -> bool)
    requires forall j :: 0 <= j < |s| ==> p(s[j])
    ensures Filter(s, p) == s
  {
    if |s| > 0 {
      FilterAll(s[1..], p);
    }
  }

  lemma {:induction false} FilterNone<T>(s: seq<T>, p: T -> bool)
    requires forall j :: 0 <= j < |s| ==> !p(s[j])
    ensures Filter(s, p) == []
  {
    if |s| > 0 {
      FilterNone(s[1..], p);
    }
  }

  lemma {:induction false} FindIndexNone<T>(s: seq<T>, p: T -> bool)
    requires forall j :: 0 <= j < |s| ==> !p(s[j])
    ensures FindIndex(s, p) == None
  {
    if |s| > 0 {
      FindIndexNone(s[1..], p);
    }
  }

  lemma {:induction false} CountAll<T>(s: seq<T>)
    ensures Count(s, (x: T) => true) == |s|
  {
    if |s| > 0 {
      CountAll(s[1..]);
    }
  }

  /** Counting a weaker property counts at least as many rows. */
  lemma {:induction false} CountMonotone<T>(s: seq<T>, p: T -> bool, q: T -> bool)
    requires forall j :: 0 <= j < |s| && p(s[j]) ==> q(s[j])
    ensures Count(s, p) <= Count(s, q)
    decreases |s|
  {
    if |s| > 0 {
      CountMonotone(s[1..], p, q);
    }
  }

  /** Summing a non-negative measure over the rows of a stronger filter
      gives no more than over a weaker one. */
  lemma {:induction false} SumFilterMonotone<T>(s: seq<T>, p: T -> bool, q: T -> bool, f: T -> int)
    requires forall j :: 0 <= j < |s| && p(s[j]) ==> q(s[j])
    requires forall j :: 0 <= j < |s| && q(s[j]) ==> f(s[j]) >= 0
    ensures Sum(Filter(s, p), f) <= Sum(Filter(s, q), f)
    decreases |s|
  {
    if |s| > 0 {
      SumFilterMonotone(s[1..], p, q, f);
      var fp := Filter(s[1..], p);
      var fq := Filter(s[1..], q);
      assert ([s[0]] + fp)[1..] == fp && ([s[0]] + fq)[1..] == fq;
      if p(s[0]) {
        assert Sum(Filter(s, p), f) == f(s[0]) + Sum(fp, f);
        assert Sum(Filter(s, q), f) == f(s[0]) + Sum(fq, f);
      } else if q(s[0]) {
        assert Sum(Filter(s, q), f) == f(s[0]) + Sum(fq, f);
      }
    }
  }

  /** `r` can be obtained from `s` by deleting elements, keeping the order
      of the rest. */
  predicate Subsequence<T(==)>(r: seq<T>, s: seq<T>)
    decreases |s|
  {
    if |r| == 0 then true
    else if |s| == 0 then false
    else if r[0] == s[0] then Subsequence(r[1..], s[1..])
    else Subsequence(r, s[1..])
  }

  /** Filtering keeps the matching elements in their original order. */
  lemma {:induction false} FilterInOrder<T>(s: seq<T>, p: T -> bool)
    ensures Subsequence(Filter(s, p), s)
    ensures |Filter(s, p)| == Count(s, p)
  {
    FilterCount(s, p);
    if |s| > 0 {
      FilterInOrder(s[1..], p);
      var f := Filter(s[1..], p);
      if p(s[0]) {
        assert ([s[0]] + f)[1..] == f;
      } else {
        SubsequenceDropHead(f, s);
      }
    }
  }

  /** A subsequence of the tail is a subsequence of the whole. */
  lemma {:induction false} SubsequenceDropHead<T>(r: seq<T>, s: seq<T>)
    requires |s| > 0 && Subsequence(r, s[1..])
    ensures Subsequence(r, s)
    decreases |s|, 0
  {
    if |r| > 0 && r[0] == s[0] {
      SubsequenceShorter(r, s[1..]);
    }
  }

  /** Dropping the head of a subsequence keeps it a subsequence. */
  lemma {:induction false} SubsequenceShorter<T>(r: seq<T>, s: seq<T>)
    requires |r| > 0 && Subsequence(r, s)
    ensures Subsequence(r[1..], s)
    decreases |s|, 1
  {
    if r[0] != s[0] {
      SubsequenceShorter(r, s[1..]);
      SubsequenceDropHead(r[1..], s);
    } else {
      SubsequenceDropHead(r[1..], s);
    }
  }

  /** A subsequence made of matching elements has at most as many elements
      as there are matches. */
  lemma {:induction false} SubsequenceCount<T>(r: seq<T>, s: seq<T>, p: T -> bool)
    requires Subsequence(r, s)
    requires forall i :: 0 <= i < |r| ==> p(r[i])
    ensures |r| <= Count(s, p)
    decreases |s|
  {
    if |r| > 0 {
      if r[0] == s[0] {
        SubsequenceCount(r[1..], s[1..], p);
      } else {
        SubsequenceCount(r, s[1..], p);
      }
    }
  }

  /** The filter is the only in-order selection of matching elements that
      leaves none out. */
  lemma {:induction false} FilterUnique<T>(r: seq<T>, s: seq<T>, p: T -> bool)
    requires Subsequence(r, s)
    requires forall i :: 0 <= i < |r| ==> p(r[i])
    requires |r| == Count(s, p)
    ensures r == Filter(s, p)
    decreases |s|
  {
    if |s| == 0 {
    } else if |r| == 0 {
      FilterCount(s, p);
    } else if r[0] == s[0] {
      FilterUnique(r[1..], s[1..], p);
      assert r == [s[0]] + r[1..];
    } else {
      if p(s[0]) {
        SubsequenceCount(r, s[1..], p);
        assert false;
      }
      FilterUnique(r, s[1..], p);
    }
  }
}

=== FILE: sorting.dfy ===
/** `orderBy` on one integer column: a stable insertion sort by a key. A
    descending order is the ascending order of the negated key. */
module Sorting {

  predicate SortedBy<T>(s: seq<T>, key: T -> int)
  {
    forall i, j :: 0 <= i < j < |s| ==> key(s[i]) <= key(s[j])
  }

  /** Puts `x` before the first element whose key is not smaller. */
  function Insert<T>(x: T, s: seq<T>, key: T -> int): (r: seq<T>)
    requires SortedBy(s, key)
    ensures |r| == |s| + 1
    ensures SortedBy(r, key)
    ensures multiset(r) == multiset(s) + multiset{x}
    decreases |s|
  {
    if |s| == 0 then [x]
    else if key(x) <= key(s[0]) then [x] + s
    else
      var t := Insert(x, s[1..], key);
      assert s == [s[0]] + s[1..];
      InsertBounded(x, s[1..], t, key, key(s[0]));
      ConsSorted(s[0], t, key);
      [s[0]] + t
  }

  /** A head no larger than any element of a sorted tail keeps it sorted. */
  lemma ConsSorted<T>(h: T, t: seq<T>, key: T -> int)
    requires SortedBy(t, key)
    requires forall k :: 0 <= k < |t| ==> key(h) <= key(t[k])
    ensures SortedBy([h] + t, key)
  {
    var r := [h] + t;
    forall i, j | 0 <= i < j < |r| ensures key(r[i]) <= key(r[j]) {
      assert r[j] == t[j - 1];
      if i > 0 { assert r[i] == t[i - 1]; }
    }
  }

  /** Every element of a permutation of `s` plus `x` is at least `b` when
      every element of `s` and `x` are. */
  lemma InsertBounded<T>(x: T, s: seq<T>, t: seq<T>, key: T -> int, b: int)
    requires multiset(t) == multiset(s) + multiset{x}
    requires b <= key(x) && forall k :: 0 <= k < |s| ==> b <= key(s[k])
    ensures forall k :: 0 <= k < |t| ==> b <= key(t[k])
  {
    forall k | 0 <= k < |t| ensures b <= key(t[k]) {
      assert t[k] in multiset(t);
      if t[k] != x {
        assert t[k] in multiset(s);
      }
    }
  }

  /** The rows ordered by ascending key, ties in their original order. */
  function SortBy<T>(s: seq<T>, key: T -> int): (r: seq<T>)
    ensures |r| == |s|
    ensures SortedBy(r, key)
    ensures multiset(r) == multiset(s)
    decreases |s|
  {
    if |s| == 0 then []
    else
      assert s == [s[0]] + s[1..];
      Insert(s[0], SortBy(s[1..], key), key)
  }

  /** Sorting what is already in order changes nothing: the sort is stable. */
  lemma {:induction false} SortBySorted<T>(s: seq<T>, key: T -> int)
    requires SortedBy(s, key)
    ensures SortBy(s, key) == s
    decreases |s|
  {
    if |s| > 0 {
      assert SortedBy(s[1..], key) by {
        forall i, j | 0 <= i < j < |s[1..]| ensures key(s[1..][i]) <= key(s[1..][j]) {
          assert s[1..][i] == s[i + 1] && s[1..][j] == s[j + 1];
        }
      }
      SortBySorted(s[1..], key);
      if |s| > 1 {
        assert key(s[0]) <= key(s[1..][0]);
      }
      assert [s[0]] + s[1..] == s;
    }
  }

  /** Every element of the sorted rows comes from the rows. */
  lemma SortByMembers<T>(s: seq<T>, key: T -> int)
    ensures forall x :: x in SortBy(s, key) <==> x in s
  {
    var r := SortBy(s, key);
    forall x ensures x in r <==> x in s {
      assert x in r <==> x in multiset(r);
      assert x in s <==> x in multiset(s);
    }
  }
}

=== FILE: text.dfy ===
/** Characters and strings as JavaScript sees them: the character classes
    the services' regular expressions use, prefix and suffix tests,
    `split`/`join` on one separator character, decimal rendering and
    `parseInt` with radix 10. Lowercasing covers ASCII letters only. */
module Text {
  import opened Outcomes
  import Seqs

  predicate IsDigit(c: char) { '0' <= c <= '9' }
  predicate IsLower(c: char) { 'a' <= c <= 'z' }
  predicate IsUpper(c: char) { 'A' <= c <= 'Z' }
  predicate IsLetter(c: char) { IsLower(c) || IsUpper(c) }

  /** The regular-expression class `\s`: WhiteSpace and LineTerminator code points. */
  predicate IsSpace(c: char)
  {
    || c == '\t' || c == '\n' || c == '\U{B}' || c == '\U{C}' || c == '\r' || c == ' '
    || c == '\U{A0}' || c == '\U{1680}' || '\U{2000}' <= c <= '\U{200A}'
    || c == '\U{2028}' || c == '\U{2029}' || c == '\U{202F}' || c == '\U{205F}'
    || c == '\U{3000}' || c == '\U{FEFF}'
  }

  /** The characters a regular-expression `.` does not match. */
  predicate IsLineTerminator(c: char)
  {
    c == '\n' || c == '\r' || c == '\U{2028}' || c == '\U{2029}'
  }

  predicate AllDigits(s: string) { forall i :: 0 <= i < |s| ==> IsDigit(s[i]) }

  function ToLowerChar(c: char): (r: char)
    ensures IsLetter(c) ==> IsLower(r)
    ensures !IsUpper(c) ==> r == c
  {
    if IsUpper(c) then (c as int - 'A' as int + 'a' as int) as char else c
  }

  function ToLower(s: string): (r: string)
    ensures |r| == |s|
    ensures forall i :: 0 <= i < |s| ==> r[i] == ToLowerChar(s[i])
  {
    seq(|s|, i requires 0 <= i < |s| => ToLowerChar(s[i]))
  }

  predicate StartsWith(s: string, prefix: string)
  {
    |prefix| <= |s| && s[..|prefix|] == prefix
  }

  predicate EndsWith(s: string, suffix: string)
  {
    |suffix| <= |s| && s[|s| - |suffix|..] == suffix
  }

  /** `String.prototype.includes`. */
  predicate Contains(s: string, part: string)
  {
    StartsWith(s, part) || (|s| > 0 && Contains(s[1..], part))
  }

  /** `contains` with `mode: 'insensitive'`, over ASCII case. */
  predicate ContainsIgnoringCase(s: string, part: string)
  {
    Contains(ToLower(s), ToLower(part))
  }

  /** Index of the first occurrence of `part`, as `indexOf` finds it. */
  function IndexOf(s: string, part: string): (r: Option<nat>)
    ensures r.Some? ==> r.value + |part| <= |s| && s[r.value..r.value + |part|] == part
    ensures r.None? ==> !StartsWith(s, part)
  {
    if StartsWith(s, part) then Some(0)
    else if |s| == 0 then None
    else match IndexOf(s[1..], part)
      case None => None
      case Some(i) => Some(i + 1)
  }

  /** `s.replace(part, '')` for a pattern without special characters: only the
      first occurrence is removed. */
  function RemoveFirst(s: string, part: string): (r: string)
    ensures IndexOf(s, part).None? ==> r == s
    ensures IndexOf(s, part).Some? ==> |r| == |s| - |part|
  {
    match IndexOf(s, part)
    case None => s
    case Some(i) => s[..i] + s[i + |part|..]
  }

  function IndexOfChar(s: string, c: char): Option<nat>
  {
    Seqs.FindIndex(s, (x: char) => x == c)
  }

  /** Index of the last occurrence of `c`. */
  function LastIndexOfChar(s: string, c: char): (r: Option<nat>)
    ensures r.Some? ==> r.value < |s| && s[r.value] == c
    ensures r.Some? ==> forall j :: r.value < j < |s| ==> s[j] != c
    ensures r.None? ==> forall j :: 0 <= j < |s| ==> s[j] != c
  {
    if |s| == 0 then None
    else if s[|s| - 1] == c then Some(|s| - 1)
    else LastIndexOfChar(s[..|s| - 1], c)
  }

  /** The last `c` of `s` is the one at `k` when none follows it. */
  lemma {:induction false} LastIndexOfCharIs(s: string, c: char, k: nat)
    requires k < |s| && s[k] == c
    requires forall j :: k < j < |s| ==> s[j] != c
    ensures LastIndexOfChar(s, c) == Some(k)
    decreases |s|
  {
    if k < |s| - 1 {
      LastIndexOfCharIs(s[..|s| - 1], c, k);
    }
  }

  /** `s.split(sep)` for a one-character separator: never empty, and no
      part contains the separator. */
  function Split(s: string, sep: char): (parts: seq<string>)
    ensures |parts| >= 1
    ensures forall k :: 0 <= k < |parts| ==> sep !in parts[k]
    decreases |s|
  {
    match IndexOfChar(s, sep)
    case None => [s]
    case Some(i) => [s[..i]] + Split(s[i + 1..], sep)
  }

  /** `parts.join(sep)`. */
  function Join(parts: seq<string>, sep: string): string
  {
    if |parts| == 0 then ""
    else if |parts| == 1 then parts[0]
    else parts[0] + sep + Join(parts[1..], sep)
  }

  /** Splitting and joining again on the same character gives back the string. */
  lemma {:induction false} JoinSplit(s: string, sep: char)
    ensures Join(Split(s, sep), [sep]) == s
    decreases |s|
  {
    match IndexOfChar(s, sep)
    case None =>
    case Some(i) =>
      var rest := Split(s[i + 1..], sep);
      JoinSplit(s[i + 1..], sep);
      assert Split(s, sep) == [s[..i]] + rest;
      assert ([s[..i]] + rest)[1..] == rest;
      assert s == s[..i] + [sep] + s[i + 1..];
  }

  function DigitChar(d: nat): (c: char)
    requires d < 10
    ensures IsDigit(c)
  {
    ('0' as int + d) as char
  }

  function DigitValue(c: char): (d: nat)
    requires IsDigit(c)
    ensures d < 10
  {
    c as int - '0' as int
  }

  /** The number a string of decimal digits denotes; the empty string gives 0,
      as `Number('')` does. */
  function DecimalValue(ds: string): nat
    requires AllDigits(ds)
  {
    if |ds| == 0 then 0
    else DecimalValue(ds[..|ds| - 1]) * 10 + DigitValue(ds[|ds| - 1])
  }

  /** Decimal rendering of a natural number, as template literals print it. */
  function NatToString(n: nat): (s: string)
    ensures |s| >= 1 && AllDigits(s)
  {
    if n < 10 then [DigitChar(n)] else NatToString(n / 10) + [DigitChar(n % 10)]
  }

  function IntToString(i: int): string
  {
    if i < 0 then "-" + NatToString(-i) else NatToString(i)
  }

  lemma {:induction false} DecimalOfNatToString(n: nat)
    ensures DecimalValue(NatToString(n)) == n
  {
    if n >= 10 {
      var s := NatToString(n);
      assert s[..|s| - 1] == NatToString(n / 10);
      DecimalOfNatToString(n / 10);
    }
  }

  function Pow10(k: nat): nat
  {
    if k == 0 then 1 else 10 * Pow10(k - 1)
  }

  /** Digit strings concatenate to a digit string. */
  lemma AllDigitsConcat(a: string, b: string)
    requires AllDigits(a) && AllDigits(b)
    ensures AllDigits(a + b)
  {
    forall i | 0 <= i < |a + b| ensures IsDigit((a + b)[i]) {
      if i < |a| { assert (a + b)[i] == a[i]; } else { assert (a + b)[i] == b[i - |a|]; }
    }
  }

  /** The value of concatenated digit strings shifts the first by the second's length. */
  lemma {:induction false} DecimalValueConcat(a: string, b: string)
    requires AllDigits(a) && AllDigits(b)
    ensures AllDigits(a + b)
    ensures DecimalValue(a + b) == DecimalValue(a) * Pow10(|b|) + DecimalValue(b)
    decreases |b|
  {
    AllDigitsConcat(a, b);
    if |b| == 0 {
      assert a + b == a;
    } else {
      var b' := b[..|b| - 1];
      var d := DigitValue(b[|b| - 1]);
      assert (a + b)[..|a + b| - 1] == a + b';
      assert (a + b)[|a + b| - 1] == b[|b| - 1];
      DecimalValueConcat(a, b');
      var x, p := DecimalValue(a), Pow10(|b'|);
      assert DecimalValue(a + b) == (x * p + DecimalValue(b')) * 10 + d;
      assert DecimalValue(b) == DecimalValue(b') * 10 + d;
      assert (x * p + DecimalValue(b')) * 10 == x * (10 * p) + DecimalValue(b') * 10;
    }
  }

  /** `parseInt(s, 10)`: leading `\s` is skipped, one sign is read, then the
      longest run of digits; no digits gives NaN, modelled as `None`. */
  function ParseInt(s: string): (r: Option<int>)
    ensures AllDigits(s) && |s| > 0 ==> r == Some(DecimalValue(s))
  {
    var t := TrimStart(s);
    var negative := |t| > 0 && t[0] == '-';
    var body := if |t| > 0 && (t[0] == '-' || t[0] == '+') then t[1..] else t;
    var digits := DigitPrefix(body);
    var magnitude: int := if |digits| == 0 then 0 else DecimalValue(digits);
    if |digits| == 0 then None
    else Some(if negative then -magnitude else magnitude)
  }

  /** Drops the leading white space. */
  function TrimStart(s: string): (r: string)
    ensures |r| <= |s| && r == s[|s| - |r|..]
    ensures |r| == 0 || !IsSpace(r[0])
    ensures forall j :: 0 <= j < |s| - |r| ==> IsSpace(s[j])
  {
    if |s| > 0 && IsSpace(s[0]) then TrimStart(s[1..]) else s
  }

  /** Drops the trailing white space. */
  function TrimEnd(s: string): (r: string)
    ensures |r| <= |s| && r == s[..|r|]
    ensures |r| == 0 || !IsSpace(r[|r| - 1])
    ensures forall j :: |r| <= j < |s| ==> IsSpace(s[j])
  {
    if |s| > 0 && IsSpace(s[|s| - 1]) then TrimEnd(s[..|s| - 1]) else s
  }

  /** `String.prototype.trim`: empty exactly for an all-blank string, and
      the identity on a string with no white space at either end. */
  function Trim(s: string): (r: string)
    ensures r == "" <==> forall j :: 0 <= j < |s| ==> IsSpace(s[j])
    ensures |s| > 0 && !IsSpace(s[0]) && !IsSpace(s[|s| - 1]) ==> r == s
  {
    TrimBlank(s);
    TrimEnd(TrimStart(s))
  }

  /** `r` is the part of `s` starting at `a` that has only blanks before
      and after it and, when not empty, starts and ends on a non-blank. */
  predicate RunBetweenBlanks(s: string, a: int, r: string)
  {
    && 0 <= a && a + |r| <= |s| && r == s[a..a + |r|]
    && (forall j :: 0 <= j < a ==> IsSpace(s[j]))
    && (forall j :: a + |r| <= j < |s| ==> IsSpace(s[j]))
    && (r != "" ==> !IsSpace(r[0]) && !IsSpace(r[|r| - 1]))
  }

  /** Trimming keeps the run from the first to the last non-blank character:
      everything before and after it is blank, and it starts and ends on a
      non-blank character. */
  lemma TrimSlice(s: string, t: string, r: string)
    requires t == TrimStart(s) && r == Trim(s)
    ensures RunBetweenBlanks(s, |s| - |t|, r)
    ensures |t| >= |r| && r == s[|s| - |t|..|s| - |t| + |r|]
    ensures forall j :: 0 <= j < |s| - |t| ==> IsSpace(s[j])
    ensures forall j :: |s| - |t| + |r| <= j < |s| ==> IsSpace(s[j])
    ensures r != "" ==> !IsSpace(r[0]) && !IsSpace(r[|r| - 1])
  {
    assert r == TrimEnd(t);
    TrimIsEndOfStart(s, t, r);
    TrimmedRun(s, t, r);
  }

  /** The facts the two trims establish, as plain requirements of `TrimmedRun`. */
  lemma TrimIsEndOfStart(s: string, t: string, r: string)
    requires t == TrimStart(s) && r == TrimEnd(t)
    ensures |t| <= |s| && t == s[|s| - |t|..] && (|t| == 0 || !IsSpace(t[0]))
    ensures forall j :: 0 <= j < |s| - |t| ==> IsSpace(s[j])
    ensures |r| <= |t| && r == t[..|r|] && (|r| == 0 || !IsSpace(r[|r| - 1]))
    ensures forall j :: |r| <= j < |t| ==> IsSpace(t[j])
  {
  }

  /** A blank-free-ended prefix `r` of a blank-free-started suffix `t` of `s`
      is the run between the blank ends of `s`. */
  lemma TrimmedRun(s: string, t: string, r: string)
    requires |t| <= |s| && t == s[|s| - |t|..] && (|t| == 0 || !IsSpace(t[0]))
    requires forall j :: 0 <= j < |s| - |t| ==> IsSpace(s[j])
    requires |r| <= |t| && r == t[..|r|] && (|r| == 0 || !IsSpace(r[|r| - 1]))
    requires forall j :: |r| <= j < |t| ==> IsSpace(t[j])
    ensures |t| >= |r| && r == s[|s| - |t|..|s| - |t| + |r|]
    ensures forall j :: |s| - |t| + |r| <= j < |s| ==> IsSpace(s[j])
    ensures r != "" ==> !IsSpace(r[0]) && !IsSpace(r[|r| - 1])
  {
    SliceOfSuffix(s, t, r);
    BlankAfterSlice(s, t, r);
    if r != "" {
      assert r[0] == t[0];
    }
  }

  /** A prefix of a suffix is a slice. */
  lemma SliceOfSuffix(s: string, t: string, r: string)
    requires |t| <= |s| && t == s[|s| - |t|..]
    requires |r| <= |t| && r == t[..|r|]
    ensures var a := |s| - |t|; a + |r| <= |s| && r == s[a..a + |r|]
  {
  }

  /** What the trailing trim drops from a suffix is blank in the whole. */
  lemma BlankAfterSlice(s: string, t: string, r: string)
    requires |t| <= |s| && t == s[|s| - |t|..] && |r| <= |t|
    requires forall j :: |r| <= j < |t| ==> IsSpace(t[j])
    ensures forall j :: |s| - |t| + |r| <= j < |s| ==> IsSpace(s[j])
  {
    var a := |s| - |t|;
    forall j | a + |r| <= j < |s| ensures IsSpace(s[j]) {
      assert s[j] == t[j - a];
    }
  }

  /** Trimming leaves nothing exactly when every character is blank. */
  lemma TrimBlank(s: string)
    ensures TrimEnd(TrimStart(s)) == "" <==> forall j :: 0 <= j < |s| ==> IsSpace(s[j])
  {
    var t := TrimStart(s);
    if t != "" {
      var r := TrimEnd(t);
      assert !IsSpace(t[0]);
      assert r != "";
      assert s[|s| - |t|] == t[0];
    }
  }

  /** `if (s)` on an optional string: absent and empty are falsy. */
  predicate Truthy(s: Option<string>)
  {
    s.Some? && s.value != ""
  }

  /** The longest prefix of `s` made of digits. */
  function DigitPrefix(s: string): (r: string)
    ensures AllDigits(r) && |r| <= |s| && r == s[..|r|]
    ensures |r| < |s| ==> !IsDigit(s[|r|])
    ensures AllDigits(s) ==> r == s
  {
    if |s| > 0 && IsDigit(s[0]) then [s[0]] + DigitPrefix(s[1..]) else []
  }
}

=== FILE: users.dfy ===
/** The user service: the paged and searchable user list, lookup by id,
    the partial profile update, the role change and the watch history.

    A user's `subscribers` are the subscriptions to the user's channel and
    `subscriptions` those the user holds. */
module Users {
  import opened Outcomes
  import opened Text
  import opened Schema
  import Seqs
  import Paging
  import Sorting

  /** The `_count` a query includes; either count may be missing. */
  datatype UserCount = UserCount(subscribers: Option<nat>, subscriptions: Option<nat>)

  datatype UserResponse = UserResponse(
    id: Id,
    username: string,
    firstName: string,
    lastName: string,
    email: string,
    role: Role,
    avatarUrl: Option<string>,
    isEmailVerified: bool,
    isPhoneVerified: bool,
    createdAt: int,
    subscribersCount: nat,
    subscriptionsCount: nat)

  /** `x || 0` on an optional count. */
  function CountOrZero(n: Option<nat>): nat { if n.Some? then n.value else 0 }

  /** `mapToUserResponse`: the user's columns with the two counts, each 0
      when the query did not supply it. */
  function ToResponse(u: User, count: Option<UserCount>): (r: UserResponse)
    ensures r.id == u.id && r.email == u.email && r.username == u.username && r.role == u.role
    ensures r.avatarUrl == u.avatarUrl && r.createdAt == u.createdAt
    ensures r.firstName == u.firstName && r.lastName == u.lastName
    ensures r.isEmailVerified == u.isEmailVerified && r.isPhoneVerified == u.isPhoneVerified
    ensures count.None? ==> r.subscribersCount == 0 && r.subscriptionsCount == 0
    ensures count.Some? ==>
      && r.subscribersCount == CountOrZero(count.value.subscribers)
      && r.subscriptionsCount == CountOrZero(count.value.subscriptions)
  {
    var subscribers := if count.Some? then CountOrZero(count.value.subscribers) else 0;
    var subscriptions := if count.Some? then CountOrZero(count.value.subscriptions) else 0;
    UserResponse(u.id, u.username, u.firstName, u.lastName, u.email, u.role, u.avatarUrl,
                 u.isEmailVerified, u.isPhoneVerified, u.createdAt, subscribers, subscriptions)
  }

  /** A missing count reads as 0 and a present one as itself. */
  lemma CountsDefaultToZero(u: User, n: nat, m: nat)
    ensures ToResponse(u, None).subscribersCount == 0 && ToResponse(u, None).subscriptionsCount == 0
    ensures ToResponse(u, Some(UserCount(None, None))).subscribersCount == 0
    ensures ToResponse(u, Some(UserCount(Some(n), Some(m)))).subscribersCount == n
    ensures ToResponse(u, Some(UserCount(Some(n), Some(m)))).subscriptionsCount == m
  {
  }

  /** The counts the `include` computes from the subscription table. */
  function CountsOf(db: Db, id: Id): UserCount
  {
    UserCount(Some(|set s | s in db.subscriptions && s.channelId == id|),
              Some(|set s | s in db.subscriptions && s.subscriberId == id|))
  }

  function Respond(db: Db, u: User): UserResponse
  {
    ToResponse(u, Some(CountsOf(db, u.id)))
  }

  /** The `where` clause of `findAll`: a non-empty search matches the
      username, either name or the email, ignoring case. */
  predicate MatchesSearch(u: User, search: Option<string>)
  {
    Truthy(search) ==>
      || ContainsIgnoringCase(u.username, search.value)
      || ContainsIgnoringCase(u.firstName, search.value)
      || ContainsIgnoringCase(u.lastName, search.value)
      || ContainsIgnoringCase(u.email, search.value)
  }

  datatype UserList = UserList(items: seq<UserResponse>, total: nat, page: int, limit: nat, hasMore: bool)

  /** The users a search matches, newest first. */
  function SearchedUsers(db: Db, search: Option<string>): (rows: seq<User>)
    ensures |rows| == Seqs.Count(db.users, (u: User) => MatchesSearch(u, search))
    ensures Sorting.SortedBy(rows, JoinedNewest)
    ensures forall u :: u in rows <==> u in db.users && MatchesSearch(u, search)
  {
    var matching := (u: User) => MatchesSearch(u, search);
    Seqs.FilterCount(db.users, matching);
    Sorting.SortByMembers(Seqs.Filter(db.users, matching), JoinedNewest);
    Sorting.SortBy(Seqs.Filter(db.users, matching), JoinedNewest)
  }

  function Responses(db: Db, users: seq<User>): (r: seq<UserResponse>)
    ensures |r| == |users| && forall k :: 0 <= k < |users| ==> r[k] == Respond(db, users[k])
  {
    seq(|users|, k requires 0 <= k < |users| => Respond(db, users[k]))
  }

  /** The response of a user the search matches. */
  predicate Listed(db: Db, search: Option<string>, x: UserResponse)
  {
    exists u :: u in db.users && MatchesSearch(u, search) && x == Respond(db, u)
  }

  lemma ResponsesListed(db: Db, search: Option<string>, rows: seq<User>, items: seq<User>)
    requires forall u :: u in rows <==> u in db.users && MatchesSearch(u, search)
    requires forall k :: 0 <= k < |items| ==> items[k] in rows
    ensures forall k :: 0 <= k < |items| ==> Listed(db, search, Responses(db, items)[k])
  {
    forall k | 0 <= k < |items| ensures Listed(db, search, Responses(db, items)[k]) {
      assert items[k] in db.users && MatchesSearch(items[k], search);
    }
  }

  lemma ResponsesNewestFirst(db: Db, items: seq<User>)
    requires Sorting.SortedBy(items, JoinedNewest)
    ensures forall a, b :: 0 <= a < b < |items| ==> Responses(db, items)[a].createdAt >= Responses(db, items)[b].createdAt
  {
    forall a, b | 0 <= a < b < |items| ensures Responses(db, items)[a].createdAt >= Responses(db, items)[b].createdAt {
      assert JoinedNewest(items[a]) <= JoinedNewest(items[b]);
    }
  }

  /** `findAll`. */
  function FindAll(db: Db, page: int, limit: nat, search: Option<string>): (r: Result<UserList>)
    ensures r.Err? <==> page < 1 && limit > 0
    ensures r.Ok? ==> r.value.total == Seqs.Count(db.users, (u: User) => MatchesSearch(u, search))
    ensures r.Ok? ==>
      var rows := SearchedUsers(db, search);
      var skip := Paging.Skip(page, limit);
      && skip >= 0 && |r.value.items| == Paging.PageLength(|rows|, skip, limit)
      && forall k :: 0 <= k < |r.value.items| ==> r.value.items[k] == Respond(db, rows[skip + k])
    ensures r.Ok? ==> |r.value.items| <= limit
    ensures r.Ok? ==> (r.value.hasMore <==> Paging.Skip(page, limit) + limit < r.value.total)
    ensures r.Ok? ==> forall k :: 0 <= k < |r.value.items| ==> Listed(db, search, r.value.items[k])
    ensures r.Ok? ==> forall a, b :: 0 <= a < b < |r.value.items| ==> r.value.items[a].createdAt >= r.value.items[b].createdAt
  {
    var rows := SearchedUsers(db, search);
    match Paging.PageItems(rows, page, limit)
    case Err(e) => Err(e)
    case Ok(items) =>
      Paging.PageOfSorted(rows, page, limit, JoinedNewest);
      Paging.HasMoreIffRowsRemain(rows, Paging.Skip(page, limit), limit);
      ResponsesListed(db, search, rows, items);
      ResponsesNewestFirst(db, items);
      Ok(UserList(Responses(db, items), |rows|, page, limit, Paging.HasMore(Paging.Skip(page, limit), |items|, |rows|)))
  }

  /** Every user the search matches is on some page: the `i`-th newest on
      page `i / limit + 1`. */
  lemma FindAllListsEveryMatch(db: Db, search: Option<string>, limit: nat, i: nat)
    requires limit > 0 && i < |SearchedUsers(db, search)|
    ensures var page := i / limit + 1;
      var out := FindAll(db, page, limit, search);
      out.Ok? && i % limit < |out.value.items| && out.value.items[i % limit] == Respond(db, SearchedUsers(db, search)[i])
  {
    Paging.RowOnItsPage(SearchedUsers(db, search), limit, i);
  }

  /** Without a search every user is counted. */
  lemma NoSearchCountsEveryone(db: Db, page: int, limit: nat)
    requires FindAll(db, page, limit, None).Ok?
    ensures FindAll(db, page, limit, None).value.total == |db.users|
  {
    Seqs.CountCongruent(db.users, (u: User) => MatchesSearch(u, None), (u: User) => true);
    Seqs.CountAll(db.users);
  }

  /** `findById`. */
  function FindById(db: Db, id: Id): (r: Result<UserResponse>)
    ensures r.Err? <==> FindUser(db, id).None?
    ensures r.Err? ==> r.error == NotFound("User not found")
    ensures r.Ok? ==> r.value.id == id && r.value == Respond(db, db.users[FindUser(db, id).value])
  {
    match FindUser(db, id)
    case None => Err(NotFound("User not found"))
    case Some(i) => Ok(Respond(db, db.users[i]))
  }

  /** The profile fields a caller may send; absent ones are left alone. The
      request's `bio` is accepted but never written. */
  datatype UpdateRequest = UpdateRequest(username: Option<string>, email: Option<string>, avatar: Option<string>, bio: Option<string>)

  /** The update refuses a new email another user already holds. */
  predicate EmailConflict(u: User, db: Db, d: UpdateRequest)
  {
    d.email.Some? && d.email.value != u.email && FindUserByEmail(db, d.email.value).Some?
  }

  /** Another row than `i` already holds the username: the unique index
      refuses the write. */
  predicate UsernameTakenByOther(db: Db, i: nat, username: string)
  {
    exists j :: 0 <= j < |db.users| && j != i && db.users[j].username == username
  }

  /** The row with the provided fields written. */
  function Patched(u: User, d: UpdateRequest): (v: User)
    ensures v.email == (if d.email.Some? then d.email.value else u.email)
    ensures v.username == (if d.username.Some? then d.username.value else u.username)
    ensures v.avatarUrl == (if d.avatar.Some? then d.avatar else u.avatarUrl)
    ensures v.(email := u.email, username := u.username, avatarUrl := u.avatarUrl) == u
  {
    var u1 := if d.email.Some? then u.(email := d.email.value) else u;
    var u2 := if d.username.Some? then u1.(username := d.username.value) else u1;
    if d.avatar.Some? then u2.(avatarUrl := d.avatar) else u2
  }

  /** `updateUser`. */
  function UpdateUser(db: Db, id: Id, d: UpdateRequest): (r: Result<(UserResponse, Db)>)
    ensures FindUser(db, id).None? ==> r == Err(NotFound("User not found"))
    ensures FindUser(db, id).Some? ==>
      var i := FindUser(db, id).value;
      (r.Err? && r.error.Conflict? <==> EmailConflict(db.users[i], db, d))
    ensures r.Err? && r.error.Conflict? ==> r.error == Conflict("Email already in use")
    ensures FindUser(db, id).Some? && !EmailConflict(db.users[FindUser(db, id).value], db, d) ==>
      && (r.Err? <==> d.username.Some? && UsernameTakenByOther(db, FindUser(db, id).value, d.username.value))
      && (r.Err? ==> r.error == Internal("Unique constraint failed on the fields: (`username`)"))
    ensures r.Err? ==> r.error.NotFound? || r.error.Conflict? || r.error.Internal?
    ensures r.Ok? ==> FindUser(db, id).Some? && |r.value.1.users| == |db.users|
    ensures r.Ok? ==>
      var i := FindUser(db, id).value;
      && r.value.1.users == db.users[i := Patched(db.users[i], d)]
      && r.value.1.(users := db.users) == db
      && r.value.0 == Respond(r.value.1, r.value.1.users[i])
  {
    match FindUser(db, id)
    case None => Err(NotFound("User not found"))
    case Some(i) =>
      var u := db.users[i];
      if EmailConflict(u, db, d) then Err(Conflict("Email already in use"))
      else if d.username.Some? && UsernameTakenByOther(db, i, d.username.value) then
        Err(Internal("Unique constraint failed on the fields: (`username`)"))
      else
        var db' := db.(users := db.users[i := Patched(u, d)]);
        Ok((Respond(db', db'.users[i]), db'))
  }

  /** Keeping one's own email never conflicts, whoever else holds it. */
  lemma OwnEmailNeverConflicts(db: Db, id: Id, d: UpdateRequest)
    requires FindUser(db, id).Some?
    requires d.email == Some(db.users[FindUser(db, id).value].email)
    ensures UpdateUser(db, id, d).Err? ==> !UpdateUser(db, id, d).error.Conflict?
  {
  }

  /** A request that carries only a bio changes no row: the bio is not
      written. */
  lemma BioIsNotWritten(db: Db, id: Id, bio: string)
    requires FindUser(db, id).Some?
    ensures UpdateUser(db, id, UpdateRequest(None, None, None, Some(bio))).Ok?
    ensures UpdateUser(db, id, UpdateRequest(None, None, None, Some(bio))).value.1 == db
  {
    var i := FindUser(db, id).value;
    assert db.users[i := db.users[i]] == db.users;
  }

  /** Sending the same update twice leaves the store as the first did. */
  lemma {:induction false} UpdateTwice(db: Db, id: Id, d: UpdateRequest)
    requires UpdateUser(db, id, d).Ok?
    ensures var db1 := UpdateUser(db, id, d).value.1;
      UpdateUser(db1, id, d).Ok? && UpdateUser(db1, id, d).value.1 == db1
  {
    var i := FindUser(db, id).value;
    var db1 := UpdateUser(db, id, d).value.1;
    var u1 := db1.users[i];
    forall j | 0 <= j < i ensures db1.users[j].id != id {
      assert db1.users[j] == db.users[j];
    }
    Seqs.FindIndexIs(db1.users, (u: User) => u.id == id, i);
    assert !EmailConflict(u1, db1, d);
    if d.username.Some? {
      assert !UsernameTakenByOther(db1, i, d.username.value) by {
        forall j | 0 <= j < |db1.users| && j != i ensures db1.users[j].username != d.username.value {
          assert db1.users[j] == db.users[j];
        }
      }
    }
    assert Patched(u1, d) == u1;
    assert db1.users[i := u1] == db1.users;
  }

  /** `updateUserRole`: only an administrator may change a role. */
  function UpdateUserRole(db: Db, userId: Id, role: Role, currentRole: Role): (r: Result<(UserResponse, Db)>)
    ensures currentRole != ADMIN ==> r == Err(BadRequest("Insufficient permissions"))
    ensures currentRole == ADMIN ==> (r.Err? <==> FindUser(db, userId).None?)
    ensures currentRole == ADMIN && r.Err? ==> r.error == NotFound("User not found")
    ensures r.Ok? ==> FindUser(db, userId).Some? && |r.value.1.users| == |db.users|
    ensures r.Ok? ==>
      var i := FindUser(db, userId).value;
      && r.value.1.users[i] == db.users[i].(role := role)
      && (forall k :: 0 <= k < |db.users| && k != i ==> r.value.1.users[k] == db.users[k])
      && r.value.1.(users := db.users) == db
      && r.value.0.role == role && r.value.0.id == userId
  {
    if currentRole != ADMIN then Err(BadRequest("Insufficient permissions"))
    else match FindUser(db, userId)
      case None => Err(NotFound("User not found"))
      case Some(i) =>
        var db' := db.(users := db.users[i := db.users[i].(role := role)]);
        Ok((Respond(db', db'.users[i]), db'))
  }

  /** After a role change the user is found with the new role. */
  lemma RoleChangeIsSeen(db: Db, userId: Id, role: Role)
    requires UpdateUserRole(db, userId, role, ADMIN).Ok?
    ensures var db' := UpdateUserRole(db, userId, role, ADMIN).value.1;
      FindById(db', userId).Ok? && FindById(db', userId).value.role == role
  {
    var i := FindUser(db, userId).value;
    var db' := UpdateUserRole(db, userId, role, ADMIN).value.1;
    Seqs.FindIndexIs(db'.users, (u: User) => u.id == userId, i);
  }

  /** The video columns a history item carries. */
  datatype VideoBrief = VideoBrief(id: Id, title: string, thumbnail: string, duration: int)

  datatype HistoryItem = HistoryItem(entry: WatchEntry, video: Option<VideoBrief>)

  datatype HistoryPage = HistoryPage(items: seq<HistoryItem>, total: nat, page: int, limit: nat, hasMore: bool)

  function WatchedNewest(e: WatchEntry): int { -e.watchedAt }

  function Brief(db: Db, e: WatchEntry): Option<VideoBrief>
  {
    match FindVideo(db, e.videoId)
    case None => None
    case Some(i) => var v := db.videos[i]; Some(VideoBrief(v.id, v.title, v.thumbnail, v.duration))
  }

  function HistoryItems(db: Db, entries: seq<WatchEntry>): (r: seq<HistoryItem>)
    ensures |r| == |entries| && forall k :: 0 <= k < |entries| ==> r[k] == HistoryItem(entries[k], Brief(db, entries[k]))
  {
    seq(|entries|, k requires 0 <= k < |entries| => HistoryItem(entries[k], Brief(db, entries[k])))
  }

  /** The user's history rows, most recently watched first. */
  function HistoryOf(db: Db, userId: Id): (rows: seq<WatchEntry>)
    ensures |rows| == Seqs.Count(db.history, (e: WatchEntry) => e.userId == userId)
    ensures Sorting.SortedBy(rows, WatchedNewest)
    ensures forall e :: e in rows <==> e in db.history && e.userId == userId
  {
    var mine := (e: WatchEntry) => e.userId == userId;
    Seqs.FilterCount(db.history, mine);
    Sorting.SortByMembers(Seqs.Filter(db.history, mine), WatchedNewest);
    Sorting.SortBy(Seqs.Filter(db.history, mine), WatchedNewest)
  }

  /** `getWatchHistory`. */
  function GetWatchHistory(db: Db, userId: Id, limit: nat, page: int): (r: Result<HistoryPage>)
    ensures r.Err? <==> page < 1 && limit > 0
    ensures r.Ok? ==> r.value.total == Seqs.Count(db.history, (e: WatchEntry) => e.userId == userId)
    ensures r.Ok? ==>
      var rows := HistoryOf(db, userId);
      var skip := Paging.Skip(page, limit);
      && skip >= 0 && |r.value.items| == Paging.PageLength(|rows|, skip, limit)
      && forall k :: 0 <= k < |r.value.items| ==> r.value.items[k] == HistoryItem(rows[skip + k], Brief(db, rows[skip + k]))
    ensures r.Ok? ==> |r.value.items| <= limit
    ensures r.Ok? ==> (r.value.hasMore <==> Paging.Skip(page, limit) + limit < r.value.total)
    ensures r.Ok? ==> forall k :: 0 <= k < |r.value.items| ==>
      r.value.items[k].entry in db.history && r.value.items[k].entry.userId == userId
    ensures r.Ok? ==> forall a, b :: 0 <= a < b < |r.value.items| ==>
      r.value.items[a].entry.watchedAt >= r.value.items[b].entry.watchedAt
  {
    var rows := HistoryOf(db, userId);
    match Paging.PageItems(rows, page, limit)
    case Err(e) => Err(e)
    case Ok(entries) =>
      HistoryPageRows(db, userId, page, limit);
      Paging.HasMoreIffRowsRemain(rows, Paging.Skip(page, limit), limit);
      Ok(HistoryPage(HistoryItems(db, entries), |rows|, page, limit, Paging.HasMore(Paging.Skip(page, limit), |entries|, |rows|)))
  }

  /** A page of the user's history holds only the user's rows, most
      recently watched first. */
  lemma HistoryPageRows(db: Db, userId: Id, page: int, limit: nat)
    requires Paging.PageItems(HistoryOf(db, userId), page, limit).Ok?
    ensures var entries := Paging.PageItems(HistoryOf(db, userId), page, limit).value;
      && (forall k :: 0 <= k < |entries| ==> entries[k] in db.history && entries[k].userId == userId)
      && (forall a, b :: 0 <= a < b < |entries| ==> entries[a].watchedAt >= entries[b].watchedAt)
  {
    var rows := HistoryOf(db, userId);
    Paging.PageOfSorted(rows, page, limit, WatchedNewest);
    var entries := Paging.PageItems(rows, page, limit).value;
    forall a, b | 0 <= a < b < |entries| ensures entries[a].watchedAt >= entries[b].watchedAt {
      assert WatchedNewest(entries[a]) <= WatchedNewest(entries[b]);
    }
  }

  /** Every history row of the user is on some page: the `i`-th most
      recent on page `i / limit + 1`. */
  lemma HistoryListsEveryEntry(db: Db, userId: Id, limit: nat, i: nat)
    requires limit > 0 && i < |HistoryOf(db, userId)|
    ensures var page := i / limit + 1;
      var out := GetWatchHistory(db, userId, limit, page);
      out.Ok? && i % limit < |out.value.items| && out.value.items[i % limit].entry == HistoryOf(db, userId)[i]
  {
    Paging.RowOnItsPage(HistoryOf(db, userId), limit, i);
  }

  /** `clearWatchHistory`: every row of the user goes, every other row
      stays in order. */
  function ClearWatchHistory(db: Db, userId: Id): (db': Db)
    ensures forall e :: e in db'.history <==> e in db.history && e.userId != userId
    ensures db'.(history := db.history) == db
    ensures Seqs.Subsequence(db'.history, db.history)
    ensures |db'.history| == Seqs.Count(db.history, (e: WatchEntry) => e.userId != userId)
  {
    Seqs.FilterInOrder(db.history, (e: WatchEntry) => e.userId != userId);
    db.(history := Seqs.Filter(db.history, (e: WatchEntry) => e.userId != userId))
  }

  /** After clearing, the user's history is empty on every page. */
  lemma ClearedHistoryIsEmpty(db: Db, userId: Id, limit: nat, page: int)
    requires GetWatchHistory(ClearWatchHistory(db, userId), userId, limit, page).Ok?
    ensures GetWatchHistory(ClearWatchHistory(db, userId), userId, limit, page).value.total == 0
    ensures GetWatchHistory(ClearWatchHistory(db, userId), userId, limit, page).value.items == []
  {
    var h := ClearWatchHistory(db, userId).history;
    forall k | 0 <= k < |h| ensures h[k].userId != userId {
      assert h[k] in h;
    }
    Seqs.CountNone(h, (e: WatchEntry) => e.userId == userId);
  }
}

=== FILE: video_routes.dfy ===
/** The gates the video controller puts in front of the service: upload
    admission (extension allow-list, stored file name, size cap, missing
    file or user), the Range requirement of the stream endpoint, and the
    status code of the watch endpoint. */
module VideoRoutes {
  import opened Outcomes
  import opened Text
  import opened Schema
  import opened ByteRanges
  import Videos
  import Playback

  /** Drops every trailing `/`. */
  function StripTrailingSlashes(p: string): (r: string)
    ensures |r| <= |p| && r == p[..|r|]
    ensures |r| == 0 || r[|r| - 1] != '/'
    ensures forall j :: |r| <= j < |p| ==> p[j] == '/'
  {
    if |p| > 0 && p[|p| - 1] == '/' then StripTrailingSlashes(p[..|p| - 1]) else p
  }

  /** The last path segment, ignoring trailing separators (POSIX `basename`). */
  function BaseName(p: string): (b: string)
    ensures '/' !in b
  {
    var t := StripTrailingSlashes(p);
    match LastIndexOfChar(t, '/')
    case None => t
    case Some(i) => t[i + 1..]
  }

  /** Node's POSIX `path.extname`: from the last `.` of the last segment to
      its end, except that a segment whose only dot leads it (`.bashrc`),
      the segment `..`, and a segment without a dot have no extension. */
  function ExtName(p: string): (ext: string)
    ensures ext == "" || (ext[0] == '.' && '/' !in ext && '.' !in ext[1..])
    ensures ext != "" ==> EndsWith(BaseName(p), ext) && |ext| < |BaseName(p)|
  {
    var b := BaseName(p);
    match LastIndexOfChar(b, '.')
    case None => ""
    case Some(d) =>
      if d == 0 || b == ".." then ""
      else
        TailAfterLastDot(b, d);
        b[d..]
  }

  /** What follows the last dot of a name without `/` has neither. */
  lemma TailAfterLastDot(b: string, d: nat)
    requires '/' !in b && d < |b| && b[d] == '.'
    requires forall j :: d < j < |b| ==> b[j] != '.'
    ensures b[d..][0] == '.' && '/' !in b[d..] && '.' !in b[d..][1..]
  {
    var t := b[d..];
    forall j | 0 <= j < |t| ensures t[j] == b[d + j] && t[j] != '/' {
      assert b[d + j] in b;
    }
    forall j | 0 <= j < |t[1..]| ensures t[1..][j] != '.' {
      assert t[1..][j] == b[d + 1 + j];
    }
  }

  /** The extensions the upload filter lets through, compared lower-cased. */
  const AllowedExtensions: seq<string> := [".mp4", ".mov", ".avi", ".wmv", ".flv", ".mkv"]

  const UnsupportedType: string := "Only video files (mp4, mov, avi, wmv, flv, mkv) are allowed!"

  /** The upload's `fileFilter`. */
  function FileFilter(originalName: string): (r: Result<()>)
    ensures r.Ok? <==> ToLower(ExtName(originalName)) in AllowedExtensions
    ensures r.Err? ==> r.error == BadRequest(UnsupportedType)
  {
    if ToLower(ExtName(originalName)) in AllowedExtensions then Ok(()) else Err(BadRequest(UnsupportedType))
  }

  /** The name the upload is stored under: the clock reading followed by the
      original extension, case kept. */
  function StoredFilename(now: nat, originalName: string): string
  {
    NatToString(now) + ExtName(originalName)
  }

  /** A name without `/` is its own last segment. */
  lemma BaseNameOfPlain(s: string)
    requires '/' !in s
    ensures BaseName(s) == s
  {
    if |s| > 0 { assert s[|s| - 1] in s; }
    assert StripTrailingSlashes(s) == s;
    forall j | 0 <= j < |s| ensures s[j] != '/' { assert s[j] in s; }
  }

  /** A plain name's extension starts at its last dot, when that dot is not
      its first character. */
  lemma ExtNameOfPlain(s: string, d: nat)
    requires '/' !in s && 0 < d < |s| && s[d] == '.' && s != ".."
    requires forall j :: d < j < |s| ==> s[j] != '.'
    ensures ExtName(s) == s[d..]
  {
    BaseNameOfPlain(s);
    LastIndexOfCharIs(s, '.', d);
  }

  /** A plain name without a dot has no extension. */
  lemma ExtNameOfDotless(s: string)
    requires '/' !in s && '.' !in s
    ensures ExtName(s) == ""
  {
    BaseNameOfPlain(s);
    forall j | 0 <= j < |s| ensures s[j] != '.' { assert s[j] in s; }
  }

  /** A digit string followed by an extension has that extension. */
  lemma ExtNameAfterDigits(digits: string, ext: string)
    requires AllDigits(digits) && |digits| > 0
    requires ext == "" || (ext[0] == '.' && '/' !in ext && '.' !in ext[1..])
    ensures ExtName(digits + ext) == ext
  {
    var s := digits + ext;
    assert '/' !in s by {
      forall j | 0 <= j < |s| ensures s[j] != '/' {
        if j < |digits| { assert IsDigit(digits[j]); } else { assert s[j] == ext[j - |digits|]; assert ext[j - |digits|] in ext; }
      }
    }
    if ext == "" {
      assert '.' !in s by {
        forall j | 0 <= j < |s| ensures s[j] != '.' { assert IsDigit(digits[j]); }
      }
      ExtNameOfDotless(s);
    } else {
      forall j | |digits| < j < |s| ensures s[j] != '.' {
        assert s[j] == ext[1..][j - |digits| - 1];
        assert ext[1..][j - |digits| - 1] in ext[1..];
      }
      assert s[0] != '.' by { assert IsDigit(digits[0]); }
      ExtNameOfPlain(s, |digits|);
      assert s[|digits|..] == ext;
    }
  }

  /** The stored name keeps the original's extension exactly, so it passes
      the filter exactly when the original does. */
  lemma StoredFilenameKeepsExtension(now: nat, originalName: string)
    ensures ExtName(StoredFilename(now, originalName)) == ExtName(originalName)
    ensures FileFilter(StoredFilename(now, originalName)) == FileFilter(originalName)
  {
    ExtNameAfterDigits(NatToString(now), ExtName(originalName));
  }

  /** 500 MiB: the most bytes one upload may carry. */
  const MaxUploadBytes: nat := 1024 * 1024 * 500

  /** The multipart file part as it arrives: its client-side name and size. */
  datatype UploadedFile = UploadedFile(originalName: string, size: nat)

  /** What the upload endpoint answers, with the name the file is kept under. */
  datatype UploadResult = UploadResult(receipt: Videos.UploadReceipt, storedAs: string)

  /** The upload endpoint: the filter rejects the file part first, the size
      cap cuts it off next, then the handler insists on a file and a user
      before handing over to the service. */
  function UploadRoute(
    db: Db, file: Option<UploadedFile>, dto: Videos.CreateVideo, userId: Option<Id>,
    now: nat, newId: Id, writeOk: bool)
    : (r: Result<(UploadResult, Db)>)
    ensures file.Some? && FileFilter(file.value.originalName).Err? ==> r == Err(BadRequest(UnsupportedType))
    ensures file.Some? && FileFilter(file.value.originalName).Ok? && file.value.size > MaxUploadBytes ==>
      r == Err(PayloadTooLarge("File too large"))
    ensures file.None? ==> r == Err(BadRequest("No video file uploaded"))
    ensures file.Some? && FileFilter(file.value.originalName).Ok? && file.value.size <= MaxUploadBytes
            && (userId.None? || userId.value == "") ==>
      r == Err(BadRequest("User not authenticated"))
    ensures file.Some? && FileFilter(file.value.originalName).Ok? && file.value.size <= MaxUploadBytes
            && userId.Some? && userId.value != "" ==>
      && (r.Ok? <==> Videos.UploadVideo(db, dto, userId.value, newId, now, writeOk).Ok?)
      && (r.Err? ==> r.error == Videos.UploadVideo(db, dto, userId.value, newId, now, writeOk).error)
    ensures r.Ok? ==>
      && file.Some? && file.value.size <= MaxUploadBytes
      && ToLower(ExtName(file.value.originalName)) in AllowedExtensions
      && userId.Some? && userId.value != ""
      && r.value.0.storedAs == StoredFilename(now, file.value.originalName)
      && Videos.UploadVideo(db, dto, userId.value, newId, now, writeOk).Ok?
      && r.value.0.receipt == Videos.UploadVideo(db, dto, userId.value, newId, now, writeOk).value.0
      && r.value.1 == Videos.UploadVideo(db, dto, userId.value, newId, now, writeOk).value.1
  {
    match file
    case None => Err(BadRequest("No video file uploaded"))
    case Some(f) =>
      if FileFilter(f.originalName).Err? then Err(BadRequest(UnsupportedType))
      else if f.size > MaxUploadBytes then Err(PayloadTooLarge("File too large"))
      else if userId.None? || userId.value == "" then Err(BadRequest("User not authenticated"))
      else
        match Videos.UploadVideo(db, dto, userId.value, newId, now, writeOk)
        case Err(e) => Err(e)
        case Ok((receipt, db')) => Ok((UploadResult(receipt, StoredFilename(now, f.originalName)), db'))
  }

  /** The stream endpoint: a Range header is required; a NotFound from the
      service passes through, any other failure becomes a generic internal
      error, and a served chunk is always a 206. */
  function StreamRoute(db: Db, id: Id, range: Option<string>, sizeAt: string -> Option<nat>)
    : (r: Result<(nat, Playback.StreamReply)>)
    ensures !Truthy(range) ==> r == Err(BadRequest("Range header is required"))
    ensures r.Ok? ==> r.value.0 == 206
    ensures Truthy(range) ==>
      && (r.Ok? <==> Playback.StreamVideo(db, id, range.value, sizeAt).Ok?)
      && (r.Ok? ==> r.value.1 == Playback.StreamVideo(db, id, range.value, sizeAt).value)
      && (r.Err? ==>
            var e := Playback.StreamVideo(db, id, range.value, sizeAt).error;
            r.error == (if e.NotFound? then e else Internal("Error streaming video")))
  {
    if !Truthy(range) then Err(BadRequest("Range header is required"))
    else
      match Playback.StreamVideo(db, id, range.value, sizeAt)
      case Ok(reply) => Ok((206, reply))
      case Err(e) => if e.NotFound? then Err(e) else Err(Internal("Error streaming video"))
  }

  /** The watch endpoint: 206 exactly when a Range header came with the
      request, 200 otherwise. */
  function WatchRoute(listing: Option<seq<string>>, range: Option<string>, sizeOf: string -> nat)
    : (r: Result<(nat, Playback.WatchReply)>)
    ensures r.Ok? ==> (r.value.0 == 206 <==> Truthy(range)) && r.value.0 in {200, 206}
    ensures r.Ok? <==> Playback.WatchVideo(listing, range, sizeOf).Ok?
    ensures r.Err? ==>
      var e := Playback.WatchVideo(listing, range, sizeOf).error;
      r.error == (if e.NotFound? then e else Internal("Error streaming video"))
  {
    match Playback.WatchVideo(listing, range, sizeOf)
    case Ok(reply) => Ok((if Truthy(range) then 206 else 200, reply))
    case Err(e) => if e.NotFound? then Err(e) else Err(Internal("Error streaming video"))
  }

  /** For a video whose file is on disk, the stream route serves a 206 from
      the header's start exactly when that start lies inside the file; a
      start at or past the end reaches the client as the generic internal
      error, and a missing video as the service's NotFound. */
  lemma StreamRouteFromStart(db: Db, id: Id, range: string, sizeAt: string -> Option<nat>)
    requires range != ""
    ensures FindVideo(db, id).None? ==> StreamRoute(db, id, Some(range), sizeAt) == Err(NotFound("Video not found"))
    ensures FindVideo(db, id).Some? && sizeAt(db.videos[FindVideo(db, id).value].videoUrl).Some? ==>
      var size := sizeAt(db.videos[FindVideo(db, id).value].videoUrl).value;
      var r := StreamRoute(db, id, Some(range), sizeAt);
      && (Playback.StreamStart(range) < size ==>
            r.Ok? && r.value.0 == 206 && r.value.1.chunk.start == Playback.StreamStart(range))
      && (Playback.StreamStart(range) >= size ==> r == Err(Internal("Error streaming video")))
  {
    if FindVideo(db, id).Some? && sizeAt(db.videos[FindVideo(db, id).value].videoUrl).Some? {
      Playback.StreamFrom(db, id, range, sizeAt, Playback.StreamStart(range));
    }
  }

  /** The watch route answers 206 exactly for a reply that carries a byte
      window and a Content-Range header, and 200 for the whole file. */
  lemma WatchRouteStatusMatchesReply(listing: Option<seq<string>>, range: Option<string>, sizeOf: string -> nat)
    requires WatchRoute(listing, range, sizeOf).Ok?
    ensures var (status, reply) := WatchRoute(listing, range, sizeOf).value;
      && (status == 206 <==> reply.window.Some?)
      && (status == 206 <==> HeaderValue(reply.headers, "Content-Range").Some?)
      && (status == 200 <==> reply.window.None?)
  {
  }

  /** Lower-casing leaves a string without capitals as it is. */
  lemma ToLowerOfLower(s: string)
    requires forall j :: 0 <= j < |s| ==> !IsUpper(s[j])
    ensures ToLower(s) == s
  {
  }

  /** A plain stem followed by a dot and a dotless tail has that extension. */
  lemma ExtNameAfterStem(stem: string, ext: string)
    requires '/' !in stem && |stem| > 0
    requires |ext| > 1 && ext[0] == '.' && forall j :: 1 <= j < |ext| ==> ext[j] != '.' && ext[j] != '/'
    ensures ExtName(stem + ext) == ext
  {
    var s := stem + ext;
    assert forall j :: |stem| <= j < |s| ==> s[j] == ext[j - |stem|];
    assert '/' !in s by {
      forall j | 0 <= j < |s| ensures s[j] != '/' {
        if j < |stem| { assert s[j] == stem[j] && stem[j] in stem; }
        else { assert s[j] == ext[j - |stem|]; }
      }
    }
    ExtNameOfPlain(s, |stem|);
    assert s[|stem|..] == ext;
  }

  /** The filter ignores the extension's case. */
  lemma FileFilterIgnoresCase(stem: string)
    requires '/' !in stem && |stem| > 0
    ensures FileFilter(stem + ".MP4").Ok?
  {
    var ext := ".MP4";
    assert ext[1] == 'M' && ext[2] == 'P' && ext[3] == '4';
    ExtNameAfterStem(stem, ext);
    LowerMp4();
  }

  /** Lower-casing `.MP4` gives the first allowed extension. */
  lemma LowerMp4()
    ensures ToLower(".MP4") in AllowedExtensions
  {
    var low := ToLower(".MP4");
    assert low[0] == '.' && low[1] == 'm' && low[2] == 'p' && low[3] == '4';
    assert low == AllowedExtensions[0];
  }

  /** `.exe` is lower case already and is not allowed. */
  lemma LowerExeRefused()
    ensures ToLower(".exe") !in AllowedExtensions
  {
    var ext := ".exe";
    ToLowerOfLower(ext);
    forall k | 0 <= k < |AllowedExtensions| ensures AllowedExtensions[k] != ext {
      assert AllowedExtensions[k][1] != ext[1];
    }
  }

  /** Only the last extension counts, whatever dots come before it: a stem
      such as `clip.mp4` followed by `.exe` is refused. */
  lemma FileFilterLastExtension(stem: string)
    requires '/' !in stem && |stem| > 0
    ensures FileFilter(stem + ".exe").Err?
  {
    var ext := ".exe";
    assert ext[1] == 'e' && ext[2] == 'x' && ext[3] == 'e';
    ExtNameAfterStem(stem, ext);
    LowerExeRefused();
  }

  /** A name that is only a dot and an extension has no extension. */
  lemma FileFilterDotfile()
    ensures FileFilter(".mp4").Err?
  {
    BaseNameOfPlain(".mp4");
    LastIndexOfCharIs(".mp4", '.', 0);
    assert ToLower("") == "";
  }
}

=== FILE: videos.dfy ===
/** The video record's lifecycle in the video service: the upload writes a
    PROCESSING row, background processing gives it exactly one terminal
    status, and the owner may edit or delete it.

    The external steps of processing (directory creation, probing, the
    thumbnail, the encodes and the removal of the source file) are not
    modelled; their outcomes arrive as a `Job` value. */
module Videos {
  import opened Outcomes
  import opened Schema
  import Seqs

  /** The fields a client sends with an upload. */
  datatype CreateVideo = CreateVideo(title: string, description: Option<string>, visibility: Visibility)

  /** What `uploadVideo` answers once the row exists. */
  datatype UploadReceipt = UploadReceipt(
    id: Id,
    title: string,
    status: VideoStatus,
    uploadProgress: nat,
    processingProgress: nat)

  /** The row an upload creates: nothing is known about the media yet. */
  function NewVideo(id: Id, dto: CreateVideo, userId: Id, now: int): Video
  {
    Video(id, dto.title, dto.description, "", "", 0, 0, 0, 0, dto.visibility, userId, PROCESSING, now)
  }

  /** `uploadVideo`: inserts a PROCESSING row authored by the caller. The
      database may refuse the insert (`writeOk` false); any such failure is
      reported as an internal error and nothing is written. */
  function UploadVideo(db: Db, dto: CreateVideo, userId: Id, newId: Id, now: int, writeOk: bool)
    : (r: Result<(UploadReceipt, Db)>)
    ensures !writeOk ==> r == Err(Internal("Failed to upload video"))
    ensures r.Ok? ==> var (receipt, db') := r.value;
      && |db'.videos| == |db.videos| + 1
      && db'.videos[..|db.videos|] == db.videos
      && var v := db'.videos[|db.videos|];
      && v.id == newId && v.authorId == userId
      && v.status == PROCESSING && v.duration == 0 && v.videoUrl == "" && v.thumbnail == ""
      && v.viewsCount == 0 && v.likesCount == 0 && v.dislikesCount == 0
      && v.title == dto.title && v.description == dto.description && v.visibility == dto.visibility
      && receipt == UploadReceipt(newId, dto.title, PROCESSING, 100, 0)
      && db' == db.(videos := db'.videos)
  {
    if !writeOk then Err(Internal("Failed to upload video"))
    else
      var v := NewVideo(newId, dto, userId, now);
      Ok((UploadReceipt(newId, dto.title, PROCESSING, 100, 0), db.(videos := db.videos + [v])))
  }

  /** The probe's answer: a failure, or the container's duration in seconds
      (`None` when the metadata has none, which the code reads as 0). */
  datatype Probe = ProbeFailed | Probed(duration: Option<real>)

  /** How each external step of one processing run ended. `anyEncodeEnded`
      says whether at least one of the four encodes reported `end`: the
      encode step resolves on the first of them and ignores their errors. */
  datatype Job = Job(
    outputDirReady: bool,
    probe: Probe,
    thumbnailWritten: bool,
    anyEncodeEnded: bool,
    sourceRemoved: bool)

  /** Every step of the run succeeded. */
  predicate JobSucceeds(job: Job)
  {
    job.outputDirReady && job.probe.Probed? && job.thumbnailWritten && job.anyEncodeEnded && job.sourceRemoved
  }

  /** JavaScript's `Math.round`: the nearest integer, halves rounded up. */
  function JsRound(x: real): (n: int)
    ensures x - 0.5 < n as real <= x + 0.5
  {
    (x + 0.5).Floor
  }

  /** `metadata.format.duration || 0`, rounded. */
  function RoundedDuration(d: Option<real>): int
  {
    match d
    case None => 0
    case Some(x) => JsRound(x)
  }

  function RenditionUrl(id: Id): string { "videos/" + id + "/1080p.mp4" }

  function ThumbnailUrl(id: Id): string { "videos/" + id + "/thumbnail.jpg" }

  /** Replaces the row with id `id` by `f` of it; an absent row leaves the
      table as it is (the update throws and nothing is written). */
  function UpdateRow(db: Db, id: Id, f: Video -> Video): (db': Db)
    ensures db' == db.(videos := db'.videos) && |db'.videos| == |db.videos|
    ensures FindVideo(db, id).None? ==> db' == db
    ensures FindVideo(db, id).Some? ==> db'.videos == db.videos[FindVideo(db, id).value := f(db.videos[FindVideo(db, id).value])]
  {
    match FindVideo(db, id)
    case None => db
    case Some(i) => db.(videos := db.videos[i := f(db.videos[i])])
  }

  function Publish(v: Video, duration: int): Video
  {
    v.(videoUrl := RenditionUrl(v.id), thumbnail := ThumbnailUrl(v.id), duration := duration, status := PUBLISHED)
  }

  function Discard(v: Video): Video
  {
    v.(status := DELETED)
  }

  /** `processVideo`: on success the row is published with the 1080p
      rendition, the thumbnail and the rounded duration; after any failure
      it is marked DELETED. Exactly one write happens, to that row only.

      This is the corrected behaviour: the code as written never settles
      when every encode fails (see `ProcessVideoAsWritten`). */
  function ProcessVideo(db: Db, id: Id, job: Job): (db': Db)
    ensures db' == db.(videos := db'.videos) && |db'.videos| == |db.videos|
    ensures FindVideo(db, id).None? ==> db' == db
    ensures FindVideo(db, id).Some? ==>
      var i := FindVideo(db, id).value;
      && (forall j :: 0 <= j < |db.videos| && j != i ==> db'.videos[j] == db.videos[j])
      && db'.videos[i].status == (if JobSucceeds(job) then PUBLISHED else DELETED)
      && (JobSucceeds(job) ==>
            db'.videos[i].videoUrl == "videos/" + db.videos[i].id + "/1080p.mp4"
            && db'.videos[i].thumbnail == "videos/" + db.videos[i].id + "/thumbnail.jpg"
            && db'.videos[i].duration == RoundedDuration(job.probe.duration)
            && db'.videos[i] == db.videos[i].(
                 status := PUBLISHED,
                 videoUrl := "videos/" + db.videos[i].id + "/1080p.mp4",
                 thumbnail := "videos/" + db.videos[i].id + "/thumbnail.jpg",
                 duration := RoundedDuration(job.probe.duration)))
      && (!JobSucceeds(job) ==> db'.videos[i] == db.videos[i].(status := DELETED))
  {
    if JobSucceeds(job) then UpdateRow(db, id, v => Publish(v, RoundedDuration(job.probe.duration)))
    else UpdateRow(db, id, Discard)
  }

  /** `processVideo` as written: when no encode reports `end` the encode
      step's promise never settles, so neither status write happens and the
      row stays as it was. */
  function ProcessVideoAsWritten(db: Db, id: Id, job: Job): (db': Db)
    ensures job.anyEncodeEnded || !(job.outputDirReady && job.probe.Probed? && job.thumbnailWritten) ==>
      db' == ProcessVideo(db, id, job)
    ensures job.outputDirReady && job.probe.Probed? && job.thumbnailWritten && !job.anyEncodeEnded ==>
      db' == db
  {
    if job.outputDirReady && job.probe.Probed? && job.thumbnailWritten && !job.anyEncodeEnded then db
    else ProcessVideo(db, id, job)
  }

  /** A run whose every encode fails leaves an uploaded row PROCESSING for
      good under the code as written, while the corrected run marks it
      DELETED. */
  lemma ProcessVideoAsWrittenHangs(db: Db, dto: CreateVideo, userId: Id, newId: Id, now: int)
    requires FindVideo(db, newId).None?
    ensures var up := UploadVideo(db, dto, userId, newId, now, true);
      var job := Job(true, Probed(Some(12.0)), true, false, true);
      && up.Ok?
      && FindVideo(up.value.1, newId).Some?
      && var i := FindVideo(up.value.1, newId).value;
      && ProcessVideoAsWritten(up.value.1, newId, job).videos[i].status == PROCESSING
      && ProcessVideo(up.value.1, newId, job).videos[i].status == DELETED
  {
    var db' := UploadVideo(db, dto, userId, newId, now, true).value.1;
    UploadedRowFound(db, db', newId);
  }

  /** The freshly appended row is the one a lookup by its id finds. */
  lemma UploadedRowFound(db: Db, db': Db, id: Id)
    requires FindVideo(db, id).None?
    requires |db'.videos| == |db.videos| + 1 && db'.videos[..|db.videos|] == db.videos
    requires db'.videos[|db.videos|].id == id
    ensures FindVideo(db', id) == Some(|db.videos|)
  {
    forall j | 0 <= j < |db.videos| ensures db'.videos[j].id != id {
      assert db'.videos[j] == db.videos[j];
    }
    Seqs.FindIndexIs(db'.videos, (v: Video) => v.id == id, |db.videos|);
  }

  predicate Terminal(s: VideoStatus) { s == PUBLISHED || s == DELETED }

  /** An upload followed by its processing run ends in a terminal status
      (PUBLISHED exactly when every step succeeded) and leaves every other
      row of the table as it was before the upload. */
  lemma {:induction false} UploadThenProcess(db: Db, dto: CreateVideo, userId: Id, newId: Id, now: int, job: Job)
    requires FindVideo(db, newId).None?
    ensures var up := UploadVideo(db, dto, userId, newId, now, true);
      && up.Ok?
      && var db2 := ProcessVideo(up.value.1, newId, job);
      && |db2.videos| == |db.videos| + 1
      && db2.videos[..|db.videos|] == db.videos
      && Terminal(db2.videos[|db.videos|].status)
      && (db2.videos[|db.videos|].status == PUBLISHED <==> JobSucceeds(job))
      && db2.videos[|db.videos|].authorId == userId
  {
    var db1 := UploadVideo(db, dto, userId, newId, now, true).value.1;
    UploadedRowFound(db, db1, newId);
    var db2 := ProcessVideo(db1, newId, job);
    assert db2.videos[..|db.videos|] == db.videos by {
      forall j | 0 <= j < |db.videos| ensures db2.videos[j] == db.videos[j] {
        assert db1.videos[j] == db.videos[j];
      }
    }
  }

  /** What `getVideoStatus` reports. */
  datatype StatusReport = StatusReport(
    id: Id,
    status: VideoStatus,
    processingProgress: nat,
    availableQualities: seq<string>,
    estimatedTimeRemaining: string)

  /** `getVideoStatus`: processing counts as complete only once published;
      every other status, including DELETED, reports 50. */
  function GetVideoStatus(db: Db, id: Id): (r: Result<StatusReport>)
    ensures FindVideo(db, id).None? <==> r == Err(NotFound("Video not found"))
    ensures r.Ok? ==> r.value.status == db.videos[FindVideo(db, id).value].status
    ensures r.Ok? ==> (r.value.processingProgress == 100 <==> r.value.status == PUBLISHED)
    ensures r.Ok? ==> r.value.processingProgress in {50, 100}
  {
    match FindVideo(db, id)
    case None => Err(NotFound("Video not found"))
    case Some(i) =>
      var v := db.videos[i];
      var done := v.status == PUBLISHED;
      Ok(StatusReport(v.id, v.status, if done then 100 else 50,
                      ["1080p", "720p", "480p"], if done then "0 minutes" else "2 minutes"))
  }

  /** Right after an upload the new video reports 50; after a successful
      processing run it reports 100, after a failed one 50. */
  lemma StatusAcrossLifecycle(db: Db, dto: CreateVideo, userId: Id, newId: Id, now: int, job: Job)
    requires FindVideo(db, newId).None?
    ensures var db1 := UploadVideo(db, dto, userId, newId, now, true).value.1;
      && GetVideoStatus(db1, newId).Ok?
      && GetVideoStatus(db1, newId).value.processingProgress == 50
      && var db2 := ProcessVideo(db1, newId, job);
      && GetVideoStatus(db2, newId).Ok?
      && GetVideoStatus(db2, newId).value.processingProgress == (if JobSucceeds(job) then 100 else 50)
  {
    var db1 := UploadVideo(db, dto, userId, newId, now, true).value.1;
    UploadedRowFound(db, db1, newId);
    var db2 := ProcessVideo(db1, newId, job);
    var i := |db.videos|;
    assert db2.videos[i].id == newId;
    forall j | 0 <= j < i ensures db2.videos[j].id != newId {
      assert db2.videos[j] == db1.videos[j];
    }
    Seqs.FindIndexIs(db2.videos, (v: Video) => v.id == newId, i);
  }

  /** The editable fields; an absent or empty value keeps the stored one. */
  datatype UpdateVideoFields = UpdateVideoFields(
    title: Option<string>,
    description: Option<string>,
    visibility: Option<Visibility>)

  /** JavaScript's `a || b` for an optional string. */
  function OrElse(a: Option<string>, b: string): string
  {
    if a.Some? && a.value != "" then a.value else b
  }

  function OrElseOpt(a: Option<string>, b: Option<string>): Option<string>
  {
    if a.Some? && a.value != "" then a else b
  }

  function Edit(v: Video, dto: UpdateVideoFields): Video
  {
    v.(title := OrElse(dto.title, v.title),
       description := OrElseOpt(dto.description, v.description),
       visibility := if dto.visibility.Some? then dto.visibility.value else v.visibility)
  }

  /** `updateVideo`: only the author may edit; the title, description and
      visibility change only where a non-empty value is supplied. */
  function UpdateVideo(db: Db, id: Id, dto: UpdateVideoFields, userId: Id): (r: Result<(Video, Db)>)
    ensures FindVideo(db, id).None? ==> r == Err(NotFound("Video not found"))
    ensures FindVideo(db, id).Some? && db.videos[FindVideo(db, id).value].authorId != userId ==>
      r == Err(BadRequest("You are not authorized to update this video"))
    ensures FindVideo(db, id).Some? && db.videos[FindVideo(db, id).value].authorId == userId ==> r.Ok?
    ensures r.Ok? ==>
      var i := FindVideo(db, id).value;
      var (v, db') := r.value;
      && db.videos[i].authorId == userId
      && db' == db.(videos := db.videos[i := v])
      && v.id == db.videos[i].id && v.authorId == userId && v.status == db.videos[i].status
      && v.videoUrl == db.videos[i].videoUrl && v.duration == db.videos[i].duration
      && v.viewsCount == db.videos[i].viewsCount
      && (dto.title.Some? && dto.title.value != "" ==> v.title == dto.title.value)
      && (dto.title.None? || dto.title.value == "" ==> v.title == db.videos[i].title)
      && (dto.visibility.Some? ==> v.visibility == dto.visibility.value)
      && (dto.visibility.None? ==> v.visibility == db.videos[i].visibility)
      && (dto.description.Some? && dto.description.value != "" ==> v.description == dto.description)
      && (dto.description.None? || dto.description.value == "" ==> v.description == db.videos[i].description)
      && v == db.videos[i].(title := v.title, description := v.description, visibility := v.visibility)
  {
    match FindVideo(db, id)
    case None => Err(NotFound("Video not found"))
    case Some(i) =>
      if db.videos[i].authorId != userId then Err(BadRequest("You are not authorized to update this video"))
      else
        var v := Edit(db.videos[i], dto);
        Ok((v, db.(videos := db.videos[i := v])))
  }

  /** Applying the same edit twice gives the same store as applying it once. */
  lemma UpdateVideoIdempotent(db: Db, id: Id, dto: UpdateVideoFields, userId: Id)
    requires UpdateVideo(db, id, dto, userId).Ok?
    ensures var db1 := UpdateVideo(db, id, dto, userId).value.1;
      UpdateVideo(db1, id, dto, userId).Ok? && UpdateVideo(db1, id, dto, userId).value.1 == db1
  {
    var i := FindVideo(db, id).value;
    var db1 := UpdateVideo(db, id, dto, userId).value.1;
    assert db1.videos[i].id == id;
    forall j | 0 <= j < i ensures db1.videos[j].id != id {
      assert db1.videos[j] == db.videos[j];
    }
    Seqs.FindIndexIs(db1.videos, (v: Video) => v.id == id, i);
  }

  /** `deleteVideo`: only the author may delete. `storageOk` is whether the
      removal of the rendition directory and of the row went through; a
      failure there is reported as an internal error with nothing removed. */
  function DeleteVideo(db: Db, id: Id, userId: Id, storageOk: bool): (r: Result<Db>)
    ensures FindVideo(db, id).None? ==> r == Err(NotFound("Video not found"))
    ensures FindVideo(db, id).Some? && db.videos[FindVideo(db, id).value].authorId != userId ==>
      r == Err(BadRequest("You are not authorized to delete this video"))
    ensures FindVideo(db, id).Some? && db.videos[FindVideo(db, id).value].authorId == userId && !storageOk ==>
      r == Err(Internal("Failed to delete video"))
    ensures FindVideo(db, id).Some? && db.videos[FindVideo(db, id).value].authorId == userId && storageOk ==> r.Ok?
    ensures r.Ok? ==>
      && storageOk && FindVideo(db, id).Some?
      && r.value == db.(videos := Seqs.RemoveAt(db.videos, FindVideo(db, id).value))
  {
    match FindVideo(db, id)
    case None => Err(NotFound("Video not found"))
    case Some(i) =>
      if db.videos[i].authorId != userId then Err(BadRequest("You are not authorized to delete this video"))
      else if !storageOk then Err(Internal("Failed to delete video"))
      else Ok(db.(videos := Seqs.RemoveAt(db.videos, i)))
  }

  /** With distinct ids, a deleted video can no longer be found, and every
      other video still can. */
  lemma DeleteVideoRemovesOnlyIt(db: Db, id: Id, userId: Id, other: Id)
    requires UniqueVideoIds(db.videos)
    requires DeleteVideo(db, id, userId, true).Ok?
    ensures var db' := DeleteVideo(db, id, userId, true).value;
      && FindVideo(db', id).None?
      && (other != id ==> FindVideo(db', other).Some? == FindVideo(db, other).Some?)
  {
    var i := FindVideo(db, id).value;
    var db' := DeleteVideo(db, id, userId, true).value;
    forall j | 0 <= j < |db'.videos| ensures db'.videos[j].id != id {
      if j < i { assert db'.videos[j] == db.videos[j]; } else { assert db'.videos[j] == db.videos[j + 1]; }
    }
    Seqs.FindIndexNone(db'.videos, (v: Video) => v.id == id);
    if other != id {
      match FindVideo(db, other)
      case Some(k) =>
        var k' := if k < i then k else k - 1;
        assert db'.videos[k'].id == other;
      case None =>
        forall j | 0 <= j < |db'.videos| ensures db'.videos[j].id != other {
          if j < i { assert db'.videos[j] == db.videos[j]; } else { assert db'.videos[j] == db.videos[j + 1]; }
        }
        Seqs.FindIndexNone(db'.videos, (v: Video) => v.id == other);
    }
  }
}
